=== FILE: README.md ===
# VRE animation retargeting — a Dafny model

This project models the data-shaping core of the VRE avatar viewer:

- how it retargets externally authored motion onto a VRM humanoid, for four formats:
  - BVH: bone-name conversion, mirroring and scaling, and the track filters;
  - VRMA: track-name remapping and the shortest-path quaternion pass;
  - VMD: name map, offsets, axis flips and the lower-body fold;
  - FBX: bone table, track filter and the fixed quaternion correction;
- the avatar's blend-shape weight table, blink switch and pose snapshots;
- the scalar angle bookkeeping of the joint-limit constraints;
- the jump-locomotion planner and its per-frame step;
- the clip catalogue generator (file filter, relative paths, natural sort);
- the CMU description merge;
- the Blender shape-key authoring script (viseme copies, ARKit aliases, delta blends, teeth drivers).

All arithmetic is over exact `real`. Quaternion tracks are flat `seq<real>` holding four values per sample. Transcendental operations enter as parameters rather than definitions:

- `acos` and `pi`;
- axis-angle construction and vector normalisation;
- `slerp`;
- the fixed arm-offset rotations and the FBX correction quaternion.

Every operation is a pure function over immutable datatypes. There are two exceptions, both loops written as methods with invariants: the VRMA shortest-path pass and the VMD index walk.

Modules, leaves first:

- `Options`, `Text`, `Seqs` and `Sorting`: option values, string scans, filters, last-writer-wins maps and a stable insertion sort.
- `Quaternions` and `Animation`: vectors, quaternions, flat sample access, tracks and clips.
- `BvhBoneNames` and `BvhRetarget`, `VrmaRetarget`, `VmdBoneNames` and `VmdRetarget`, and `FbxRetarget`: the four retargeting paths.
- `Avatar`, `JointLimits` and `JumpLocomotion`.
- `Catalogue`, `CmuDescriptions` and `ShapeKeys`: the offline tools.

## Model

| member | source | states |
|---|---|---|
| BvhBoneNames.ConvertBoneNameSpec | js/aframe-vrm-standalone.js:885-961 | a name listed among the 58 anchored aliases becomes the target of its first listed alias; any other name gets the first-occurrence substitutions and then a lower-case first character |
| BvhBoneNames.ConvertBoneName | js/aframe-vrm-standalone.js:960 | the converted name never starts with an upper-case letter |
| BvhBoneNames.ChainIsFirstMatch | js/aframe-vrm-standalone.js:887-948 | the chain of anchored rewrites acts as a first-match table, because no rewrite's target is a later rewrite's source |
| BvhBoneNames.ExactRulesNoChain | js/aframe-vrm-standalone.js:887-948 | no target of the alias chain is re-rewritten by a later alias of the chain |
| BvhBoneNames.SubstitutionsSkip | js/aframe-vrm-standalone.js:951-957 | a name containing none of the substitution patterns passes the substitution stage unchanged |
| BvhBoneNames.GenericExamples | js/aframe-vrm-standalone.js:887-902 | "hip" converts to "hips" and "rCollar" to "rightShoulder" |
| BvhBoneNames.CmuExample | js/aframe-vrm-standalone.js:905-926 | the CMU alias "Spine" converts to "chest" |
| BvhBoneNames.FingerExample | js/aframe-vrm-standalone.js:929-948 | "rThumb1" converts to "rightThumbProximal" |
| BvhRetarget.FindBonesFrom | js/aframe-vrm-standalone.js:963-965 | finds the leftmost `bones[word]` reference at or after a position, or reports that none exists |
| BvhRetarget.BoneNodeName | js/aframe-vrm-standalone.js:964-968 | a bone id the avatar has gives its node name; any other id gives `NODE_NOT_FOUND` |
| BvhRetarget.RenameBonesReparse | js/aframe-vrm-standalone.js:963-969 | after renaming, the reference is found at the same place and holds the avatar node name of the converted bone id |
| BvhRetarget.MirrorValuesInvolution | js/aframe-vrm-standalone.js:971-980 | mirroring each quaternion sample to (-x, y, -z, w) is its own inverse, and it keeps the track length |
| BvhRetarget.ScalePositionsInverse | js/aframe-vrm-standalone.js:981-1010 | position scaling has an exact inverse, and the hips flag adds 0.95 to the vertical components only |
| BvhRetarget.FixTrack | js/aframe-vrm-standalone.js:962-1011 | renames the bone reference and then the first "ToeBase" to "Foot"; keeps the times and the value count; mirrors a quaternion track, scales a position track, mirrors and then scales a track whose name holds both, and copies every other track unchanged |
| BvhRetarget.FixTrackNames | js/aframe-vrm-standalone.js:1013-1016 | keeps exactly the fixed tracks that are neither unmapped nor hip joints, in their original order and each once, and keeps the clip name and duration |
| BvhRetarget.DropUnmapped | js/aframe-vrm-standalone.js:1014 | keeps exactly the tracks naming an avatar node, in order and each once |
| BvhRetarget.DropHipJoints | js/aframe-vrm-standalone.js:1015 | keeps exactly the tracks that are not CMU hip joints, in order and each once |
| BvhRetarget.KeepHipsPositions | js/aframe-vrm-standalone.js:880 | keeps exactly the non-position tracks and the hips position tracks, in order and each once |
| BvhRetarget.LoadClip | js/aframe-vrm-standalone.js:876-884 | fails exactly when the avatar has no hips and a position track remains; otherwise keeps, in order, every track except position tracks whose name lacks the hips node name |
| VrmaRetarget.SplitNodeProperty | js/aframe-vrm-standalone.js:1076 | splits a track name at its last dot that leaves at least one character on each side; reports no split when there is no such dot or a line terminator is present |
| VrmaRetarget.SplitJoin | js/aframe-vrm-standalone.js:1076 | joining a node and a dot-free property with "." and splitting again gives back both parts |
| VrmaRetarget.BoundNode | js/aframe-vrm-standalone.js:1059-1091 | a node is bound exactly when its lower-first name is one of the 25 humanoid names and the avatar has that bone |
| VrmaRetarget.RemapName | js/aframe-vrm-standalone.js:1076-1094 | a bound node is replaced by the avatar node name and the property is kept; every other name is unchanged |
| VrmaRetarget.RemapKeepsProperty | js/aframe-vrm-standalone.js:1076-1094 | the remapped name splits back into the bound node (or the original node) and the same property |
| VrmaRetarget.Hemisphere | js/aframe-vrm-standalone.js:1112-1118 | a sample is kept or negated, and afterwards it lies in the previous sample's hemisphere; a sample already there is kept |
| VrmaRetarget.AlignHemispheres | js/aframe-vrm-standalone.js:1106-1123 | the first sample is kept, each later sample is kept or negated, and every consecutive pair ends with a non-negative dot product; an aligned track is returned unchanged |
| VrmaRetarget.RemapVrmaClip | js/aframe-vrm-standalone.js:1054-1126 | no track is dropped, each track is renamed by the remap, and only `.quaternion` tracks are sign-aligned |
| VmdRetarget.NameMapLookup | js/aframe-vrm-standalone.js:711-719 | a VMD name maps to the node of the last mapping entry that lists it and whose bone the avatar has; otherwise it is not mapped |
| VmdRetarget.AddNames | js/aframe-vrm-standalone.js:715-717 | every listed name now maps to the node, and every other entry is untouched |
| VmdRetarget.MappedName | js/aframe-vrm-standalone.js:781-783 | a motion is renamed only when its name maps to a non-empty node name |
| VmdRetarget.RotationOffsets | js/aframe-vrm-standalone.js:720-730 | offsets exist exactly for the upper-arm nodes the avatar has, as the fixed rotations about Z |
| VmdRetarget.MorphDictionary | js/aframe-vrm-standalone.js:731-738 | a morph name is listed exactly when some table entry names it with a blend shape the avatar has, and it maps to the blend shape of the last such entry, since later writes win |
| VmdRetarget.LastMorph | js/aframe-vrm-standalone.js:731-736 | the index found is the last table entry for the morph whose blend shape the avatar has, or none |
| VmdRetarget.MorphUniqueEntry | js/aframe-vrm-standalone.js:731-736 | a morph named by a single table entry whose blend shape the avatar has maps to that blend shape |
| VmdRetarget.MorphDictionaryPlays | js/aframe-vrm-standalone.js:731-737 | with the VMD table, for any set of avatar expressions, each present expression is the value of its own morph |
| VmdRetarget.RotYHalfTurn | js/aframe-vrm-standalone.js:740-745 | the rotation by (-1, 0) flips the x and z signs of positions and quaternions, and applying it twice is the identity |
| VmdRetarget.RotZIsRotation | js/aframe-vrm-standalone.js:746-751 | with cos² + sin² = 1 the Z step preserves the xy length and is undone by the opposite angle |
| VmdRetarget.ConvertMotion | js/aframe-vrm-standalone.js:780-798 | renames the motion and keeps its frame; scales the position by 0.08, applies the arm offset and flips the x and z signs; for a bone with a Z transform, additionally rotates the flipped position and rotation about Z by that transform |
| VmdRetarget.LookupIndex | js/aframe-vrm-standalone.js:761-763 | the walk stops at the first lower-body key whose frame is not before the target frame, and never passes the last key |
| VmdRetarget.LookupMonotone | js/aframe-vrm-standalone.js:759-763 | on frame-sorted keys, a later target frame never gives an earlier index |
| VmdRetarget.WalkIndices | js/aframe-vrm-standalone.js:759-774 | the shared index walk over sorted targets computes each target's lookup index, and the indices never decrease |
| VmdRetarget.BlendParamRange | js/aframe-vrm-standalone.js:764-768 | blending happens only strictly between two keys, with a parameter in (0, 1); frames outside the key range use the end key unblended |
| VmdRetarget.FoldLowerBody | js/aframe-vrm-standalone.js:769-778 | the center bone absorbs the lower-body rotation, the upper body absorbs its inverse, the lower body becomes the identity, and every other motion is untouched |
| VmdRetarget.LowerBodyKeys | js/aframe-vrm-standalone.js:756-758 | the keys are exactly the lower-body motions of the file, each as often as it occurs, sorted by frame; motions at the same frame keep their file order |
| VmdRetarget.LowerBodyPass | js/aframe-vrm-standalone.js:756-778 | without lower-body keys nothing changes; otherwise every motion is folded against the same sorted keys |
| VmdRetarget.LowerBodyCleared | js/aframe-vrm-standalone.js:778 | after the pass every lower-body rotation is the identity |
| VmdRetarget.ConvertVmd | js/aframe-vrm-standalone.js:720-798 | the lower-body fold runs first, then every motion is converted with the name map and the upper-arm rotation offsets built from the avatar's bones; the motion count is unchanged |
| FbxRetarget.Lookup | js/aframe-fbx-retarget.js:41-71 | a name has a VRM id exactly when the table lists it, and the id is one the table pairs with it |
| FbxRetarget.LookupAt | js/aframe-fbx-retarget.js:190 | the first table entry for a name decides its id |
| FbxRetarget.FbxSpine | js/aframe-fbx-retarget.js:41-71 | the FBX table maps "Spine" to "spine" |
| FbxRetarget.FbxChest | js/aframe-fbx-retarget.js:41-71 | the FBX table maps "Spine1" to "chest" |
| FbxRetarget.BoneSegment | js/aframe-fbx-retarget.js:175-177 | the bone segment is the dot-free text before the first dot |
| FbxRetarget.SegmentsJoin | js/aframe-fbx-retarget.js:175-177 | a name with exactly one dot is its bone segment, a dot, and its property segment |
| FbxRetarget.Premultiply | js/aframe-fbx-retarget.js:242-268 | each complete quaternion sample is replaced by the correction times that sample, and the length is kept |
| FbxRetarget.TargetNode | js/aframe-fbx-retarget.js:190-200 | a track has a target exactly when its bone segment maps to a VRM id the humanoid has, and the target is the humanoid's node for that id |
| FbxRetarget.RetargetTrack | js/aframe-fbx-retarget.js:175-215 | position tracks are dropped; other tracks are kept exactly when mapped, are renamed node.property with the same times, and have the correction applied only to quaternion values |
| FbxRetarget.RetargetTracks | js/aframe-fbx-retarget.js:173-216 | each kept track is the retargeting of its own source track; sources appear in increasing order, and every source that retargets is represented |
| FbxRetarget.RetargetClip | js/aframe-fbx-retarget.js:156-159 | no clip comes back exactly when the scene has no named object; otherwise the clip is named with "_retargeted" and keeps its duration |
| Avatar.GetWeight | js/aframe-vrm-standalone.js:71-73 | an absent name has weight 0; a present name has its stored weight |
| Avatar.SetWeight | js/aframe-vrm-standalone.js:64-70 | the set name now reads back the new weight; every other weight and the blink are unchanged; a zero weight removes the entry |
| Avatar.SetCurrentWeight | js/aframe-vrm-standalone.js:64-73 | writing back the current weight changes nothing |
| Avatar.SetWeightTwice | js/aframe-vrm-standalone.js:64-70 | a second write to the same name overrides the first |
| Avatar.ResetWeights | js/aframe-vrm-standalone.js:74-77 | every weight reads 0 afterwards and the blink is unchanged |
| Avatar.BlinkTrack | js/aframe-vrm-standalone.js:80-86 | the blink clip has four keys from 0 to the interval, fully closed only at the third key |
| Avatar.StartBlink | js/aframe-vrm-standalone.js:78-88 | does nothing while a blink runs; otherwise installs the blink clip and keeps the weights |
| Avatar.StartBlinkIdempotent | js/aframe-vrm-standalone.js:78-88 | starting a blink twice is the same as starting it once |
| Avatar.StopBlink | js/aframe-vrm-standalone.js:89-92 | removes the blink and keeps the weights, so a later start takes effect |
| Avatar.GetPose | js/aframe-vrm-standalone.js:344-352 | lists every bone with its rotation in bone order, and the blend-shape weights only when asked for |
| Avatar.ApplyBonesLast | js/aframe-vrm-standalone.js:355-359 | each avatar bone takes the last pose entry naming it, or keeps its rotation |
| Avatar.ApplyWeightsLast | js/aframe-vrm-standalone.js:362-364 | each weight is the last pose entry naming it, or is unchanged |
| Avatar.SetPose | js/aframe-vrm-standalone.js:353-366 | writes only bones the avatar has, and leaves absent pose sections without effect |
| Avatar.PoseRoundTrip | js/aframe-vrm-standalone.js:344-366 | restoring a full snapshot leaves the avatar unchanged |
| Avatar.RestPose | js/aframe-vrm-standalone.js:367-371 | every bone gets the identity rotation, and the weights are kept |
| Avatar.RestPoseIdempotent | js/aframe-vrm-standalone.js:344-371 | the rest pose is idempotent, and restoring its bone-only snapshot reproduces it |
| JointLimits.NormalizeAngle | js/aframe-vrm-standalone.js:1733-1735 | the normalised angle lies in [-pi, pi) and differs from the input by whole turns |
| JointLimits.NormalizeUnique | js/aframe-vrm-standalone.js:1592-1594 | any angle in [-pi, pi) that differs from the input by whole turns is the normalised angle |
| JointLimits.NormalizeIdempotent | js/aframe-vrm-standalone.js:1733-1735 | normalising twice is normalising once |
| JointLimits.Clamp | js/aframe-vrm-standalone.js:1727 | a clamped value lies in the range and a value already in it is unchanged |
| JointLimits.HingeAngle | js/aframe-vrm-standalone.js:1723-1728 | the hinge angle lies in [min, max] when min <= max, and an angle already in range (modulo whole turns about the midpoint) is kept |
| JointLimits.TwistExcess | js/aframe-vrm-standalone.js:1712-1713 | there is an excess exactly when the twist exceeds the limit in magnitude, and removing it leaves the limit with the twist's sign |
| JointLimits.TwistExcessLandsOnLimit | js/aframe-vrm-standalone.js:1712-1715 | with a positive limit, the corrected twist is exactly plus or minus the limit, with the sign of the original twist |
| JointLimits.PureTwistMeasured | js/aframe-vrm-standalone.js:1710 | a rotation of less than half a turn purely about the twist axis measures as its own rotation angle |
| JointLimits.TwistAsWrittenMisses | js/aframe-vrm-standalone.js:1710 | shows that the twist measure as written reads a half-radian twist as an eighth of a radian and misses a quarter-radian limit |
| JointLimits.TwistStage | js/aframe-vrm-standalone.js:1709-1716 | under either twist measure, the twist is corrected exactly when it exceeds its limit, by rotating back the excess about the twist axis |
| JointLimits.ApplyConstraint | js/aframe-vrm-standalone.js:1704-1732 | for either twist measure: no constraint means no change; a hinge always reports a correction and returns the clamped hinge rotation; a ball reports a correction exactly when it twisted or the swing exceeded its limit, and returns the twist-corrected rotation, replaced by the rotation of exactly the limit about its own axis when its angle exceeds the limit; an uncorrected rotation is returned unchanged |
| JointLimits.ApplyConstraintPoser | js/aframe-vrm-standalone.js:1564-1591 | with constraints disabled the rotation is kept; otherwise no constraint keeps it, a hinge gives the clamped hinge rotation, and a ball gives the twist-corrected rotation, swung back to exactly the limit about its own axis when its angle exceeds the limit |
| JointLimits.BallResult | js/aframe-vrm-standalone.js:1706-1721 | a ball joint without a twist axis starts from the input rotation; a rotation whose normalised angle exceeds the limit becomes the rotation by the limit about its own axis, and one within the limit is kept |
| JointLimits.ConstraintAsWrittenMisses | js/aframe-vrm-standalone.js:1704-1732 | with the twist measure as written, a ball joint with a quarter-radian twist limit leaves a half-radian pure twist uncorrected, while the corrected measure reports a correction |
| JointLimits.MeasureOnlyForTwist | js/aframe-vrm-standalone.js:1564-1591 | the twist measure matters only to a ball joint with a twist axis: a missing constraint, a hinge or a twist-free ball is corrected the same way, and reports the same, under either measure, in the constraint and in the poser |
| JumpLocomotion.Initial | game/jumpTo.js:248-256 | a new jumper stands at its position and is not jumping |
| JumpLocomotion.JumpCount | game/jumpTo.js:358 | the hop count is the least positive count whose strides cover the distance |
| JumpLocomotion.HopLength | game/jumpTo.js:359 | each hop is positive, no longer than the stride, and the hops add up to the distance |
| JumpLocomotion.SegmentDuration | game/jumpTo.js:350-355 | a hop lasts a positive time, 200 ms when there is no jump clip |
| JumpLocomotion.StartMovement | game/jumpTo.js:338-380 | ignored while jumping; the target is flattened to the current height; a target closer than 0.1 starts nothing; otherwise the plan starts at hop 0 with the computed count, hop vector and duration |
| JumpLocomotion.HopsCoverDistance | game/jumpTo.js:358-362 | the planned hops, laid end to end, land exactly on the final target |
| JumpLocomotion.HopHeight | game/jumpTo.js:413-419 | for t in [0, 1] the arc height lies between 0 and the jump height, and it is 0 at the start of a hop |
| JumpLocomotion.Tick | game/jumpTo.js:382-422 | idle means no change; a finished hop advances the start by the hop vector and either lands on the target and stops or restarts the timer; an unfinished hop places the jumper at t in [0, 1) |
| JumpLocomotion.HopStaysUnderArc | game/jumpTo.js:385-419 | while jumping, the placed height lies between the ground track and the jump height above it |
| JumpLocomotion.DefaultJumpPlan | game/jumpTo.js:4-5 | with the default stride a 12-unit move takes three hops of 4 units, and the default arc peaks at the default jump height |
| Catalogue.MotionPaths | generate_animations_json.mjs:7-31 | only entries ending ".vrma" or ".glb" are collected, recursing into directories |
| Catalogue.MotionPathsComplete | generate_animations_json.mjs:13-24 | a path is collected exactly when it is the full path of a ".vrma" or ".glb" file at some depth of the tree, independently of the traversal |
| Catalogue.CatalogueComplete | generate_animations_json.mjs:7-81 | the catalogue lists exactly the tree's motion files, each made relative to the base |
| Catalogue.CollectIsMotionPaths | generate_animations_json.mjs:20-22 | the collected list is the motion paths made relative, one for one, in order |
| Catalogue.RelativeKeepsMotionFile | generate_animations_json.mjs:22 | making a path relative keeps its motion-file suffix |
| Catalogue.RelativeUnderBase | generate_animations_json.mjs:22 | a path under the base directory becomes the part after the base directory and slash |
| Catalogue.CollectedAreMotionFiles | generate_animations_json.mjs:7-31 | every collected path ends in a motion-file suffix |
| Catalogue.KeyOfTake | generate_animations_json.mjs:35-50 | a path `…/<digits>…/<a>_<b>…` is keyed by the directory's digits and the numbers `a` and `b` |
| Catalogue.FileSegment | generate_animations_json.mjs:36-37 | the file segment is the longest suffix without a slash, preceded by a slash when shorter than the path |
| Catalogue.DirSegment | generate_animations_json.mjs:36-38 | the directory segment is empty without a slash, and otherwise is the file segment of what precedes the last slash |
| Catalogue.SegmentsOfPath | generate_animations_json.mjs:36-38 | in `front/dir/file` the two segments are `dir` and `file` |
| Catalogue.KeyCompareLaws | generate_animations_json.mjs:55-66 | comparing keys gives 0 exactly on equal keys, is antisymmetric, and agrees with lexicographic order |
| Catalogue.NaturalCompareLaws | generate_animations_json.mjs:55-66 | the natural comparison gives 0 exactly when the keys agree, is antisymmetric, follows lexicographic key order, and sees nothing but the key |
| Catalogue.SortFiles | generate_animations_json.mjs:81 | the sorted list is a permutation of the input in non-decreasing natural order, and files with equal keys keep their input order |
| Catalogue.Catalogue | generate_animations_json.mjs:7-81 | the catalogue is a naturally ordered permutation of the collected motion files, and files with equal keys keep their search order |
| CmuDescriptions.Pad2 | parser.py:29 | the padded number has at least two digits and reads back as the number |
| CmuDescriptions.DescKeyInjective | parser.py:29 | different subject and motion pairs give different keys |
| CmuDescriptions.ParseDescriptions | parser.py:5-32 | the table holds exactly the keys of the extracted rows, each with the description of its last row |
| CmuDescriptions.SubjectlessBlocksSkipped | parser.py:16-18 | a block without a subject contributes nothing |
| CmuDescriptions.UrlKey | parser.py:50 | a url yields a key exactly when it contains ASCII digits, an underscore, ASCII digits and ".vrma" |
| CmuDescriptions.UrlKeyOfTake | parser.py:50-54 | a url whose text before the take has no ASCII digit run ending in "_" and does not end in an ASCII digit is keyed by the subject and motion numbers of the take `a_b.vrma` |
| CmuDescriptions.Describe | parser.py:50-61 | an unmatched entry is copied unchanged; a matched one becomes exactly its url and the table's description, or "No description found." |
| CmuDescriptions.DescribeAll | parser.py:47-61 | the merge keeps the length, order and url of every entry |
| CmuDescriptions.DescribeAllIdempotent | parser.py:47-61 | merging a second time changes nothing more |
| Text.Strip | parser.py:27 | the stripped text is the input after its leading white space, up to trailing white space only, and neither starts nor ends with white space (the characters of Python's `str.isspace`) |
| ShapeKeys.CreateCopies | vrm_cleanup_enhanced.py:160-168 | copies only add listed names and never change an existing key, and every vertex list keeps the basis length |
| ShapeKeys.CopiesReachTargets | vrm_cleanup_enhanced.py:160-168 | every entry whose source is present ends with its target present |
| ShapeKeys.CopiesFromSources | vrm_cleanup_enhanced.py:160-168 | each created key holds the positions of a source listed for it |
| ShapeKeys.CopiesFromExpressions | vrm_cleanup_enhanced.py:160-181 | with target names apart from source names, copying adds exactly the targets of present sources, each holding its source's original positions |
| ShapeKeys.CopiesComplete | vrm_cleanup_enhanced.py:160-181 | when every listed name whose source exists is already present, the copy step creates nothing |
| ShapeKeys.CopiesSeparated | vrm_cleanup_enhanced.py:160-181 | the copy step leaves the source expressions alone, and afterwards every name whose source exists is present |
| ShapeKeys.EqualWeights | vrm_cleanup_enhanced.py:99-100 | without given weights each source weighs one over the number of sources |
| ShapeKeys.BlendIsBasisPlusDeltas | vrm_cleanup_enhanced.py:111-127 | each blended vertex is the basis plus the weighted deltas of the sources that exist |
| ShapeKeys.BlendWithoutSources | vrm_cleanup_enhanced.py:115-116 | with no source present the blend equals the basis |
| ShapeKeys.BlendSingleSource | vrm_cleanup_enhanced.py:111-127 | one source with weight 1 reproduces that source |
| ShapeKeys.BlendTwoEqual | vrm_cleanup_enhanced.py:99-127 | two sources with default weights give their vertex-wise average |
| ShapeKeys.ZipIgnoresSurplus | vrm_cleanup_enhanced.py:115 | surplus weights beyond the sources are ignored |
| ShapeKeys.CreateBlended | vrm_cleanup_enhanced.py:97-130 | adds exactly the new name and leaves every other key unchanged; when no source is the new name itself, the new key holds the basis plus the deltas of the zipped sources at the given or the equal weights |
| ShapeKeys.LiveBlendWithoutSelf | vrm_cleanup_enhanced.py:108-127 | the loop that runs with the new key already added equals the plain blend when no source names the new key |
| ShapeKeys.SelfSourceScales | vrm_cleanup_enhanced.py:115-127 | a source naming the new key reads the key under construction, so the delta accumulated so far is scaled by one plus its weight |
| ShapeKeys.CreateBlendedReadsItself | vrm_cleanup_enhanced.py:108-127 | with "a" one unit from the basis, blending "a" and the new key "x" at weight 1 leaves "x" two units out, not one |
| ShapeKeys.WeightsFor | vrm_cleanup_enhanced.py:186-191 | "mouthFunnel" takes the listed weights 0.7 and 0.3, and every other name takes the default equal weights |
| ShapeKeys.CreateBlends | vrm_cleanup_enhanced.py:188-193 | adds exactly the table names that are absent, even without sources, and keeps every existing key |
| ShapeKeys.BlendsContents | vrm_cleanup_enhanced.py:188-193 | each created key is the blend of the sources listed for it, read from the input keys, at its chosen weights |
| ShapeKeys.BlendedAfterCopies | vrm_cleanup_enhanced.py:158-193 | a name the blend step creates after the two copy steps holds the blend of its listed sources as they were before the copies |
| ShapeKeys.BlendsComplete | vrm_cleanup_enhanced.py:188-193 | when every table name is present the blend step creates nothing |
| ShapeKeys.PipelineIdempotent | vrm_cleanup_enhanced.py:160-193 | running the three create-if-absent steps a second time changes nothing |
| ShapeKeys.PipelineContents | vrm_cleanup_enhanced.py:160-193 | steps 1 to 3 add exactly the targets of present sources and the blended names, each a copy of a present source or the blend of its sources |
| ShapeKeys.ProcessFace | vrm_cleanup_enhanced.py:158-193 | the face keeps every existing key and gains exactly the viseme and alias targets of present sources and the blended ARKit names, each a copy of its source or the blend of its sources |
| ShapeKeys.ProcessFaceIdempotent | vrm_cleanup_enhanced.py:158-195 | a second run of steps 1-3 on the face creates nothing |
| ShapeKeys.TeethKeyExample | vrm_cleanup_enhanced.py:209 | the face key "h_expressions.AE_AA_h" names the teeth key "h_teeth.t_AE_AA_h" |
| ShapeKeys.MeshDrivers | vrm_cleanup_enhanced.py:206-227 | the `driver_add` calls on one mesh: the k-th call comes from the k-th table entry whose viseme is on the face and whose teeth key is on the mesh, in increasing table order, every such entry once, and carries that entry's teeth key and viseme |
| ShapeKeys.TeethDrivers | vrm_cleanup_enhanced.py:201-227 | every `driver_add` call reads a face viseme and sits on a key of the lower (mesh 0) or upper (mesh 1) teeth, so a missing mesh gets none; every entry that applies to a present mesh gets one |
| ShapeKeys.LastDriving | vrm_cleanup_enhanced.py:206-219 | the index found is the last table entry that drives the teeth key, or none |
| ShapeKeys.MeshFinal | vrm_cleanup_enhanced.py:206-219 | a teeth key keeps a driver exactly when some table entry drives it |
| ShapeKeys.MeshFinalLast | vrm_cleanup_enhanced.py:215-219 | because each entry removes the key's driver before adding its own, a teeth key ends up driven by the viseme of the last entry that drives it |
| ShapeKeys.MeshFinalValues | vrm_cleanup_enhanced.py:206-219 | every remaining driver reads a face viseme and sits on a key of the mesh |
| ShapeKeys.TeethKeyOfTD | vrm_cleanup_enhanced.py:6-18 | "I" and "N" share the teeth key "h_teeth.t_TD_I_h" |
| ShapeKeys.SharedTeethKeyDrivenByI | vrm_cleanup_enhanced.py:206-219 | with "I" on the face a driver from "I" is added to the shared key |
| ShapeKeys.SharedTeethKeyFollowsN | vrm_cleanup_enhanced.py:206-219 | with "N" on the face the shared key ends up driven by "N", which replaces any "I" driver |
| ShapeKeys.MeshState | vrm_cleanup_enhanced.py:201-219 | a missing mesh keeps no drivers; a present mesh keeps drivers only on its own keys, each reading a face viseme, with the shared key following "N" when the face has it |
| ShapeKeys.ProcessVrm | vrm_cleanup_enhanced.py:146-227 | without a face mesh nothing happens; otherwise the face is processed, every driver reads a key of the processed face, and the lower teeth's shared key follows "N" when the face has it |
| Quaternions.MapSamplesInvolution | js/aframe-vrm-standalone.js:971-980 | mapping every sample with a self-inverse function twice gives back the track |
| Quaternions.MapSamplesCompose | js/aframe-fbx-retarget.js:242-268 | mapping samples by two functions in turn is mapping by their composition |
| Sorting.SortBy | js/aframe-vrm-standalone.js:758 | the key sort returns a sorted permutation of its input, and it is stable: for every key value, the elements with that key appear in their input order |
| Sorting.SortSorted | js/aframe-vrm-standalone.js:758 | sorting an already sorted sequence returns it unchanged |
| Seqs.BuildMapLast | parser.py:30 | a dictionary filled in order holds, for each key, the value of its last entry |
| Seqs.FilterAppend | js/aframe-vrm-standalone.js:1013-1016 | filtering distributes over concatenation, so survivors keep their order |
| Seqs.FilterIdempotent | js/aframe-vrm-standalone.js:1013-1016 | filtering twice is filtering once |
| Seqs.Kept | js/aframe-vrm-standalone.js:1013-1016 | the accepted positions of a sequence, each accepted and strictly increasing |
| Seqs.KeptAll | js/aframe-vrm-standalone.js:1013-1016 | every accepted position is among the kept positions |
| Seqs.FilterSelects | js/aframe-vrm-standalone.js:1013-1016 | a filter keeps exactly the accepted elements, in order and each once |
| Seqs.FilterTwice | js/aframe-vrm-standalone.js:1014-1015 | two filters in turn are one filter by their conjunction |
| Text.ReplaceFirst | js/aframe-vrm-standalone.js:951-957 | replaces only the first occurrence of the pattern, and leaves a string without it unchanged |
| Text.LowerFirst | js/aframe-vrm-standalone.js:960 | lower-cases only the first character and keeps the rest |
| Text.DecimalValue | parser.py:29 | the decimal rendering of a number reads back as that number |
| Text.LeadingZeroValue | parser.py:29 | a leading zero does not change the value of a digit string |

## Findings

| source | as written | input that shows it | evidently intended | confidence | as-written member | corrected member |
|---|---|---|---|---|---|---|
| js/aframe-vrm-standalone.js:1710 (also 1573) | the twist angle is `angle * Math.acos(q.w) * dot`, where `angle` is already `2 * acos(w)`, so the rotation angle is multiplied by half of itself | a half-radian rotation purely about the twist axis (`acos(w)` = 0.25, dot = 1) measures 0.125, so a 0.25 twist limit lets it through | `angle * dot`, the same signed measure the hinge branch uses (line 1726), so a pure twist measures its own rotation angle | medium; not executed | JointLimits.TwistAngleAsWritten, shown by JointLimits.TwistAsWrittenMisses | JointLimits.TwistAngle, proved by JointLimits.PureTwistMeasured; JointLimits.ConstraintAsWrittenMisses shows the difference at the constraint level |

## Left out

- The IK solver, spring bones, CANNON physics, look-at and the tick smoothing are floating-point THREE/CANNON geometry. They are not modelled.
- THREE object construction is not modelled: mixer clips, morph binding, bounding boxes and first-person meshes. The same goes for A-Frame lifecycle, events, drag handles, loader wrappers and promises.
- All I/O is outside the model:
  - directory reads and their errors, and `path.join` normalisation (the model joins with "/");
  - file reads and writes in the merge script;
  - Blender operator calls and printing.
- The HTML regular expressions of the description parser are not modelled. Parsing starts from already-extracted blocks of an optional subject number and (motion number, description) rows.
- Transcendentals are parameters, not definitions: `acos`, `pi`, axis-angle construction, vector normalisation, `slerp`, the ±38° arm offsets, the FBX −90° correction, and the distance and normalise functions of the jump planner.
- The scene-graph traversal that spreads an arm's Z transform to its descendants is not modelled; the transform table is an input.
- Random avatar choice, animation crossfades and `lookAt`/`rotateY` in the jump component are side effects on the scene. They are not modelled.
- Only `fbx.animations[0]` is retargeted. Looking the clip up in the loaded file is not modelled.
- The VRM BlendShape wiring (step 5 of the authoring script) is Blender add-on plumbing. It is not modelled.
- Text.LowerFirst: only ASCII letters are lower-cased; JavaScript's `toLowerCase` also maps other scripts.
- BvhRetarget.LoadClip: the hips node name is used as a literal substring, not as a regular expression. A node name containing metacharacters would differ.
- BvhRetarget.MirrorValues and FbxRetarget.Premultiply need whole samples (`|values| % 4 == 0` for the BVH mirror). NaN from a partial trailing sample is not modelled. The FBX product keeps a partial tail unchanged.
- Catalogue.Key: `parseInt` is exact here. Digit runs beyond 2^53 lose precision in JavaScript.
- JumpLocomotion.StartMovement requires a positive stride and a positive clip duration. The component's defaults are positive; zero or negative settings would divide by zero there.
- CmuDescriptions.Describe requires a "url" field. The generator writes plain strings, which the merge script would reject.
- ShapeKeys.ProcessVrm does not model a face without shape keys or without a "Basis" key, which crashes the script. It requires every key to have the basis length.
- JavaScript object prototype keys are not modelled; blend-shape and name maps are plain maps.
- EqualWeights, CreateBlended and CreateBlends require at least one source when no weights are given. An empty source list raises ZeroDivisionError in the script; every entry of its blend table has sources.
- CmuDescriptions.UrlKey: a digit is an ASCII `0`-`9` (Text.IsDigit). Python 3's `\d` also matches other Unicode decimal digits and `int()` reads them, so a url such as "x١_٢.vrma" (Arabic-Indic one and two) is keyed 01_02 by the script and not keyed by the model.
- UrlKeyOfTake: for the same reason its side condition on the text before the take speaks of ASCII digits only; a non-ASCII decimal digit just before the take, or just before an earlier "_", would change the script's first match and is not covered.
- CreateBlended requires the new name to be absent. For a present name Blender's `shape_key_add` would add a renamed key; the script calls it only for absent names (line 189).
- TwistStage, ApplyConstraint and ApplyConstraintPoser take the twist measure as a parameter: `AsWritten` is the program's measure and `Corrected` the evidently intended one (see Findings). Their contracts hold for both.
- The teeth-driver count and the driver objects' fields (variable name, target path, expression) are not modelled; a driver is its mesh, teeth key and viseme.

=== FILE: animation.dfy ===
/** Keyframe tracks and clips as the THREE.js animation system holds them:
    a track is a name ("node.property" or ".bones[Name].property"), sample
    times and a flat value array; a clip is a name, a duration and its tracks. */
module Animation {

  datatype Track = Track(name: string, times: seq<real>, values: seq<real>)

  datatype Clip = Clip(name: string, duration: real, tracks: seq<Track>)
}

=== FILE: avatar.dfy ===
/** The avatar's mutable tables as values: the blend-shape weight map with
    its blink animation, and the bone pose with its snapshot and restore. */
module Avatar {
  import opened Options
  import opened Quaternions
  import Seqs

  // ---------------------------------------------------------------------
  // Blend-shape weights.

  /** The blink animation: a "BLINK" weight track over one interval. */
  datatype Blink = Blink(name: string, times: seq<real>, values: seq<real>)

  /** Current weights (a name with weight 0 is never stored) and the active blink. */
  datatype BlendState = BlendState(current: map<string, real>, blink: Option<Blink>)

  const NoBlend: BlendState := BlendState(map[], None)

  ghost predicate NoZeroWeights(s: BlendState)
  {
    forall n :: n in s.current ==> s.current[n] != 0.0
  }

  /** `getBlendShapeWeight`: the stored weight, or 0. */
  function GetWeight(s: BlendState, name: string): (v: real)
    ensures name !in s.current ==> v == 0.0
    ensures name in s.current ==> v == s.current[name]
  {
    if name in s.current then s.current[name] else 0.0
  }

  /** `setBlendShapeWeight`: store the weight, or delete the name for 0. Any
      name is accepted, a blend shape of the avatar or not. */
  function SetWeight(s: BlendState, name: string, v: real): (r: BlendState)
    ensures r.blink == s.blink
    ensures GetWeight(r, name) == v
    ensures forall n :: n != name ==> GetWeight(r, n) == GetWeight(s, n)
    ensures (name in r.current <==> v != 0.0) && r.current.Keys - {name} == s.current.Keys - {name}
    ensures NoZeroWeights(s) ==> NoZeroWeights(r)
  {
    if v == 0.0 then s.(current := s.current - {name})
    else s.(current := s.current[name := v])
  }

  /** Setting a name to the weight it already reads changes nothing. */
  lemma SetCurrentWeight(s: BlendState, name: string)
    requires NoZeroWeights(s)
    ensures SetWeight(s, name, GetWeight(s, name)) == s
  {
    if name in s.current {
      assert s.current[name := s.current[name]] == s.current;
    } else {
      assert s.current - {name} == s.current;
    }
  }

  /** Two writes to one name: the later wins. */
  lemma SetWeightTwice(s: BlendState, name: string, v: real, w: real)
    ensures SetWeight(SetWeight(s, name, v), name, w) == SetWeight(s, name, w)
  {
    if w == 0.0 {
      assert SetWeight(s, name, v).current - {name} == s.current - {name};
    } else {
      assert SetWeight(s, name, v).current[name := w] == s.current[name := w];
    }
  }

  /** `resetBlendShape`: every weight back to 0; the blink is kept. */
  function ResetWeights(s: BlendState): (r: BlendState)
    ensures r.blink == s.blink
    ensures forall n :: GetWeight(r, n) == 0.0
    ensures NoZeroWeights(r)
  {
    s.(current := map[])
  }

  const BlinkName: string := "BLINK"

  /** The blink track for an interval: blink weights 0, 0, 1, 0, so the eyes
      go open, open, closed, open. */
  function BlinkTrack(interval: real): (b: Blink)
    ensures b.name == BlinkName && |b.times| == |b.values| == 4
    ensures b.times[0] == 0.0 && b.times[3] == interval
    ensures interval > 0.2 ==> forall i, j :: 0 <= i < j < 4 ==> b.times[i] < b.times[j]
    ensures forall k :: 0 <= k < 4 ==> (b.values[k] == 1.0 <==> k == 2) && (b.values[k] == 0.0 <==> k != 2)
  {
    Blink(BlinkName, [0.0, interval - 0.2, interval - 0.1, interval], [0.0, 0.0, 1.0, 0.0])
  }

  /** `startBlink`: does nothing while a blink is active. */
  function StartBlink(s: BlendState, interval: real): (r: BlendState)
    ensures s.blink.Some? ==> r == s
    ensures s.blink.None? ==> r.blink == Some(BlinkTrack(interval)) && r.current == s.current
  {
    if s.blink.Some? then s else s.(blink := Some(BlinkTrack(interval)))
  }

  /** A second `startBlink` never changes the interval of the first. */
  lemma StartBlinkIdempotent(s: BlendState, a: real, b: real)
    ensures StartBlink(StartBlink(s, a), b) == StartBlink(s, a)
  {
  }

  /** `stopBlink`: the blink ends; the weights stay. */
  function StopBlink(s: BlendState): (r: BlendState)
    ensures r.blink.None? && r.current == s.current
    ensures StartBlink(r, 1.0).blink.Some?
  {
    s.(blink := None)
  }

  // ---------------------------------------------------------------------
  // Pose.

  /** The avatar: bone names in their key order with their rotations, the
      blend shapes it defines, and the weight state. */
  datatype Avatar = Avatar(boneNames: seq<string>, bones: map<string, Quat>,
                           shapeNames: seq<string>, blend: BlendState)

  ghost predicate Valid(a: Avatar)
  {
    && (forall i, j :: 0 <= i < j < |a.boneNames| ==> a.boneNames[i] != a.boneNames[j])
    && (forall n :: n in a.bones <==> n in a.boneNames)
    && NoZeroWeights(a.blend)
  }

  /** A pose snapshot: bone rotations, and the weights when exported. */
  datatype Pose = Pose(bones: Option<seq<(string, Quat)>>, blendShape: Option<seq<(string, real)>>)

  /** `getPose`: one entry per bone in key order; with `exportMorph`, one per blend shape. */
  function GetPose(a: Avatar, exportMorph: bool): (p: Pose)
    requires Valid(a)
    ensures p.bones.Some? && |p.bones.value| == |a.boneNames|
    ensures forall k :: 0 <= k < |a.boneNames| ==>
      p.bones.value[k] == (a.boneNames[k], a.bones[a.boneNames[k]])
    ensures p.blendShape.Some? <==> exportMorph
    ensures exportMorph ==> |p.blendShape.value| == |a.shapeNames|
    ensures exportMorph ==> forall k :: 0 <= k < |a.shapeNames| ==>
      p.blendShape.value[k] == (a.shapeNames[k], GetWeight(a.blend, a.shapeNames[k]))
  {
    var bones := seq(|a.boneNames|, k requires 0 <= k < |a.boneNames| => (a.boneNames[k], a.bones[a.boneNames[k]]));
    var weights :=
      if exportMorph then Some(seq(|a.shapeNames|, k requires 0 <= k < |a.shapeNames| =>
        (a.shapeNames[k], GetWeight(a.blend, a.shapeNames[k]))))
      else None;
    Pose(Some(bones), weights)
  }

  /** The bone loop of `setPose`: entries for bones the avatar lacks are skipped. */
  function ApplyBones(bones: map<string, Quat>, entries: seq<(string, Quat)>): (r: map<string, Quat>)
    ensures r.Keys == bones.Keys
    decreases |entries|
  {
    if |entries| == 0 then bones
    else
      var e := entries[|entries| - 1];
      var acc := ApplyBones(bones, entries[..|entries| - 1]);
      if e.0 in acc then acc[e.0 := e.1] else acc
  }

  /** Each bone of the avatar ends up with the last rotation given for it,
      or keeps its own. */
  lemma {:induction false} ApplyBonesLast(bones: map<string, Quat>, entries: seq<(string, Quat)>, n: string)
    requires n in bones
    ensures var k := Seqs.LastEntry(entries, n);
      ApplyBones(bones, entries)[n] == if k >= 0 then entries[k].1 else bones[n]
    decreases |entries|
  {
    if |entries| > 0 {
      ApplyBonesLast(bones, entries[..|entries| - 1], n);
    }
  }

  /** The weight loop of `setPose`. */
  function ApplyWeights(s: BlendState, entries: seq<(string, real)>): (r: BlendState)
    ensures r.blink == s.blink
    ensures NoZeroWeights(s) ==> NoZeroWeights(r)
    decreases |entries|
  {
    if |entries| == 0 then s
    else
      var e := entries[|entries| - 1];
      SetWeight(ApplyWeights(s, entries[..|entries| - 1]), e.0, e.1)
  }

  /** Each name reads the last weight given for it, or keeps its own. */
  lemma {:induction false} ApplyWeightsLast(s: BlendState, entries: seq<(string, real)>, n: string)
    ensures var k := Seqs.LastEntry(entries, n);
      GetWeight(ApplyWeights(s, entries), n) == if k >= 0 then entries[k].1 else GetWeight(s, n)
    decreases |entries|
  {
    if |entries| > 0 {
      ApplyWeightsLast(s, entries[..|entries| - 1], n);
    }
  }

  /** `setPose`: bones the avatar has take the given rotations, then every
      listed weight is set. */
  function SetPose(a: Avatar, p: Pose): (r: Avatar)
    ensures r.boneNames == a.boneNames && r.shapeNames == a.shapeNames
    ensures r.bones.Keys == a.bones.Keys
    ensures p.bones.None? ==> r.bones == a.bones
    ensures p.blendShape.None? ==> r.blend == a.blend
    ensures Valid(a) ==> Valid(r)
  {
    var bones := match p.bones case Some(entries) => ApplyBones(a.bones, entries) case None => a.bones;
    var blend := match p.blendShape case Some(entries) => ApplyWeights(a.blend, entries) case None => a.blend;
    a.(bones := bones, blend := blend)
  }

  /** Rewriting every bone with its own rotation changes nothing. */
  lemma {:induction false} ApplyOwnBones(bones: map<string, Quat>, entries: seq<(string, Quat)>)
    requires forall k :: 0 <= k < |entries| ==> entries[k].0 in bones && bones[entries[k].0] == entries[k].1
    ensures ApplyBones(bones, entries) == bones
    decreases |entries|
  {
    if |entries| > 0 {
      ApplyOwnBones(bones, entries[..|entries| - 1]);
      var e := entries[|entries| - 1];
      assert bones[e.0 := e.1] == bones;
    }
  }

  /** Rewriting weights with the values they read changes nothing. */
  lemma {:induction false} ApplyOwnWeights(s: BlendState, entries: seq<(string, real)>)
    requires NoZeroWeights(s)
    requires forall k :: 0 <= k < |entries| ==> entries[k].1 == GetWeight(s, entries[k].0)
    ensures ApplyWeights(s, entries) == s
    decreases |entries|
  {
    if |entries| > 0 {
      ApplyOwnWeights(s, entries[..|entries| - 1]);
      SetCurrentWeight(s, entries[|entries| - 1].0);
    }
  }

  /** Restoring a full snapshot leaves every rotation and weight as it was. */
  lemma PoseRoundTrip(a: Avatar)
    requires Valid(a)
    ensures SetPose(a, GetPose(a, true)) == a
  {
    var p := GetPose(a, true);
    ApplyOwnBones(a.bones, p.bones.value);
    ApplyOwnWeights(a.blend, p.blendShape.value);
  }

  /** `restPose`: every bone to the identity rotation. */
  function RestPose(a: Avatar): (r: Avatar)
    ensures r.bones.Keys == a.bones.Keys
    ensures forall n :: n in r.bones ==> r.bones[n] == Identity
    ensures r.boneNames == a.boneNames && r.shapeNames == a.shapeNames && r.blend == a.blend
    ensures Valid(a) ==> Valid(r)
  {
    a.(bones := map n | n in a.bones :: Identity)
  }

  /** Resting twice is resting once, and a rest pose snapshot restores the rest pose. */
  lemma RestPoseIdempotent(a: Avatar)
    requires Valid(a)
    ensures RestPose(RestPose(a)) == RestPose(a)
    ensures SetPose(a, GetPose(RestPose(a), false)).bones == RestPose(a).bones
  {
    var p := GetPose(RestPose(a), false);
    var r := SetPose(a, p);
    forall n | n in a.bones ensures r.bones[n] == Identity {
      ApplyBonesLast(a.bones, p.bones.value, n);
      var k :| 0 <= k < |a.boneNames| && a.boneNames[k] == n;
      assert Seqs.LastEntry(p.bones.value, n) >= k;
    }
  }
}

=== FILE: bvh.dfy ===
/** Retargeting of BVH motion-capture clips (the BVH loader wrapper of the
    standalone avatar component): track renaming against the avatar,
    quaternion mirroring, position scaling with a hips-only lift, and the
    track filters. */
module BvhRetarget {
  import opened Text
  import opened Options
  import opened Quaternions
  import opened Animation
  import Seqs
  import opened BvhBoneNames

  // ---------------------------------------------------------------------
  // fixTrackName: the `bones[Name]` reference in a track name.

  /** Characters of an identifier THREE's property paths accept inside `bones[...]` (`\w+`). */
  predicate IsWord(s: string)
  {
    |s| > 0 && forall k :: 0 <= k < |s| ==> IsWordChar(s[k])
  }

  /** `/bones\[(\w+)\]/` matches at `i`: the literal, a non-empty word run, then ']'. */
  predicate BonesAt(s: string, i: nat)
  {
    OccursAt(s, "bones[", i)
    && var e := WordRunEnd(s, i + 6); i + 6 < e < |s| && s[e] == ']'
  }

  /** Leftmost match of `/bones\[(\w+)\]/` at or after `from`. */
  function FindBonesFrom(s: string, from: nat): (r: Option<nat>)
    ensures r.Some? ==> from <= r.value && BonesAt(s, r.value)
    ensures r.Some? ==> forall j :: from <= j < r.value ==> !BonesAt(s, j)
    ensures r.None? ==> forall j :: from <= j ==> !BonesAt(s, j)
    decreases |s| - from
  {
    if from + 6 > |s| then None
    else if BonesAt(s, from) then Some(from)
    else FindBonesFrom(s, from + 1)
  }

  /** The avatar node bound to a humanoid id, or the placeholder the source uses when there is none. */
  function BoneNodeName(bones: map<string, string>, id: string): (r: string)
    ensures id in bones ==> r == bones[id]
    ensures id !in bones ==> r == NodeNotFound
  {
    if id in bones then bones[id] else NodeNotFound
  }

  const NodeNotFound: string := "NODE_NOT_FOUND"

  /** The bone reference of a track name rewritten to the avatar's node name
      for the converted humanoid id; names without a reference are unchanged. */
  function RenameBones(s: string, bones: map<string, string>): (r: string)
    ensures FindBonesFrom(s, 0).None? ==> r == s
    ensures FindBonesFrom(s, 0).Some? ==> r == Splice(s, FindBonesFrom(s, 0).value, RenamedNode(s, bones))
  {
    match FindBonesFrom(s, 0)
    case None => s
    case Some(i) => Splice(s, i, RenamedNode(s, bones))
  }

  /** The node name a matched reference is rewritten to: the avatar node of
      the converted humanoid id. */
  function RenamedNode(s: string, bones: map<string, string>): string
    requires FindBonesFrom(s, 0).Some?
  {
    var i := FindBonesFrom(s, 0).value;
    BoneNodeName(bones, ConvertBoneName(s[i + 6..WordRunEnd(s, i + 6)]))
  }

  /** The matched reference at `i` replaced by one naming `node`; the rest of the name is kept. */
  function Splice(s: string, i: nat, node: string): (r: string)
    requires BonesAt(s, i)
    ensures var e := WordRunEnd(s, i + 6);
      && |r| == |s| - (e - i - 6) + |node|
      && r[..i] == s[..i] && r[|r| - (|s| - e - 1)..] == s[e + 1..]
  {
    var e := WordRunEnd(s, i + 6);
    var r := s[..i] + "bones[" + node + "]" + s[e + 1..];
    assert r[..i] == s[..i];
    r
  }

  /** Two strings that agree from `p` up to a character outside the class have the same run end at `p`. */
  lemma {:induction false} WordRunEndAgree(a: string, b: string, p: nat, q: nat)
    requires p <= q < |a| && q < |b| && a[p..q + 1] == b[p..q + 1] && !IsWordChar(a[q])
    ensures WordRunEnd(a, p) == WordRunEnd(b, p) <= q
    decreases q - p
  {
    assert a[p] == a[p..q + 1][0] == b[p];
    if p < q && IsWordChar(a[p]) {
      assert a[p + 1..q + 1] == a[p..q + 1][1..];
      assert b[p + 1..q + 1] == b[p..q + 1][1..];
      WordRunEndAgree(a, b, p + 1, q);
    }
  }

  /** A run of class characters closed by a non-class character ends there. */
  lemma WordRunEndAt(s: string, p: nat, q: nat)
    requires p <= q < |s| && !IsWordChar(s[q]) && forall k :: p <= k < q ==> IsWordChar(s[k])
    ensures WordRunEnd(s, p) == q
  {
  }

  /** A match needs its whole literal, so a string that agrees with `s` on the
      first `i + 6` characters, ending in '[', has no earlier match than `s`. */
  lemma {:induction false} NoEarlierMatch(s: string, r: string, i: nat)
    requires i + 6 <= |s| && i + 6 <= |r| && r[..i + 6] == s[..i + 6] && s[i + 5] == '['
    requires forall j :: 0 <= j < i ==> !BonesAt(s, j)
    ensures forall j :: 0 <= j < i ==> !BonesAt(r, j)
  {
    var prefix := s[..i + 6];
    assert r[..i + 6] == prefix;
    forall j | 0 <= j < i ensures !BonesAt(r, j) {
      assert !BonesAt(s, j);
      assert r[j..j + 6] == prefix[j..j + 6];
      assert s[j..j + 6] == prefix[j..j + 6];
      if OccursAt(s, "bones[", j) {
        assert r[i + 5] == prefix[i + 5];
        assert r[j + 6..i + 6] == prefix[j + 6..i + 6];
        assert s[j + 6..i + 6] == prefix[j + 6..i + 6];
        WordRunEndAgree(s, r, j + 6, i + 5);
      }
    }
  }

  /** Where the pieces of a spliced reference sit. */
  lemma SplicedLayout(pre: string, node: string, post: string)
    ensures var r := pre + "bones[" + node + "]" + post; var i := |pre|;
      && |r| == i + 7 + |node| + |post|
      && r[..i + 6] == pre + "bones["
      && r[i..i + 6] == "bones["
      && r[i + 6..i + 6 + |node|] == node
      && r[i + 6 + |node|] == ']'
  {
    var mid := pre + "bones[" + node;
    var r := mid + "]" + post;
    assert r[..|mid|] == mid;
  }

  /** A non-empty word run closed by ']' after the literal is a match. */
  lemma WordRunMatch(r: string, i: nat, node: string)
    requires IsWord(node) && i + 6 + |node| < |r|
    requires r[i..i + 6] == "bones[" && r[i + 6..i + 6 + |node|] == node && r[i + 6 + |node|] == ']'
    ensures BonesAt(r, i) && WordRunEnd(r, i + 6) == i + 6 + |node|
  {
    var q := i + 6 + |node|;
    forall k | i + 6 <= k < q ensures IsWordChar(r[k]) {
      assert r[k] == r[i + 6..q][k - i - 6];
    }
    WordRunEndAt(r, i + 6, q);
  }

  lemma RenamedNodeIsWord(s: string, bones: map<string, string>)
    requires forall id :: id in bones ==> IsWord(bones[id])
    requires FindBonesFrom(s, 0).Some?
    ensures IsWord(RenamedNode(s, bones))
  {
    var i := FindBonesFrom(s, 0).value;
    var id := ConvertBoneName(s[i + 6..WordRunEnd(s, i + 6)]);
    NodeNotFoundIsWord();
  }

  lemma NodeNotFoundIsWord()
    ensures IsWord(NodeNotFound)
  {
    var n := NodeNotFound;
    assert n == ['N', 'O', 'D', 'E', '_', 'N', 'O', 'T', '_', 'F', 'O', 'U', 'N', 'D'];
  }

  lemma LiteralPrefix(s: string, i: nat)
    requires OccursAt(s, "bones[", i)
    ensures s[..i + 6] == s[..i] + "bones[" && s[i + 5] == '['
  {
    assert s[i..i + 6] == "bones[";
  }

  /** Where the new reference sits in a spliced name. */
  lemma SpliceLayout(s: string, i: nat, node: string)
    requires BonesAt(s, i)
    ensures var r := Splice(s, i, node);
      && i + 6 + |node| < |r| && s[i + 5] == '['
      && r[..i + 6] == s[..i + 6] && r[i..i + 6] == "bones["
      && r[i + 6..i + 6 + |node|] == node && r[i + 6 + |node|] == ']'
  {
    var e := WordRunEnd(s, i + 6);
    LiteralPrefix(s, i);
    SplicedLayout(s[..i], node, s[e + 1..]);
  }

  /** A string that keeps `s` up to its first match at `i` and has a word run
      closed by ']' right after the literal has its first match at `i` too. */
  lemma ReferenceMoved(s: string, r: string, i: nat, node: string)
    requires FindBonesFrom(s, 0) == Some(i)
    requires IsWord(node) && i + 6 + |node| < |r| && s[i + 5] == '['
    requires r[..i + 6] == s[..i + 6] && r[i..i + 6] == "bones["
    requires r[i + 6..i + 6 + |node|] == node && r[i + 6 + |node|] == ']'
    ensures FindBonesFrom(r, 0) == Some(i)
    ensures r[i + 6..WordRunEnd(r, i + 6)] == node
  {
    WordRunMatch(r, i, node);
    NoEarlierMatch(s, r, i);
  }

  /** Renaming is stable for THREE's binding parser: the rewritten name has its
      bone reference at the same place, and it now names the avatar node. */
  lemma RenameBonesReparse(s: string, bones: map<string, string>)
    requires forall id :: id in bones ==> IsWord(bones[id])
    requires FindBonesFrom(s, 0).Some?
    ensures var i := FindBonesFrom(s, 0).value;
      var r := RenameBones(s, bones);
      && FindBonesFrom(r, 0) == Some(i)
      && r[i + 6..WordRunEnd(r, i + 6)] == BoneNodeName(bones, ConvertBoneName(s[i + 6..WordRunEnd(s, i + 6)]))
  {
    var i := FindBonesFrom(s, 0).value;
    var node := RenamedNode(s, bones);
    var r := RenameBones(s, bones);
    assert r == Splice(s, i, node);
    RenamedNodeIsWord(s, bones);
    SpliceLayout(s, i, node);
    ReferenceMoved(s, r, i, node);
  }

  // ---------------------------------------------------------------------
  // fixTrackName: values.

  /** BVH to VRM handedness: x and z of every rotation sample negated. */
  function MirrorQuat(q: Quat): (r: Quat)
    ensures r.y == q.y && r.w == q.w && r.x == -q.x && r.z == -q.z
  {
    Quat(-q.x, q.y, -q.z, q.w)
  }

  function MirrorValues(vals: seq<real>): (r: seq<real>)
    requires |vals| % 4 == 0
    ensures |r| == |vals|
    ensures forall k :: 0 <= k < |vals| / 4 ==> SampleAt(r, k) == MirrorQuat(SampleAt(vals, k))
  {
    MapSamples(vals, MirrorQuat)
  }

  lemma MirrorValuesInvolution(vals: seq<real>)
    requires |vals| % 4 == 0
    ensures MirrorValues(MirrorValues(vals)) == vals
  {
    MapSamplesInvolution(vals, MirrorQuat);
  }

  const PositionScale: real := 0.013
  const HipsLift: real := 0.95

  /** Positions scaled down; x and z also negated, y of the hips lifted above the floor. */
  function ScalePositions(vals: seq<real>, isHips: bool): (r: seq<real>)
    ensures |r| == |vals|
  {
    seq(|vals|, i requires 0 <= i < |vals| =>
      if i % 3 == 1 then vals[i] * PositionScale + (if isHips then HipsLift else 0.0)
      else -vals[i] * PositionScale)
  }

  /** Reference inverse of the position conversion. */
  function UnscalePositions(vals: seq<real>, isHips: bool): (r: seq<real>)
    ensures |r| == |vals|
  {
    seq(|vals|, i requires 0 <= i < |vals| =>
      if i % 3 == 1 then (vals[i] - (if isHips then HipsLift else 0.0)) / PositionScale
      else -vals[i] / PositionScale)
  }

  /** The position conversion loses nothing: it is undone by its inverse, and
      the hips differ from other bones only by the lift on y. */
  lemma ScalePositionsInverse(vals: seq<real>, isHips: bool)
    ensures UnscalePositions(ScalePositions(vals, isHips), isHips) == vals
    ensures ScalePositions(UnscalePositions(vals, isHips), isHips) == vals
    ensures forall i :: 0 <= i < |vals| ==>
      ScalePositions(vals, true)[i] - ScalePositions(vals, false)[i] == if i % 3 == 1 then HipsLift else 0.0
  {
  }

  /** The name a BVH track gets: bone reference rewritten, then the first
      "ToeBase" turned into "Foot". */
  function FixedName(name: string, bones: map<string, string>): string
  {
    ReplaceFirst(RenameBones(name, bones), "ToeBase", "Foot")
  }

  predicate IsHipsTrack(name: string)
  {
    Contains(name, "hips") || Contains(name, "Hips")
  }

  /** Rotation tracks must hold complete samples for the mirror to be exact. */
  predicate MirrorReady(t: Track, bones: map<string, string>)
  {
    Contains(FixedName(t.name, bones), "quaternion") ==> |t.values| % 4 == 0
  }

  /** One track through `fixTrackName`'s loop body. */
  function FixTrack(t: Track, bones: map<string, string>): (r: Track)
    requires MirrorReady(t, bones)
    ensures r.name == FixedName(t.name, bones) && r.times == t.times && |r.values| == |t.values|
    ensures !Contains(r.name, "quaternion") && !Contains(r.name, "position") ==> r.values == t.values
    ensures Contains(r.name, "quaternion") && !Contains(r.name, "position") ==> r.values == MirrorValues(t.values)
    ensures !Contains(r.name, "quaternion") && Contains(r.name, "position") ==>
      r.values == ScalePositions(t.values, IsHipsTrack(r.name))
    ensures Contains(r.name, "quaternion") && Contains(r.name, "position") ==>
      r.values == ScalePositions(MirrorValues(t.values), IsHipsTrack(r.name))
  {
    var name := FixedName(t.name, bones);
    var rotated := if Contains(name, "quaternion") then MirrorValues(t.values) else t.values;
    var placed := if Contains(name, "position") then ScalePositions(rotated, IsHipsTrack(name)) else rotated;
    Track(name, t.times, placed)
  }

  predicate Unmapped(t: Track) { Contains(t.name, NodeNotFound) }
  predicate HipJoint(t: Track) { Contains(t.name, "HipJoint") }
  predicate Mapped(t: Track) { !Unmapped(t) }
  predicate NotHipJoint(t: Track) { !HipJoint(t) }

  /** The tracks `fixTrackName` keeps. */
  predicate Survives(t: Track) { !Unmapped(t) && !HipJoint(t) }

  /** Every track of a list through `FixTrack`, in order. */
  function FixAll(tracks: seq<Track>, bones: map<string, string>): (r: seq<Track>)
    requires forall k :: 0 <= k < |tracks| ==> MirrorReady(tracks[k], bones)
    ensures |r| == |tracks| && forall k :: 0 <= k < |tracks| ==> r[k] == FixTrack(tracks[k], bones)
  {
    Seqs.Map(tracks, t requires MirrorReady(t, bones) => FixTrack(t, bones))
  }

  /** Tracks whose bone reference found no avatar node are dropped. */
  function DropUnmapped(tracks: seq<Track>): (r: seq<Track>)
    ensures |r| <= |tracks|
    ensures forall t :: t in r <==> t in tracks && !Unmapped(t)
    ensures Seqs.Selects(r, tracks, Mapped)
  {
    Seqs.FilterSelects(tracks, Mapped);
    Seqs.Filter(tracks, Mapped)
  }

  /** CMU's intermediate LHipJoint / RHipJoint tracks are dropped. */
  function DropHipJoints(tracks: seq<Track>): (r: seq<Track>)
    ensures |r| <= |tracks|
    ensures forall t :: t in r <==> t in tracks && !HipJoint(t)
    ensures Seqs.Selects(r, tracks, NotHipJoint)
  {
    Seqs.FilterSelects(tracks, NotHipJoint);
    Seqs.Filter(tracks, NotHipJoint)
  }

  /** `fixTrackName` on a whole clip: every track fixed, then tracks naming no
      avatar bone and CMU hip-joint tracks dropped. */
  function FixTrackNames(clip: Clip, bones: map<string, string>): (r: Clip)
    requires forall k :: 0 <= k < |clip.tracks| ==> MirrorReady(clip.tracks[k], bones)
    ensures r.name == clip.name && r.duration == clip.duration && |r.tracks| <= |clip.tracks|
    ensures forall t :: t in r.tracks <==> t in FixAll(clip.tracks, bones) && !Unmapped(t) && !HipJoint(t)
    ensures Seqs.Selects(r.tracks, FixAll(clip.tracks, bones), Survives)
  {
    var fixed := FixAll(clip.tracks, bones);
    var mapped := DropUnmapped(fixed);
    var kept := DropHipJoints(mapped);
    Seqs.FilterTwice(fixed, Mapped, NotHipJoint, Survives);
    Seqs.FilterSelects(fixed, Survives);
    Clip(clip.name, clip.duration, kept)
  }

  /** The load-time filter: position tracks survive only for the hips node. */
  predicate KeepOnLoad(t: Track, hipsNode: string)
  {
    !Contains(t.name, "position") || Contains(t.name, hipsNode)
  }

  /** The avatar's hips node name; only read when the avatar has one. */
  function HipsNode(bones: map<string, string>): string
  {
    if "hips" in bones then bones["hips"] else ""
  }

  /** Position tracks of bones other than the hips are dropped. */
  function KeepHipsPositions(tracks: seq<Track>, hipsNode: string): (r: seq<Track>)
    ensures |r| <= |tracks|
    ensures forall t :: t in r <==> t in tracks && KeepOnLoad(t, hipsNode)
    ensures Seqs.Selects(r, tracks, t => KeepOnLoad(t, hipsNode))
  {
    var keep := t => KeepOnLoad(t, hipsNode);
    Seqs.FilterSelects(tracks, keep);
    Seqs.Filter(tracks, keep)
  }

  predicate HasPositionTrack(c: Clip)
  {
    exists k :: 0 <= k < |c.tracks| && Contains(c.tracks[k].name, "position")
  }

  /** The clip `load` filters: converted when asked to. */
  function Converted(clip: Clip, bones: map<string, string>, convertBone: bool): Clip
    requires convertBone ==> forall k :: 0 <= k < |clip.tracks| ==> MirrorReady(clip.tracks[k], bones)
  {
    if convertBone then FixTrackNames(clip, bones) else clip
  }

  /** `load`: optional name conversion, then the position filter. The filter
      reads the avatar's hips node only when some track is a position track;
      without a hips bone that read fails, and the result is None. */
  function LoadClip(clip: Clip, bones: map<string, string>, convertBone: bool): (r: Option<Clip>)
    requires convertBone ==> forall k :: 0 <= k < |clip.tracks| ==> MirrorReady(clip.tracks[k], bones)
    ensures r.None? <==> "hips" !in bones && HasPositionTrack(Converted(clip, bones, convertBone))
    ensures r.Some? ==> r.value.name == clip.name && r.value.duration == clip.duration
    ensures r.Some? ==> forall t :: t in r.value.tracks <==>
      t in Converted(clip, bones, convertBone).tracks && KeepOnLoad(t, HipsNode(bones))
    ensures r.Some? ==> Seqs.Selects(r.value.tracks, Converted(clip, bones, convertBone).tracks,
      t => KeepOnLoad(t, HipsNode(bones)))
  {
    var c := Converted(clip, bones, convertBone);
    if "hips" !in bones && HasPositionTrack(c) then None
    else Some(Clip(c.name, c.duration, KeepHipsPositions(c.tracks, HipsNode(bones))))
  }
}

=== FILE: bvh_names.dfy ===
/** `convertBoneName` of the BVH loader wrapper: BVH and CMU skeleton bone
    names to VRM humanoid bone ids. */
module BvhBoneNames {
  import opened Text

  /** Ordered (pattern, replacement) pairs. */
  type RenameRules = seq<(string, string)>

  // ---------------------------------------------------------------------
  // convertBoneName: anchored exact rewrites, grouped as the source groups
  // them (generic BVH names, CMU names, finger names), kept in source order.
  // Each group is split in chunks of at most four rules.

  const GenericHead: RenameRules := [("hip", "hips"), ("abdomen", "spine")]
  const GenericArms: RenameRules :=
    [("rCollar", "rightShoulder"), ("lCollar", "leftShoulder"), ("rShldr", "rightUpperArm"), ("lShldr", "leftUpperArm")]
  const GenericForearms: RenameRules :=
    [("rForeArm", "rightLowerArm"), ("lForeArm", "leftLowerArm"), ("rHand", "rightHand"), ("lHand", "leftHand")]
  const GenericLegs: RenameRules :=
    [("rThigh", "rightUpperLeg"), ("lThigh", "leftUpperLeg"), ("rShin", "rightLowerLeg"), ("lShin", "leftLowerLeg")]
  const GenericFeet: RenameRules := [("rFoot", "rightFoot"), ("lFoot", "leftFoot")]

  const CmuTrunk: RenameRules :=
    [("Hips", "hips"), ("LowerBack", "spine"), ("Spine", "chest"), ("Spine1", "upperChest")]
  const CmuHead: RenameRules :=
    [("Neck", "neck"), ("Head", "head"), ("LeftShoulder", "leftShoulder"), ("LeftArm", "leftUpperArm")]
  const CmuArms: RenameRules :=
    [("LeftForeArm", "leftLowerArm"), ("LeftHand", "leftHand"), ("RightShoulder", "rightShoulder"), ("RightArm", "rightUpperArm")]
  const CmuHands: RenameRules :=
    [("RightForeArm", "rightLowerArm"), ("RightHand", "rightHand"), ("LeftUpLeg", "leftUpperLeg"), ("LeftLeg", "leftLowerLeg")]
  const CmuLeftFoot: RenameRules :=
    [("LeftFoot", "leftFoot"), ("LeftToeBase", "leftToes"), ("RightUpLeg", "rightUpperLeg"), ("RightLeg", "rightLowerLeg")]
  const CmuRightFoot: RenameRules := [("RightFoot", "rightFoot"), ("RightToeBase", "rightToes")]

  const FingerThumbs: RenameRules :=
    [("rThumb1", "rightThumbProximal"), ("rThumb2", "rightThumbIntermediate"),
     ("lThumb1", "leftThumbProximal"), ("lThumb2", "leftThumbIntermediate")]
  const FingerIndex: RenameRules :=
    [("rIndex1", "rightIndexProximal"), ("rIndex2", "rightIndexIntermediate"),
     ("lIndex1", "leftIndexProximal"), ("lIndex2", "leftIndexIntermediate")]
  const FingerMiddle: RenameRules :=
    [("rMid1", "rightMiddleProximal"), ("rMid2", "rightMiddleIntermediate"),
     ("lMid1", "leftMiddleProximal"), ("lMid2", "leftMiddleIntermediate")]
  const FingerRing: RenameRules :=
    [("rRing1", "rightRingProximal"), ("rRing2", "rightRingIntermediate"),
     ("lRing1", "leftRingProximal"), ("lRing2", "leftRingIntermediate")]
  const FingerLittle: RenameRules :=
    [("rPinky1", "rightLittleProximal"), ("rPinky2", "rightLittleIntermediate"),
     ("lPinky1", "leftLittleProximal"), ("lPinky2", "leftLittleIntermediate")]

  const GenericTail: RenameRules := GenericArms + GenericForearms + GenericLegs + GenericFeet
  const GenericRules: RenameRules := GenericHead + GenericTail
  const CmuRules: RenameRules := CmuTrunk + CmuHead + CmuArms + CmuHands + CmuLeftFoot + CmuRightFoot
  const FingerRules: RenameRules := FingerThumbs + FingerIndex + FingerMiddle + FingerRing + FingerLittle

  /** All 58 anchored rewrites, in the order the source applies them. */
  const ExactRules: RenameRules := GenericRules + CmuRules + FingerRules

  /** The unanchored first-occurrence substitutions applied afterwards. */
  const SubstitutionRules: RenameRules :=
    [("Spin1", "Spin"), ("Chest1", "Chest"), ("Chest2", "UpperChest"), ("Collar", "Shoulder"),
     ("Elbow", "LowerArm"), ("Wrist", "Hand"), ("ToeBase", "Toes")]

  /** `name.replace(/^from$/, to)` for each rule in turn: each rule sees the
      output of the previous one. */
  function ApplyExact(rules: RenameRules, name: string): string
    decreases |rules|
  {
    if |rules| == 0 then name
    else ApplyExact(rules[1..], if name == rules[0].0 then rules[0].1 else name)
  }

  /** `name.replace(pattern, replacement)` for each rule in turn. */
  function ApplySubstitutions(rules: RenameRules, name: string): string
    decreases |rules|
  {
    if |rules| == 0 then name
    else ApplySubstitutions(rules[1..], ReplaceFirst(name, rules[0].0, rules[0].1))
  }

  function ConvertBoneName(name: string): (r: string)
    ensures |r| > 0 ==> !IsUpper(r[0])
  {
    LowerFirst(ApplySubstitutions(SubstitutionRules, ApplyExact(ExactRules, name)))
  }

  // ---------------------------------------------------------------------
  // Reference meaning of the exact stage: a first-match table lookup.

  /** Index of the first rule whose pattern is `name`, or -1. */
  function AliasIndex(rules: RenameRules, name: string): (k: int)
    ensures -1 <= k < |rules|
    ensures k >= 0 ==> rules[k].0 == name && forall j :: 0 <= j < k ==> rules[j].0 != name
    ensures k == -1 ==> forall j :: 0 <= j < |rules| ==> rules[j].0 != name
    decreases |rules|
  {
    if |rules| == 0 then -1
    else if rules[0].0 == name then 0
    else var k := AliasIndex(rules[1..], name); if k < 0 then -1 else k + 1
  }

  /** No rewrite produces a name that a later rewrite matches. */
  ghost predicate NoChain(rules: RenameRules)
  {
    forall i, j :: 0 <= i < j < |rules| ==> rules[i].1 != rules[j].0
  }

  lemma {:induction false} NotAnAliasUnchanged(rules: RenameRules, name: string)
    requires forall j :: 0 <= j < |rules| ==> rules[j].0 != name
    ensures ApplyExact(rules, name) == name
    decreases |rules|
  {
    if |rules| > 0 {
      NotAnAliasUnchanged(rules[1..], name);
    }
  }

  /** Without chains, applying the rewrites in sequence is a first-match lookup. */
  lemma {:induction false} ChainIsFirstMatch(rules: RenameRules, name: string)
    requires NoChain(rules)
    ensures var k := AliasIndex(rules, name);
      ApplyExact(rules, name) == if k >= 0 then rules[k].1 else name
    decreases |rules|
  {
    if |rules| > 0 {
      var rest := rules[1..];
      assert NoChain(rest) by {
        forall i, j | 0 <= i < j < |rest| ensures rest[i].1 != rest[j].0 {
          assert rest[i] == rules[i + 1] && rest[j] == rules[j + 1];
        }
      }
      if name == rules[0].0 {
        forall j | 0 <= j < |rest| ensures rest[j].0 != rules[0].1 {
          assert rest[j] == rules[j + 1];
        }
        NotAnAliasUnchanged(rest, rules[0].1);
      } else {
        ChainIsFirstMatch(rest, name);
      }
    }
  }

  // ---------------------------------------------------------------------
  // Shape facts about the table, checked chunk by chunk.

  /** None of the substitution patterns can occur in `s`: it has no digit
      '1' or '2', no 'E', 'W' or 'B', and no 'C' followed by 'o'. */
  predicate SubstitutionFree(s: string)
  {
    forall k :: 0 <= k < |s| ==>
      s[k] != '1' && s[k] != '2' && s[k] != 'E' && s[k] != 'W' && s[k] != 'B' &&
      (s[k] == 'C' ==> k + 1 == |s| || s[k + 1] != 'o')
  }

  /** What every humanoid id in the table looks like: two lower-case letters first. */
  predicate IdShaped(s: string)
  {
    |s| >= 2 && IsLower(s[0]) && IsLower(s[1]) && SubstitutionFree(s)
  }

  /** Generic BVH aliases after the first two: side letter, then a capital, no trailing digit. */
  predicate GenericAlias(s: string)
  {
    |s| >= 2 && IsLower(s[0]) && IsUpper(s[1]) && !IsDigit(s[|s| - 1])
  }

  /** CMU aliases: a capital first. */
  predicate CmuAlias(s: string)
  {
    |s| >= 2 && IsUpper(s[0])
  }

  /** Finger aliases: side letter, then a capital, a joint digit last. */
  predicate FingerAlias(s: string)
  {
    |s| >= 2 && IsLower(s[0]) && IsUpper(s[1]) && IsDigit(s[|s| - 1])
  }

  /** Every target is an id and every pattern satisfies `alias`. */
  predicate Shaped(rules: RenameRules, alias: string -> bool)
    decreases |rules|
  {
    |rules| == 0 || (IdShaped(rules[0].1) && alias(rules[0].0) && Shaped(rules[1..], alias))
  }

  lemma {:induction false} ShapedAppend(a: RenameRules, b: RenameRules, alias: string -> bool)
    requires Shaped(a, alias) && Shaped(b, alias)
    ensures Shaped(a + b, alias)
    decreases |a|
  {
    if |a| > 0 {
      ShapedAppend(a[1..], b, alias);
      assert (a + b)[1..] == a[1..] + b;
    } else {
      assert a + b == b;
    }
  }

  lemma {:induction false} ShapedAt(rules: RenameRules, alias: string -> bool)
    requires Shaped(rules, alias)
    ensures forall k :: 0 <= k < |rules| ==> IdShaped(rules[k].1) && alias(rules[k].0)
    decreases |rules|
  {
    if |rules| > 0 {
      ShapedAt(rules[1..], alias);
      assert forall k :: 1 <= k < |rules| ==> rules[k] == rules[1..][k - 1];
    }
  }

  lemma GenericArmsShaped() ensures Shaped(GenericArms, GenericAlias) {}
  lemma GenericForearmsShaped() ensures Shaped(GenericForearms, GenericAlias) {}
  lemma GenericLegsShaped() ensures Shaped(GenericLegs, GenericAlias) {}
  lemma GenericFeetShaped() ensures Shaped(GenericFeet, GenericAlias) {}
  lemma CmuTrunkShaped() ensures Shaped(CmuTrunk, CmuAlias) {}
  lemma CmuHeadShaped() ensures Shaped(CmuHead, CmuAlias) {}
  lemma CmuArmsShaped() ensures Shaped(CmuArms, CmuAlias) {}
  lemma CmuHandsShaped() ensures Shaped(CmuHands, CmuAlias) {}
  lemma CmuLeftFootShaped() ensures Shaped(CmuLeftFoot, CmuAlias) {}
  lemma CmuRightFootShaped() ensures Shaped(CmuRightFoot, CmuAlias) {}
  lemma RightThumbIds() ensures IdShaped("rightThumbProximal") && IdShaped("rightThumbIntermediate") {}
  lemma FingerThumbsShaped() ensures Shaped(FingerThumbs, FingerAlias) { RightThumbIds(); }
  lemma RightIndexIds() ensures IdShaped("rightIndexProximal") && IdShaped("rightIndexIntermediate") {}
  lemma FingerIndexShaped() ensures Shaped(FingerIndex, FingerAlias) { RightIndexIds(); }
  lemma RightMiddleIds() ensures IdShaped("rightMiddleProximal") && IdShaped("rightMiddleIntermediate") {}
  lemma FingerMiddleShaped() ensures Shaped(FingerMiddle, FingerAlias) { RightMiddleIds(); }
  lemma RightRingIds() ensures IdShaped("rightRingProximal") && IdShaped("rightRingIntermediate") {}
  lemma FingerRingShaped() ensures Shaped(FingerRing, FingerAlias) { RightRingIds(); }
  lemma RightLittleIds() ensures IdShaped("rightLittleProximal") && IdShaped("rightLittleIntermediate") {}
  lemma FingerLittleShaped() ensures Shaped(FingerLittle, FingerAlias) { RightLittleIds(); }

  lemma GroupsShaped()
    ensures Shaped(GenericTail, GenericAlias)
    ensures Shaped(CmuRules, CmuAlias)
    ensures Shaped(FingerRules, FingerAlias)
  {
    GenericArmsShaped(); GenericForearmsShaped(); GenericLegsShaped(); GenericFeetShaped();
    ShapedAppend(GenericArms, GenericForearms, GenericAlias);
    ShapedAppend(GenericArms + GenericForearms, GenericLegs, GenericAlias);
    ShapedAppend(GenericArms + GenericForearms + GenericLegs, GenericFeet, GenericAlias);
    CmuTrunkShaped(); CmuHeadShaped(); CmuArmsShaped(); CmuHandsShaped(); CmuLeftFootShaped(); CmuRightFootShaped();
    ShapedAppend(CmuTrunk, CmuHead, CmuAlias);
    ShapedAppend(CmuTrunk + CmuHead, CmuArms, CmuAlias);
    ShapedAppend(CmuTrunk + CmuHead + CmuArms, CmuHands, CmuAlias);
    ShapedAppend(CmuTrunk + CmuHead + CmuArms + CmuHands, CmuLeftFoot, CmuAlias);
    ShapedAppend(CmuTrunk + CmuHead + CmuArms + CmuHands + CmuLeftFoot, CmuRightFoot, CmuAlias);
    FingerThumbsShaped(); FingerIndexShaped(); FingerMiddleShaped(); FingerRingShaped(); FingerLittleShaped();
    ShapedAppend(FingerThumbs, FingerIndex, FingerAlias);
    ShapedAppend(FingerThumbs + FingerIndex, FingerMiddle, FingerAlias);
    ShapedAppend(FingerThumbs + FingerIndex + FingerMiddle, FingerRing, FingerAlias);
    ShapedAppend(FingerThumbs + FingerIndex + FingerMiddle + FingerRing, FingerLittle, FingerAlias);
  }

  /** Where each group sits in the whole table. */
  lemma ExactSizes()
    ensures |GenericRules| == 16 && |CmuRules| == 22 && |FingerRules| == 20 && |ExactRules| == 58
  {
  }

  lemma ExactLayout()
    ensures |GenericRules| == 16 && |CmuRules| == 22 && |FingerRules| == 20 && |ExactRules| == 58
    ensures forall k :: 0 <= k < 16 ==> ExactRules[k] == GenericRules[k]
    ensures forall k :: 2 <= k < 16 ==> GenericRules[k] == GenericTail[k - 2]
    ensures forall k :: 16 <= k < 38 ==> ExactRules[k] == CmuRules[k - 16]
    ensures forall k :: 38 <= k < 58 ==> ExactRules[k] == FingerRules[k - 38]
    ensures ExactRules[0] == ("hip", "hips") && ExactRules[1] == ("abdomen", "spine")
  {
    ExactSizes();
  }

  /** A capital among the first two characters, which no id has. */
  predicate AliasShaped(s: string)
  {
    |s| >= 2 && (IsUpper(s[0]) || IsUpper(s[1]))
  }

  lemma ExactTargetsShaped()
    ensures forall k :: 0 <= k < |ExactRules| ==> IdShaped(ExactRules[k].1)
  {
    GroupsShaped();
    ShapedAt(GenericTail, GenericAlias);
    ShapedAt(CmuRules, CmuAlias);
    ShapedAt(FingerRules, FingerAlias);
    ExactLayout();
    assert IdShaped("hips") && IdShaped("spine");
  }

  lemma ExactSourcesShaped()
    ensures forall k :: 2 <= k < |ExactRules| ==> AliasShaped(ExactRules[k].0)
  {
    GroupsShaped();
    ShapedAt(GenericTail, GenericAlias);
    ShapedAt(CmuRules, CmuAlias);
    ShapedAt(FingerRules, FingerAlias);
    ExactLayout();
  }

  /** The exact table never feeds one rewrite's output into a later rewrite. */
  lemma ExactRulesNoChain()
    ensures NoChain(ExactRules)
  {
    ExactTargetsShaped();
    ExactSourcesShaped();
    ExactLayout();
    forall i, j | 0 <= i < j < |ExactRules| ensures ExactRules[i].1 != ExactRules[j].0 {
      if j >= 2 {
        assert IdShaped(ExactRules[i].1) && AliasShaped(ExactRules[j].0);
      }
    }
  }

  /** The substitutions leave every string without their key characters alone. */
  lemma SubstitutionsSkip(s: string)
    requires SubstitutionFree(s)
    ensures ApplySubstitutions(SubstitutionRules, s) == s
  {
    assert '1' !in s && '2' !in s && 'E' !in s && 'W' !in s && 'B' !in s;
    MissingCharNotFound(s, "Spin1", 4);
    MissingCharNotFound(s, "Chest1", 5);
    MissingCharNotFound(s, "Chest2", 5);
    forall i | 0 <= i && i + 6 <= |s| ensures !OccursAt(s, "Collar", i) {
      if s[i] == 'C' {
        assert s[i..i + 6][1] == s[i + 1] != 'o';
      } else {
        assert s[i..i + 6][0] == s[i];
      }
    }
    MissingCharNotFound(s, "Elbow", 0);
    MissingCharNotFound(s, "Wrist", 0);
    MissingCharNotFound(s, "ToeBase", 3);
    var r := SubstitutionRules;
    assert ApplySubstitutions(r[7..], s) == s;
    assert ApplySubstitutions(r[6..], s) == s;
    assert ApplySubstitutions(r[5..], s) == s;
    assert ApplySubstitutions(r[4..], s) == s;
    assert ApplySubstitutions(r[3..], s) == s;
    assert ApplySubstitutions(r[2..], s) == s;
    assert ApplySubstitutions(r[1..], s) == s;
  }

  /** `convertBoneName`: an exact alias becomes its humanoid id (the first rule
      that lists it wins); any other name goes through the substitutions and
      has its first character lower-cased. */
  lemma ConvertBoneNameSpec(name: string)
    ensures var k := AliasIndex(ExactRules, name);
      && (k >= 0 ==> ConvertBoneName(name) == ExactRules[k].1)
      && (k < 0 ==> ConvertBoneName(name) == LowerFirst(ApplySubstitutions(SubstitutionRules, name)))
  {
    ExactRulesNoChain();
    ChainIsFirstMatch(ExactRules, name);
    var k := AliasIndex(ExactRules, name);
    if k >= 0 {
      ExactTargetsShaped();
      SubstitutionsSkip(ExactRules[k].1);
    }
  }

  /** The lookup finds rule `k` when it is the first that lists `name`. */
  lemma {:induction false} AliasIndexIs(rules: RenameRules, name: string, k: nat)
    requires k < |rules| && rules[k].0 == name
    requires forall j :: 0 <= j < k ==> rules[j].0 != name
    ensures AliasIndex(rules, name) == k
    decreases k
  {
    if k > 0 {
      assert rules[0].0 != name;
      forall j | 0 <= j < k - 1 ensures rules[1..][j].0 != name {
        assert rules[1..][j] == rules[j + 1];
      }
      AliasIndexIs(rules[1..], name, k - 1);
    }
  }

  /** The first generic aliases. */
  lemma GenericExamples()
    ensures ConvertBoneName("hip") == "hips"
    ensures ConvertBoneName("rCollar") == "rightShoulder"
  {
    ExactLayout();
    ConvertBoneNameSpec("hip");
    AliasIndexIs(ExactRules, "hip", 0);
    ConvertBoneNameSpec("rCollar");
    AliasIndexIs(ExactRules, "rCollar", 2);
  }

  lemma CmuTrunkPrefix()
    ensures ExactRules[16].0 == "Hips" && ExactRules[17].0 == "LowerBack" && ExactRules[18] == ("Spine", "chest")
  {
    ExactLayout();
    assert CmuRules[..4] == CmuTrunk;
  }

  /** A CMU alias that is also a prefix of a later one. */
  lemma CmuExample()
    ensures ConvertBoneName("Spine") == "chest"
  {
    GroupsShaped();
    ShapedAt(GenericTail, GenericAlias);
    ExactLayout();
    ConvertBoneNameSpec("Spine");
    CmuTrunkPrefix();
    forall j | 0 <= j < 18 ensures ExactRules[j].0 != "Spine" {
      if j >= 2 && j < 16 { assert GenericAlias(GenericTail[j - 2].0); }
    }
    AliasIndexIs(ExactRules, "Spine", 18);
  }

  /** The first finger alias. */
  lemma FingerExample()
    ensures ConvertBoneName("rThumb1") == "rightThumbProximal"
  {
    GroupsShaped();
    ShapedAt(GenericTail, GenericAlias);
    ShapedAt(CmuRules, CmuAlias);
    ExactLayout();
    ConvertBoneNameSpec("rThumb1");
    forall j | 0 <= j < 38 ensures ExactRules[j].0 != "rThumb1" {
      if j >= 16 { assert CmuAlias(CmuRules[j - 16].0); }
      else if j >= 2 { assert GenericAlias(GenericTail[j - 2].0); }
    }
    AliasIndexIs(ExactRules, "rThumb1", 38);
  }
}

=== FILE: catalogue.dfy ===
/** The animation catalogue generator: collecting motion files from a
    directory tree, and ordering them by the numbers in their directory and
    file names. */
module Catalogue {
  import opened Text
  import opened Sorting
  import Seqs

  // ---------------------------------------------------------------------
  // Collecting files.

  /** A directory entry: a file, or a directory with its entries. */
  datatype Entry = File(name: string) | Dir(name: string, children: seq<Entry>)

  /** `path.join` of a directory and an entry name. */
  function Join(dir: string, name: string): string
  {
    dir + "/" + name
  }

  /** The motion file suffixes that are collected. */
  predicate IsMotionFile(name: string)
  {
    EndsWith(name, ".vrma") || EndsWith(name, ".glb")
  }

  /** The path of a file relative to the base: the first `base + "/"` removed. */
  function RelativePath(fullPath: string, baseDir: string): string
  {
    ReplaceFirst(fullPath, baseDir + "/", "")
  }

  /** `findVRMAFiles`: in entry order, directories are searched recursively
      and motion files are added with their relative paths. */
  function Collect(dir: string, entries: seq<Entry>, baseDir: string): (files: seq<string>)
    decreases entries
  {
    if |entries| == 0 then []
    else
      var e := entries[0];
      var fullPath := Join(dir, e.name);
      var here :=
        match e
        case Dir(_, children) => Collect(fullPath, children, baseDir)
        case File(name) => if IsMotionFile(name) then [RelativePath(fullPath, baseDir)] else [];
      here + Collect(dir, entries[1..], baseDir)
  }

  /** Every full path of a motion file in the tree, in search order. */
  function MotionPaths(dir: string, entries: seq<Entry>): (paths: seq<string>)
    ensures forall k :: 0 <= k < |paths| ==> IsMotionFile(paths[k])
    decreases entries
  {
    if |entries| == 0 then []
    else
      var e := entries[0];
      var fullPath := Join(dir, e.name);
      var here :=
        match e
        case Dir(_, children) => MotionPaths(fullPath, children)
        case File(name) =>
          if IsMotionFile(name) then
            JoinKeepsMotionFile(dir, name);
            [fullPath]
          else [];
      here + MotionPaths(dir, entries[1..])
  }

  lemma JoinKeepsMotionFile(dir: string, name: string)
    requires IsMotionFile(name)
    ensures IsMotionFile(Join(dir, name))
  {
    if EndsWith(name, ".vrma") {
      SuffixOfJoin(dir, name, ".vrma");
    } else {
      SuffixOfJoin(dir, name, ".glb");
    }
  }

  lemma SuffixOfJoin(dir: string, name: string, suffix: string)
    requires EndsWith(name, suffix)
    ensures EndsWith(Join(dir, name), suffix)
  {
    var j := Join(dir, name);
    assert j[|j| - |suffix|..] == name[|name| - |suffix|..];
  }

  /** The tree's motion files, described without a traversal order: `p` is the
      full path of a motion file at some depth below `dir`. */
  ghost predicate InTree(p: string, dir: string, entries: seq<Entry>)
    decreases entries
  {
    exists i :: 0 <= i < |entries| && InEntry(p, dir, entries[i])
  }

  ghost predicate InEntry(p: string, dir: string, e: Entry)
    decreases e
  {
    match e
    case File(name) => IsMotionFile(name) && p == Join(dir, name)
    case Dir(name, children) => InTree(p, Join(dir, name), children)
  }

  lemma InTreeStep(p: string, dir: string, entries: seq<Entry>)
    requires |entries| > 0
    ensures InTree(p, dir, entries) <==> InEntry(p, dir, entries[0]) || InTree(p, dir, entries[1..])
  {
    if InTree(p, dir, entries) {
      var i :| 0 <= i < |entries| && InEntry(p, dir, entries[i]);
      if i > 0 {
        assert entries[1..][i - 1] == entries[i];
      }
    }
    if InTree(p, dir, entries[1..]) {
      var i :| 0 <= i < |entries[1..]| && InEntry(p, dir, entries[1..][i]);
      assert entries[i + 1] == entries[1..][i];
    }
  }

  /** The search finds every motion file of the tree and nothing else. */
  lemma {:induction false} MotionPathsComplete(p: string, dir: string, entries: seq<Entry>)
    ensures p in MotionPaths(dir, entries) <==> InTree(p, dir, entries)
    decreases entries
  {
    if |entries| > 0 {
      var e := entries[0];
      MotionPathsComplete(p, dir, entries[1..]);
      if e.Dir? {
        MotionPathsComplete(p, Join(dir, e.name), e.children);
      }
      InTreeStep(p, dir, entries);
    }
  }

  /** The collected files are exactly the motion files of the tree, each
      made relative to the base. */
  lemma {:induction false} CollectIsMotionPaths(dir: string, entries: seq<Entry>, baseDir: string)
    ensures var files := Collect(dir, entries, baseDir);
      var paths := MotionPaths(dir, entries);
      |files| == |paths| && forall k :: 0 <= k < |files| ==> files[k] == RelativePath(paths[k], baseDir)
    decreases entries
  {
    if |entries| > 0 {
      var e := entries[0];
      if e.Dir? {
        CollectIsMotionPaths(Join(dir, e.name), e.children, baseDir);
      }
      CollectIsMotionPaths(dir, entries[1..], baseDir);
    }
  }

  /** Removing a piece that ends in '/' keeps a suffix without '/'. */
  lemma RelativeKeepsSuffix(fullPath: string, baseDir: string, suffix: string)
    requires EndsWith(fullPath, suffix) && '/' !in suffix
    ensures EndsWith(RelativePath(fullPath, baseDir), suffix)
  {
    var p := baseDir + "/";
    if Contains(fullPath, p) {
      var i := IndexOf(fullPath, p);
      var r := RelativePath(fullPath, baseDir);
      assert fullPath[i + |p| - 1] == '/';
      assert r[|r| - |suffix|..] == fullPath[|fullPath| - |suffix|..];
    }
  }

  /** A relative path of a motion file still names a motion file. */
  lemma RelativeKeepsMotionFile(fullPath: string, baseDir: string)
    requires IsMotionFile(fullPath)
    ensures IsMotionFile(RelativePath(fullPath, baseDir))
  {
    if EndsWith(fullPath, ".vrma") {
      RelativeKeepsSuffix(fullPath, baseDir, ".vrma");
    } else {
      RelativeKeepsSuffix(fullPath, baseDir, ".glb");
    }
  }

  /** Every collected path still names a motion file. */
  lemma CollectedAreMotionFiles(dir: string, entries: seq<Entry>, baseDir: string)
    ensures forall k :: 0 <= k < |Collect(dir, entries, baseDir)| ==> IsMotionFile(Collect(dir, entries, baseDir)[k])
  {
    var paths := MotionPaths(dir, entries);
    CollectIsMotionPaths(dir, entries, baseDir);
    forall k | 0 <= k < |paths| ensures IsMotionFile(RelativePath(paths[k], baseDir)) {
      RelativeKeepsMotionFile(paths[k], baseDir);
    }
  }

  /** A path under the base loses exactly the base and its '/'. */
  lemma RelativeUnderBase(baseDir: string, rest: string)
    ensures RelativePath(baseDir + "/" + rest, baseDir) == rest
  {
    var p := baseDir + "/";
    var s := p + rest;
    assert s[0..|p|] == p;
    assert IndexOf(s, p) == 0;
    assert s[|p|..] == rest;
  }

  // ---------------------------------------------------------------------
  // The numbers in a path.

  /** The last '/' before `hi`, or -1. */
  function LastSlash(s: string, hi: nat): (k: int)
    requires hi <= |s|
    ensures -1 <= k < hi && (k >= 0 ==> s[k] == '/')
    ensures forall j :: k < j < hi ==> s[j] != '/'
  {
    if hi == 0 then -1 else if s[hi - 1] == '/' then hi - 1 else LastSlash(s, hi - 1)
  }

  /** `parts[parts.length - 1]` of `split('/')`: the longest suffix without '/'. */
  function FileSegment(path: string): (f: string)
    ensures '/' !in f
    ensures |f| <= |path| && path[|path| - |f|..] == f
    ensures |f| < |path| ==> path[|path| - |f| - 1] == '/'
  {
    var k := LastSlash(path, |path|);
    path[k + 1..]
  }

  /** `parts[parts.length - 2] || ''` of `split('/')`: empty without a '/',
      otherwise the last segment of what precedes the last '/'. */
  function DirSegment(path: string): (d: string)
    ensures '/' !in d
    ensures '/' !in path ==> d == ""
    ensures '/' in path ==> d == FileSegment(path[..|path| - |FileSegment(path)| - 1])
  {
    var k := LastSlash(path, |path|);
    if k < 0 then "" else FileSegment(path[..k])
  }

  /** The last segment after a '/' is the file segment. */
  lemma FileSegmentAfterSlash(front: string, last: string)
    requires '/' !in last
    ensures FileSegment(front + "/" + last) == last
  {
    var p := front + "/" + last;
    assert p[|p| - |last| - 1] == '/';
    assert p[|p| - |last|..] == last;
  }

  /** What precedes the last '/' gives the directory segment. */
  lemma DirSegmentAfterSlash(front: string, last: string)
    requires '/' !in last
    ensures DirSegment(front + "/" + last) == FileSegment(front)
  {
    var p := front + "/" + last;
    assert p[|front|] == '/';
    FileSegmentAfterSlash(front, last);
    assert p[..|p| - |last| - 1] == front;
  }

  /** In `front/dir/file` the two segments are `dir` and `file`. */
  lemma SegmentsOfPath(front: string, dir: string, file: string)
    requires '/' !in dir && '/' !in file
    ensures FileSegment(front + "/" + dir + "/" + file) == file
    ensures DirSegment(front + "/" + dir + "/" + file) == dir
  {
    var q := front + "/" + dir;
    FileSegmentAfterSlash(q, file);
    DirSegmentAfterSlash(q, file);
    FileSegmentAfterSlash(front, dir);
  }

  /** The first index at or after `from` holding a digit, or -1. */
  function FirstDigit(s: string, from: nat): (i: int)
    requires from <= |s|
    ensures i == -1 || (from <= i < |s| && IsDigit(s[i]))
    ensures forall j :: from <= j < |s| && (i == -1 || j < i) ==> !IsDigit(s[j])
    decreases |s| - from
  {
    if from == |s| then -1 else if IsDigit(s[from]) then from else FirstDigit(s, from + 1)
  }

  /** `s.match(/(\d+)/)` turned into a number, 0 without a match. */
  function FirstNumber(s: string): nat
  {
    var i := FirstDigit(s, 0);
    if i < 0 then 0 else DigitsValue(s[i..DigitRunEnd(s, i)])
  }

  /** `(\d+)_(\d+)` matches at `i`: a digit run, '_', and a digit. */
  predicate PairAt(s: string, i: nat)
  {
    i < |s| && IsDigit(s[i]) &&
    var e := DigitRunEnd(s, i); e + 1 < |s| && s[e] == '_' && IsDigit(s[e + 1])
  }

  /** The leftmost match of `(\d+)_(\d+)` at or after `from`, or -1. */
  function FirstPair(s: string, from: nat): (i: int)
    requires from <= |s|
    ensures i == -1 || (from <= i && PairAt(s, i))
    ensures forall j :: from <= j < |s| && (i == -1 || j < i) ==> !PairAt(s, j)
    decreases |s| - from
  {
    if from == |s| then -1 else if PairAt(s, from) then from else FirstPair(s, from + 1)
  }

  /** The two numbers of the first `d_d` in a file name, (0, 0) without one. */
  function TakeNumbers(filename: string): (nums: (nat, nat))
    ensures FirstPair(filename, 0) == -1 ==> nums == (0, 0)
  {
    var i := FirstPair(filename, 0);
    if i < 0 then (0, 0)
    else
      var e := DigitRunEnd(filename, i);
      (DigitsValue(filename[i..e]), DigitsValue(filename[e + 1..DigitRunEnd(filename, e + 1)]))
  }

  /** `parseFilename`: directory number, then the two take numbers. */
  function Key(path: string): (k: seq<int>)
    ensures |k| == 3 && k[0] >= 0 && k[1] >= 0 && k[2] >= 0
    ensures k[0] == FirstNumber(DirSegment(path))
    ensures (k[1], k[2]) == TakeNumbers(FileSegment(path))
  {
    var nums := TakeNumbers(FileSegment(path));
    [FirstNumber(DirSegment(path)), nums.0, nums.1]
  }

  /** A digit string followed by a non-digit: its value is the first number. */
  lemma FirstNumberOfDigits(digits: string, rest: string)
    requires |digits| > 0 && AllDigits(digits)
    requires |rest| == 0 || !IsDigit(rest[0])
    ensures FirstNumber(digits + rest) == DigitsValue(digits)
  {
    var s := digits + rest;
    DigitRunEndOf(s, 0, |digits|);
    assert s[0..|digits|] == digits;
  }

  /** A file name `a_b…` with digit strings `a` and `b` takes the numbers of `a` and `b`. */
  lemma TakeNumbersOfPair(a: string, b: string, ext: string)
    requires |a| > 0 && AllDigits(a) && |b| > 0 && AllDigits(b)
    requires |ext| == 0 || !IsDigit(ext[0])
    ensures TakeNumbers(a + "_" + b + ext) == (DigitsValue(a), DigitsValue(b))
  {
    var f := a + "_" + b + ext;
    DigitRunEndOf(f, 0, |a|);
    DigitRunEndOf(f, |a| + 1, |b|);
    assert PairAt(f, 0);
    assert f[0..|a|] == a;
    assert f[|a| + 1..|a| + 1 + |b|] == b;
  }

  lemma DigitsHaveNoSlash(d: string)
    requires AllDigits(d)
    ensures '/' !in d
  {
  }

  /** The key of `front/<dir digits>…/<a>_<b>…`: the directory's number and the two take numbers. */
  lemma KeyOfTake(front: string, dirDigits: string, dirRest: string, a: string, b: string, ext: string)
    requires |dirDigits| > 0 && AllDigits(dirDigits) && (|dirRest| == 0 || !IsDigit(dirRest[0]))
    requires |a| > 0 && AllDigits(a) && |b| > 0 && AllDigits(b) && (|ext| == 0 || !IsDigit(ext[0]))
    requires '/' !in dirRest && '/' !in ext
    ensures Key(front + "/" + (dirDigits + dirRest) + "/" + (a + "_" + b + ext)) ==
      [DigitsValue(dirDigits), DigitsValue(a), DigitsValue(b)]
  {
    var dir, file := dirDigits + dirRest, a + "_" + b + ext;
    DigitsHaveNoSlash(dirDigits);
    DigitsHaveNoSlash(a);
    DigitsHaveNoSlash(b);
    assert '/' !in dir && '/' !in file;
    SegmentsOfPath(front, dir, file);
    FirstNumberOfDigits(dirDigits, dirRest);
    TakeNumbersOfPair(a, b, ext);
  }

  /** The comparison of two parsed keys: the first differing number decides, by subtraction. */
  function KeyCompare(ka: seq<int>, kb: seq<int>): int
    requires |ka| == 3 && |kb| == 3
  {
    if ka[0] != kb[0] then ka[0] - kb[0]
    else if ka[1] != kb[1] then ka[1] - kb[1]
    else ka[2] - kb[2]
  }

  /** `naturalSort`. */
  function NaturalCompare(a: string, b: string): int
  {
    KeyCompare(Key(a), Key(b))
  }

  /** Lexicographic order on three-number keys, written out. */
  lemma LexLeThree(a: seq<int>, b: seq<int>)
    requires |a| == 3 && |b| == 3
    ensures LexLe(a, b) <==> a[0] < b[0] || (a[0] == b[0] && (a[1] < b[1] || (a[1] == b[1] && a[2] <= b[2])))
  {
    var a1, b1 := a[1..], b[1..];
    var a2, b2 := a1[1..], b1[1..];
    assert LexLe(a2[1..], b2[1..]);
    assert LexLe(a2, b2) <==> a[2] <= b[2];
    assert LexLe(a1, b1) <==> a[1] < b[1] || (a[1] == b[1] && LexLe(a2, b2));
  }

  /** The key comparison is zero exactly on equal keys, flips sign with its
      arguments, and orders like the lexicographic key order. */
  lemma KeyCompareLaws(ka: seq<int>, kb: seq<int>)
    requires |ka| == 3 && |kb| == 3
    ensures KeyCompare(ka, kb) == 0 <==> ka == kb
    ensures KeyCompare(ka, kb) == -KeyCompare(kb, ka)
    ensures KeyCompare(ka, kb) <= 0 <==> LexLe(ka, kb)
  {
    if ka[0] == kb[0] && ka[1] == kb[1] && ka[2] == kb[2] {
      assert ka == kb;
    }
    LexLeThree(ka, kb);
  }

  /** `naturalSort` is zero exactly when the three numbers agree, flips sign
      with its arguments, orders like the key, and ignores the rest of the path. */
  lemma NaturalCompareLaws(a: string, b: string, c: string)
    ensures NaturalCompare(a, b) == 0 <==> Key(a) == Key(b)
    ensures NaturalCompare(a, b) == -NaturalCompare(b, a)
    ensures NaturalCompare(a, b) <= 0 <==> LexLe(Key(a), Key(b))
    ensures Key(a) == Key(c) ==> NaturalCompare(a, b) == NaturalCompare(c, b)
  {
    KeyCompareLaws(Key(a), Key(b));
  }

  /** `files.sort(naturalSort)`: a stable sort on the key, so files with equal
      keys keep their search order. */
  function SortFiles(files: seq<string>): (r: seq<string>)
    ensures |r| == |files| && multiset(r) == multiset(files)
    ensures forall i, j :: 0 <= i < j < |r| ==> NaturalCompare(r[i], r[j]) <= 0
    ensures forall v :: Seqs.Filter(r, WithKey(Key, v)) == Seqs.Filter(files, WithKey(Key, v))
  {
    var r := SortBy(files, Key);
    forall i, j | 0 <= i < j < |r| ensures NaturalCompare(r[i], r[j]) <= 0 {
      NaturalCompareLaws(r[i], r[j], r[i]);
    }
    r
  }

  /** Sorting only reorders, so motion files stay motion files. */
  lemma SortKeepsMotionFiles(files: seq<string>)
    requires forall k :: 0 <= k < |files| ==> IsMotionFile(files[k])
    ensures forall k :: 0 <= k < |SortFiles(files)| ==> IsMotionFile(SortFiles(files)[k])
  {
    var r := SortFiles(files);
    forall k | 0 <= k < |r| ensures IsMotionFile(r[k]) {
      assert r[k] in multiset(files);
    }
  }

  /** The catalogue: the collected files in natural order. */
  function Catalogue(dir: string, entries: seq<Entry>, baseDir: string): (r: seq<string>)
    ensures multiset(r) == multiset(Collect(dir, entries, baseDir))
    ensures forall k :: 0 <= k < |r| ==> IsMotionFile(r[k])
    ensures forall i, j :: 0 <= i < j < |r| ==> NaturalCompare(r[i], r[j]) <= 0
    ensures forall v :: Seqs.Filter(r, WithKey(Key, v)) == Seqs.Filter(Collect(dir, entries, baseDir), WithKey(Key, v))
  {
    var files := Collect(dir, entries, baseDir);
    CollectedAreMotionFiles(dir, entries, baseDir);
    SortKeepsMotionFiles(files);
    SortFiles(files)
  }

  /** The catalogue lists, relative to the base, exactly the motion files of the tree. */
  lemma CatalogueComplete(dir: string, entries: seq<Entry>, baseDir: string)
    ensures forall p :: InTree(p, dir, entries) ==> RelativePath(p, baseDir) in Catalogue(dir, entries, baseDir)
    ensures forall x :: x in Catalogue(dir, entries, baseDir) ==>
      exists p :: InTree(p, dir, entries) && x == RelativePath(p, baseDir)
  {
    var r := Catalogue(dir, entries, baseDir);
    var files := Collect(dir, entries, baseDir);
    var paths := MotionPaths(dir, entries);
    CollectIsMotionPaths(dir, entries, baseDir);
    forall p | InTree(p, dir, entries) ensures RelativePath(p, baseDir) in r {
      MotionPathsComplete(p, dir, entries);
      var k :| 0 <= k < |paths| && paths[k] == p;
      assert files[k] in multiset(r);
    }
    forall x | x in r ensures exists p :: InTree(p, dir, entries) && x == RelativePath(p, baseDir) {
      assert x in multiset(files);
      var k :| 0 <= k < |files| && files[k] == x;
      MotionPathsComplete(paths[k], dir, entries);
    }
  }
}

=== FILE: descriptions.dfy ===
/** Attaching the CMU motion descriptions to the animation catalogue: the
    description table keyed by zero-padded subject and motion numbers, and
    the pass over the catalogue entries. Blocks and rows are taken as the
    page's regular expressions extract them. */
module CmuDescriptions {
  import opened Text
  import opened Options
  import Seqs
  import Catalogue

  // ---------------------------------------------------------------------
  // Keys.

  /** `f"{n:02d}"`: decimal, padded with zeros to at least two digits. */
  function Pad2(n: nat): (s: string)
    ensures |s| >= 2 && AllDigits(s) && DigitsValue(s) == n
  {
    DecimalValue(n);
    if n < 10 then
      LeadingZeroValue(Decimal(n));
      "0" + Decimal(n)
    else Decimal(n)
  }

  /** The table key: subject and motion, each padded, joined by '_'. */
  function DescKey(subject: nat, motion: nat): string
  {
    Pad2(subject) + "_" + Pad2(motion)
  }

  /** In `digits + "_" + rest` the first '_' is the one after the digits. */
  lemma FirstUnderscore(digits: string, rest: string)
    requires AllDigits(digits)
    ensures (digits + "_" + rest)[|digits|] == '_'
    ensures forall j :: 0 <= j < |digits| ==> (digits + "_" + rest)[j] != '_'
  {
  }

  /** A digit string ends where '_' begins, so a key determines both numbers. */
  lemma DescKeyInjective(s1: nat, m1: nat, s2: nat, m2: nat)
    requires DescKey(s1, m1) == DescKey(s2, m2)
    ensures s1 == s2 && m1 == m2
  {
    var a, b := Pad2(s1), Pad2(s2);
    var k := DescKey(s1, m1);
    FirstUnderscore(a, Pad2(m1));
    FirstUnderscore(b, Pad2(m2));
    assert |a| == |b|;
    assert a == k[..|a|] == b;
    assert Pad2(m1) == k[|a| + 1..] == Pad2(m2);
  }

  // ---------------------------------------------------------------------
  // The description table.

  /** One extracted block: its subject number, if the block names one, and
      its motion rows as (motion number, raw description). */
  datatype Block = Block(subject: Option<nat>, rows: seq<(nat, string)>)

  /** The table entries of the blocks, in page order; a block without a
      subject contributes nothing. */
  function Entries(blocks: seq<Block>): (es: seq<(string, string)>)
    decreases |blocks|
  {
    if |blocks| == 0 then []
    else
      var b := blocks[0];
      var here :=
        match b.subject
        case None => []
        case Some(subject) =>
          seq(|b.rows|, k requires 0 <= k < |b.rows| => (DescKey(subject, b.rows[k].0), Strip(b.rows[k].1)));
      here + Entries(blocks[1..])
  }

  /** `parse_cmu_descriptions`: the table, later rows overwriting earlier ones. */
  function ParseDescriptions(blocks: seq<Block>): (table: map<string, string>)
    ensures forall key :: key in table <==> exists k :: 0 <= k < |Entries(blocks)| && Entries(blocks)[k].0 == key
    ensures forall key :: key in table ==>
      Seqs.LastEntry(Entries(blocks), key) >= 0 &&
      table[key] == Entries(blocks)[Seqs.LastEntry(Entries(blocks), key)].1
  {
    var es := Entries(blocks);
    forall key | key in Seqs.BuildMap(es)
      ensures Seqs.LastEntry(es, key) >= 0 && Seqs.BuildMap(es)[key] == es[Seqs.LastEntry(es, key)].1
    {
      Seqs.BuildMapLast(es, key);
    }
    Seqs.BuildMap(es)
  }

  /** Blocks without a subject add no entries. */
  lemma {:induction false} SubjectlessBlocksSkipped(blocks: seq<Block>, b: Block)
    requires b.subject.None?
    ensures Entries([b] + blocks) == Entries(blocks)
  {
    assert ([b] + blocks)[1..] == blocks;
  }

  // ---------------------------------------------------------------------
  // The catalogue pass.

  /** A catalogue entry as a JSON object of string fields. */
  type JsonObject = map<string, string>

  const NoDescription: string := "No description found."

  /** `(\d+)_(\d+)\.vrma` matches at `i`. */
  predicate VrmaTakeAt(s: string, i: nat)
  {
    Catalogue.PairAt(s, i) &&
    var e := DigitRunEnd(s, i);
    OccursAt(s, ".vrma", DigitRunEnd(s, e + 1))
  }

  /** The leftmost match at or after `from`, or -1. */
  function FirstVrmaTake(s: string, from: nat): (i: int)
    requires from <= |s|
    ensures i == -1 || (from <= i && VrmaTakeAt(s, i))
    ensures forall j :: from <= j < |s| && (i == -1 || j < i) ==> !VrmaTakeAt(s, j)
    decreases |s| - from
  {
    if from == |s| then -1 else if VrmaTakeAt(s, from) then from else FirstVrmaTake(s, from + 1)
  }

  /** The key of a url with a `d_d.vrma` take, if it has one. */
  function UrlKey(url: string): (key: Option<string>)
    ensures key.None? <==> FirstVrmaTake(url, 0) == -1
  {
    var i := FirstVrmaTake(url, 0);
    if i < 0 then None
    else
      var e := DigitRunEnd(url, i);
      var subject := DigitsValue(url[i..e]);
      var motion := DigitsValue(url[e + 1..DigitRunEnd(url, e + 1)]);
      Some(DescKey(subject, motion))
  }

  /** A url whose prefix holds no digit run ending in '_' and does not end in a
      digit is keyed by the take `a_b.vrma` that follows the prefix. */
  lemma UrlKeyOfTake(prefix: string, a: string, b: string, rest: string)
    requires |a| > 0 && AllDigits(a) && |b| > 0 && AllDigits(b)
    requires |prefix| == 0 || !IsDigit(prefix[|prefix| - 1])
    requires forall k :: 0 < k < |prefix| && prefix[k] == '_' ==> !IsDigit(prefix[k - 1])
    ensures UrlKey(prefix + (a + "_" + b + ".vrma") + rest) == Some(DescKey(DigitsValue(a), DigitsValue(b)))
  {
    var t := a + "_" + b + ".vrma";
    var url := prefix + t + rest;
    assert url[|prefix|..|prefix| + |t|] == t && url[..|prefix|] == prefix;
    FirstTakeAt(url, prefix, a, b);
    UrlKeyAt(url, |prefix|, a, b);
  }

  /** The same, for a url given by what it holds at the leftmost match. */
  lemma UrlKeyAt(url: string, i: nat, a: string, b: string)
    requires |a| > 0 && AllDigits(a) && |b| > 0 && AllDigits(b)
    requires i + |a| + |b| + 6 <= |url| && FirstVrmaTake(url, 0) == i
    requires url[i..i + |a| + |b| + 6] == a + "_" + b + ".vrma"
    ensures UrlKey(url) == Some(DescKey(DigitsValue(a), DigitsValue(b)))
  {
    TakeMatch(url, i, a, b);
    UrlKeyGroups(url, i, a, b);
  }

  /** With the leftmost match at `i`, the groups are `a` and `b`. */
  lemma UrlKeyGroups(url: string, i: nat, a: string, b: string)
    requires AllDigits(a) && AllDigits(b) && i + |a| + 1 + |b| <= |url|
    requires DigitRunEnd(url, i) == i + |a| && url[i..i + |a|] == a
    requires DigitRunEnd(url, i + |a| + 1) == i + |a| + 1 + |b| && url[i + |a| + 1..i + |a| + 1 + |b|] == b
    requires FirstVrmaTake(url, 0) == i
    ensures UrlKey(url) == Some(DescKey(DigitsValue(a), DigitsValue(b)))
  {
    UrlKeyFrom(url, i);
  }

  /** The match at the end of the prefix is the leftmost one. */
  lemma FirstTakeAt(url: string, prefix: string, a: string, b: string)
    requires |a| > 0 && AllDigits(a) && |b| > 0 && AllDigits(b)
    requires |prefix| == 0 || !IsDigit(prefix[|prefix| - 1])
    requires forall k :: 0 < k < |prefix| && prefix[k] == '_' ==> !IsDigit(prefix[k - 1])
    requires |prefix| + |a| + |b| + 6 <= |url| && url[..|prefix|] == prefix
    requires url[|prefix|..|prefix| + |a| + |b| + 6] == a + "_" + b + ".vrma"
    ensures FirstVrmaTake(url, 0) == |prefix|
  {
    TakeMatch(url, |prefix|, a, b);
    NoTakeBefore(prefix, url);
  }

  /** The key read from the leftmost match at `i`. */
  lemma UrlKeyFrom(url: string, i: nat)
    requires i <= |url| && FirstVrmaTake(url, 0) == i
    ensures var e := DigitRunEnd(url, i);
      UrlKey(url) == Some(DescKey(DigitsValue(url[i..e]), DigitsValue(url[e + 1..DigitRunEnd(url, e + 1)])))
  {
  }

  lemma NoTakeBefore(prefix: string, url: string)
    requires |prefix| <= |url| && url[..|prefix|] == prefix
    requires |prefix| == 0 || !IsDigit(prefix[|prefix| - 1])
    requires forall k :: 0 < k < |prefix| && prefix[k] == '_' ==> !IsDigit(prefix[k - 1])
    ensures forall j :: 0 <= j < |prefix| ==> !VrmaTakeAt(url, j)
  {
    forall j | 0 <= j < |prefix| ensures !VrmaTakeAt(url, j) {
      NoTakeInPrefix(prefix, url, j);
    }
  }

  /** `a_b.vrma` written at `i` is a match there, and its groups are `a` and `b`. */
  lemma TakeMatch(url: string, i: nat, a: string, b: string)
    requires |a| > 0 && AllDigits(a) && |b| > 0 && AllDigits(b)
    requires i + |a| + |b| + 6 <= |url| && url[i..i + |a| + |b| + 6] == a + "_" + b + ".vrma"
    ensures VrmaTakeAt(url, i)
    ensures DigitRunEnd(url, i) == i + |a| && url[i..i + |a|] == a
    ensures DigitRunEnd(url, i + |a| + 1) == i + |a| + 1 + |b| && url[i + |a| + 1..i + |a| + 1 + |b|] == b
  {
    var e := i + |a|;
    TakeLayout(url, i, a, b);
    DigitRunEndOf(url, i, |a|);
    DigitRunEndOf(url, e + 1, |b|);
  }

  /** Where the pieces of `a_b.vrma` written at `i` sit in `url`. */
  lemma TakeLayout(url: string, i: nat, a: string, b: string)
    requires AllDigits(a) && AllDigits(b)
    requires i + |a| + |b| + 6 <= |url| && url[i..i + |a| + |b| + 6] == a + "_" + b + ".vrma"
    ensures url[i..i + |a|] == a && url[i + |a|] == '_'
    ensures url[i + |a| + 1..i + |a| + 1 + |b|] == b
    ensures OccursAt(url, ".vrma", i + |a| + 1 + |b|)
    ensures forall k :: i <= k < i + |a| ==> IsDigit(url[k])
    ensures forall k :: i + |a| + 1 <= k < i + |a| + 1 + |b| ==> IsDigit(url[k])
    ensures url[i + |a| + 1 + |b|] == '.'
  {
    var t := a + "_" + b + ".vrma";
    var w := url[i..i + |t|];
    assert url[i..i + |a|] == w[..|a|] == a;
    assert url[i + |a| + 1..i + |a| + 1 + |b|] == w[|a| + 1..|a| + 1 + |b|] == b;
    assert url[i + |a| + 1 + |b|..i + |a| + 6 + |b|] == w[|a| + 1 + |b|..] == ".vrma";
    forall k | i <= k < i + |a| ensures IsDigit(url[k]) {
      assert url[k] == a[k - i];
    }
    forall k | i + |a| + 1 <= k < i + |a| + 1 + |b| ensures IsDigit(url[k]) {
      assert url[k] == b[k - i - |a| - 1];
    }
  }

  /** No match starts inside such a prefix. */
  lemma NoTakeInPrefix(prefix: string, url: string, j: nat)
    requires |prefix| <= |url| && url[..|prefix|] == prefix && j < |prefix|
    requires !IsDigit(prefix[|prefix| - 1])
    requires forall k :: 0 < k < |prefix| && prefix[k] == '_' ==> !IsDigit(prefix[k - 1])
    ensures !Catalogue.PairAt(url, j)
  {
    if IsDigit(url[j]) {
      var e := DigitRunEnd(url, j);
      assert url[|prefix| - 1] == prefix[|prefix| - 1];
      assert e < |prefix|;
      assert url[e] == prefix[e] && url[e - 1] == prefix[e - 1];
    }
  }

  /** The merge loop of `main` for one entry. */
  function Describe(entry: JsonObject, table: map<string, string>): (r: JsonObject)
    requires "url" in entry
    ensures UrlKey(entry["url"]).None? ==> r == entry
    ensures UrlKey(entry["url"]).Some? ==>
      var key := UrlKey(entry["url"]).value;
      r == map["url" := entry["url"], "description" := if key in table then table[key] else NoDescription]
  {
    match UrlKey(entry["url"])
    case None => entry
    case Some(key) =>
      map["url" := entry["url"], "description" := if key in table then table[key] else NoDescription]
  }

  /** The merge loop of `main`: one output entry per input entry, in order. */
  function DescribeAll(entries: seq<JsonObject>, table: map<string, string>): (r: seq<JsonObject>)
    requires forall k :: 0 <= k < |entries| ==> "url" in entries[k]
    ensures |r| == |entries|
    ensures forall k :: 0 <= k < |r| ==> r[k] == Describe(entries[k], table) && "url" in r[k]
    ensures forall k :: 0 <= k < |r| ==> r[k]["url"] == entries[k]["url"]
  {
    seq(|entries|, k requires 0 <= k < |entries| => Describe(entries[k], table))
  }

  /** Running the merge again with the same table changes nothing more. */
  lemma DescribeAllIdempotent(entries: seq<JsonObject>, table: map<string, string>)
    requires forall k :: 0 <= k < |entries| ==> "url" in entries[k]
    ensures DescribeAll(DescribeAll(entries, table), table) == DescribeAll(entries, table)
  {
  }
}

=== FILE: fbx.dfy ===
/** Retargeting of CMU motion-capture FBX clips onto a VRM humanoid:
    the fixed bone table, the track filter and rename, and the fixed
    rotation correction applied to every quaternion sample. */
module FbxRetarget {
  import opened Options
  import opened Quaternions
  import opened Animation
  import Seqs

  /** CMU bone name to VRM humanoid bone id. */
  const FbxBoneMapping: seq<(string, string)> := [
    ("Hips", "hips"), ("Spine", "spine"), ("Spine1", "chest"), ("Neck", "neck"), ("Head", "head"),
    ("LeftShoulder", "leftShoulder"), ("LeftArm", "leftUpperArm"), ("LeftForeArm", "leftLowerArm"), ("LeftHand", "leftHand"),
    ("RightShoulder", "rightShoulder"), ("RightArm", "rightUpperArm"), ("RightForeArm", "rightLowerArm"), ("RightHand", "rightHand"),
    ("LeftUpLeg", "leftUpperLeg"), ("LeftLeg", "leftLowerLeg"), ("LeftFoot", "leftFoot"), ("LeftToeBase", "leftToes"),
    ("RightUpLeg", "rightUpperLeg"), ("RightLeg", "rightLowerLeg"), ("RightFoot", "rightFoot"), ("RightToeBase", "rightToes")
  ]

  /** Looking a CMU name up in a table: the first entry's id, or nothing. */
  function Lookup(table: seq<(string, string)>, name: string): (r: Option<string>)
    ensures r.Some? <==> exists k :: 0 <= k < |table| && table[k].0 == name
    ensures r.Some? ==> exists k :: 0 <= k < |table| && table[k] == (name, r.value)
    decreases |table|
  {
    if |table| == 0 then None
    else if table[0].0 == name then Some(table[0].1)
    else
      var r := Lookup(table[1..], name);
      assert forall k :: 1 <= k < |table| ==> table[k] == table[1..][k - 1];
      r
  }

  /** The first entry carrying a name is the one the lookup finds. */
  lemma {:induction false} LookupAt(table: seq<(string, string)>, name: string, k: nat)
    requires k < |table| && table[k].0 == name
    requires forall j :: 0 <= j < k ==> table[j].0 != name
    ensures Lookup(table, name) == Some(table[k].1)
    decreases k
  {
    if k > 0 {
      LookupAt(table[1..], name, k - 1);
    }
  }

  /** "Spine" is the spine. */
  lemma FbxSpine()
    ensures Lookup(FbxBoneMapping, "Spine") == Some("spine")
  {
    LookupAt(FbxBoneMapping, "Spine", 1);
  }

  /** "Spine1" is the chest. */
  lemma FbxChest()
    ensures Lookup(FbxBoneMapping, "Spine1") == Some("chest")
  {
    LookupAt(FbxBoneMapping, "Spine1", 2);
  }

  // ---------------------------------------------------------------------
  // `track.name.split('.')`: the first two segments.

  /** The first '.' at or after `from`, or -1. */
  function FirstDot(s: string, from: nat): (i: int)
    requires from <= |s|
    ensures i == -1 || (from <= i < |s| && s[i] == '.')
    ensures forall k :: from <= k < |s| && (i == -1 || k < i) ==> s[k] != '.'
    decreases |s| - from
  {
    if from == |s| then -1 else if s[from] == '.' then from else FirstDot(s, from + 1)
  }

  /** `split('.')[0]`: the text before the first '.', or all of it. */
  function BoneSegment(s: string): (r: string)
    ensures forall k :: 0 <= k < |r| ==> r[k] != '.'
    ensures r == s || (|r| < |s| && s[..|r| + 1] == r + ".")
  {
    var i := FirstDot(s, 0);
    if i < 0 then s else s[..i]
  }

  /** `split('.')[1]`: the text between the first and second '.', or
      nothing (`undefined`) when there is no '.'. */
  function PropertySegment(s: string): (r: Option<string>)
    ensures r.None? <==> forall k :: 0 <= k < |s| ==> s[k] != '.'
    ensures r.Some? ==> forall k :: 0 <= k < |r.value| ==> r.value[k] != '.'
  {
    var i := FirstDot(s, 0);
    if i < 0 then None
    else
      var rest := s[i + 1..];
      var j := FirstDot(rest, 0);
      Some(if j < 0 then rest else rest[..j])
  }

  /** A name with exactly one '.' is its two segments joined by it. */
  lemma SegmentsJoin(s: string, d: nat)
    requires d < |s| && s[d] == '.'
    requires forall k :: 0 <= k < |s| && k != d ==> s[k] != '.'
    ensures PropertySegment(s).Some?
    ensures BoneSegment(s) + "." + PropertySegment(s).value == s
  {
    assert FirstDot(s, 0) == d;
    var rest := s[d + 1..];
    assert FirstDot(rest, 0) == -1;
    assert s[..d] + "." + rest == s;
  }

  /** JavaScript string concatenation of a missing property. */
  function PropertyText(p: Option<string>): string
  {
    match p case Some(v) => v case None => "undefined"
  }

  // ---------------------------------------------------------------------
  // Tracks and clips.

  /** The complete samples of a flat track pre-multiplied by `c`; a partial
      trailing sample is left as it is. */
  function Premultiply(values: seq<real>, c: Quat): (r: seq<real>)
    ensures |r| == |values|
    ensures forall k :: 0 <= k < |values| / 4 ==> SampleAt(r, k) == Mul(c, SampleAt(values, k))
  {
    var whole := |values| - |values| % 4;
    var r := MapSamples(values[..whole], q => Mul(c, q)) + values[whole..];
    assert forall k :: 0 <= k < |values| / 4 ==> SampleAt(values, k) == SampleAt(values[..whole], k);
    assert forall k :: 0 <= k < |values| / 4 ==> SampleAt(r, k) == SampleAt(r[..whole], k);
    r
  }

  /** The avatar node a track drives, if its bone is in the table and in the humanoid. */
  function TargetNode(t: Track, humanoid: map<string, string>): (r: Option<string>)
    ensures var id := Lookup(FbxBoneMapping, BoneSegment(t.name));
      && (r.Some? <==> id.Some? && id.value in humanoid)
      && (r.Some? ==> r.value == humanoid[id.value])
  {
    var id := Lookup(FbxBoneMapping, BoneSegment(t.name));
    if id.Some? && id.value in humanoid then Some(humanoid[id.value]) else None
  }

  /** One track of `retargetAnimation`: position tracks and unmapped bones
      are dropped; a kept track is renamed to the node and keeps its times;
      quaternion samples are pre-multiplied by the correction. */
  function RetargetTrack(t: Track, humanoid: map<string, string>, correction: Quat): (r: Option<Track>)
    ensures PropertySegment(t.name) == Some("position") ==> r.None?
    ensures r.Some? <==> PropertySegment(t.name) != Some("position") && TargetNode(t, humanoid).Some?
    ensures r.Some? ==> r.value.name == TargetNode(t, humanoid).value + "." + PropertyText(PropertySegment(t.name))
    ensures r.Some? ==> r.value.times == t.times && |r.value.values| == |t.values|
    ensures r.Some? && PropertySegment(t.name) != Some("quaternion") ==> r.value.values == t.values
    ensures r.Some? && PropertySegment(t.name) == Some("quaternion") ==>
      forall k :: 0 <= k < |t.values| / 4 ==> SampleAt(r.value.values, k) == Mul(correction, SampleAt(t.values, k))
  {
    var prop := PropertySegment(t.name);
    if prop == Some("position") then None
    else match TargetNode(t, humanoid)
      case None => None
      case Some(node) =>
        var values := if prop == Some("quaternion") then Premultiply(t.values, correction) else t.values;
        Some(Track(node + "." + PropertyText(prop), t.times, values))
  }

  /** The kept tracks, in source order; `Seqs.Sources` says which source
      track each one comes from. */
  function RetargetTracks(ts: seq<Track>, humanoid: map<string, string>, correction: Quat): (r: seq<Track>)
    ensures |r| <= |ts|
    ensures forall k :: 0 <= k < |r| ==> exists j :: 0 <= j < |ts| && RetargetTrack(ts[j], humanoid, correction) == Some(r[k])
    ensures var idx := Seqs.Sources(ts, t => RetargetTrack(t, humanoid, correction));
      && |idx| == |r|
      && (forall k :: 0 <= k < |r| ==> RetargetTrack(ts[idx[k]], humanoid, correction) == Some(r[k]))
      && (forall a, b :: 0 <= a < b < |idx| ==> idx[a] < idx[b])
      && (forall j :: 0 <= j < |ts| && RetargetTrack(ts[j], humanoid, correction).Some? ==> j in idx)
  {
    var f := t => RetargetTrack(t, humanoid, correction);
    var r := Seqs.FilterMap(ts, f);
    Seqs.SourcesOrdered(ts, f);
    r
  }

  /** An FBX scene has bones when some object carries a name other than "Scene". */
  predicate HasNamedObject(objectNames: seq<string>)
  {
    exists k :: 0 <= k < |objectNames| && objectNames[k] != "" && objectNames[k] != "Scene"
  }

  const RetargetedSuffix: string := "_retargeted"

  /** `retargetAnimation`: no clip for a scene without named objects;
      otherwise the kept tracks under the suffixed name and the same duration. */
  function RetargetClip(clip: Clip, objectNames: seq<string>, humanoid: map<string, string>, correction: Quat): (r: Option<Clip>)
    ensures r.None? <==> !HasNamedObject(objectNames)
    ensures r.Some? ==> r.value.name == clip.name + RetargetedSuffix && r.value.duration == clip.duration
    ensures r.Some? ==> r.value.tracks == RetargetTracks(clip.tracks, humanoid, correction)
  {
    if !HasNamedObject(objectNames) then None
    else Some(Clip(clip.name + RetargetedSuffix, clip.duration, RetargetTracks(clip.tracks, humanoid, correction)))
  }
}

=== FILE: joints.dfy ===
/** The scalar angle bookkeeping of the joint constraints used by the poser
    and by vrm-mimic: angle normalisation, the hinge clamp about the range
    midpoint, the twist correction and the `fixed` report of the ball joint.
    The quaternion/axis-angle conversions are parameters (`Geometry`). */
module JointLimits {
  import opened Options
  import opened Quaternions

  /** The opaque geometry: π, `Math.acos`, `setFromAxisAngle` and vector normalisation. */
  datatype Geometry = Geometry(pi: real, acos: real -> real,
                               fromAxisAngle: (Vec3, real) -> Quat, normalize: Vec3 -> Vec3)

  /** Whole turns `_normalizeAngle` removes: `floor((angle + π) / 2π)`. */
  function Turns(angle: real, pi: real): int
    requires pi > 0.0
  {
    ((angle + pi) / (2.0 * pi)).Floor
  }

  /** `_normalizeAngle`: `angle - 2π·floor((angle + π) / 2π)`. */
  function NormalizeAngle(angle: real, pi: real): (r: real)
    requires pi > 0.0
    ensures -pi <= r < pi
    ensures angle - r == Turns(angle, pi) as real * (2.0 * pi)
  {
    var c := 2.0 * pi;
    var x := (angle + pi) / c;
    FloorScale(x, x.Floor as real, c, angle + pi);
    angle - Turns(angle, pi) as real * c
  }

  /** `k·c <= y < k·c + c` when `k` is the floor of `y / c`. */
  lemma FloorScale(x: real, k: real, c: real, y: real)
    requires c > 0.0 && k <= x < k + 1.0 && x * c == y
    ensures k * c <= y
    ensures y < k * c + c
  {
    var d := x - k;
    assert 0.0 <= d < 1.0;
    assert d * c < c;
    assert y - k * c == d * c;
  }

  /** The normal form is unique: an angle in [-π, π) that differs from
      `angle` by whole turns is its normalisation. */
  lemma NormalizeUnique(angle: real, pi: real, b: real, n: int)
    requires pi > 0.0 && -pi <= b < pi
    requires angle - b == n as real * (2.0 * pi)
    ensures NormalizeAngle(angle, pi) == b
  {
    var r := NormalizeAngle(angle, pi);
    var d := Turns(angle, pi) - n;
    assert b - r == d as real * (2.0 * pi);
    WholeTurnsInRange(d, 2.0 * pi);
  }

  /** A whole number of turns strictly shorter than one turn is none. */
  lemma WholeTurnsInRange(d: int, c: real)
    requires c > 0.0 && -c < d as real * c < c
    ensures d == 0
  {
  }

  /** Normalising is idempotent. */
  lemma NormalizeIdempotent(angle: real, pi: real)
    requires pi > 0.0
    ensures NormalizeAngle(NormalizeAngle(angle, pi), pi) == NormalizeAngle(angle, pi)
  {
    var r := NormalizeAngle(angle, pi);
    NormalizeUnique(r, pi, r, 0);
  }

  /** `THREE.MathUtils.clamp(v, lo, hi)`: `max(lo, min(hi, v))`. */
  function Clamp(v: real, lo: real, hi: real): (r: real)
    ensures lo <= hi ==> lo <= r <= hi
    ensures lo <= v <= hi ==> r == v
    ensures hi < lo ==> r == lo
  {
    var m := if v < hi then v else hi;
    if lo > m then lo else m
  }

  /** A constraint: a ball joint with a cone limit and an optional twist
      axis and limit, or a hinge about an axis with an angle range. */
  datatype Constraint =
    | Ball(limit: real, twist: Option<(Vec3, real)>)
    | Hinge(axis: Vec3, min: real, max: real)

  function Axis(q: Quat): Vec3 { Vec3(q.x, q.y, q.z) }

  /** The hinge angle set back into the joint: the measured angle taken
      relative to the range midpoint, normalised, clamped, and shifted back. */
  function HingeAngle(measured: real, min: real, max: real, pi: real): (a: real)
    requires pi > 0.0
    ensures min <= max ==> min <= a <= max
    ensures var m := (min + max) / 2.0;
      min <= NormalizeAngle(measured - m, pi) + m <= max ==> a == NormalizeAngle(measured - m, pi) + m
  {
    var m := (min + max) / 2.0;
    Clamp(NormalizeAngle(measured - m, pi), min - m, max - m) + m
  }

  /** The twist excess: how far the twist angle lies beyond the twist limit,
      signed like the twist, or nothing when it is within the limit. */
  function TwistExcess(tangle: real, twistLimit: real): (e: Option<real>)
    ensures e.Some? <==> (tangle > twistLimit || tangle < -twistLimit)
    ensures e.Some? && tangle < 0.0 ==> tangle - e.value == -twistLimit
    ensures e.Some? && tangle >= 0.0 ==> tangle - e.value == twistLimit
  {
    var abs := if tangle < 0.0 then -tangle else tangle;
    if abs > twistLimit then Some(if tangle < 0.0 then tangle + twistLimit else tangle - twistLimit)
    else None
  }

  /** Removing the excess leaves a twist exactly at the limit, on the twist's side. */
  lemma TwistExcessLandsOnLimit(tangle: real, twistLimit: real)
    requires twistLimit > 0.0 && TwistExcess(tangle, twistLimit).Some?
    ensures var rest := tangle - TwistExcess(tangle, twistLimit).value;
      (rest == twistLimit || rest == -twistLimit) && (rest < 0.0 <==> tangle < 0.0)
  {
  }

  /** `2·acos(w)`: the rotation angle of a unit quaternion. */
  function RotationAngle(q: Quat, g: Geometry): real
  {
    2.0 * g.acos(q.w)
  }

  /** The measured hinge angle: the rotation angle signed by the axis alignment. */
  function HingeMeasure(q: Quat, axis: Vec3, g: Geometry): real
  {
    RotationAngle(q, g) * Dot3(g.normalize(Axis(q)), axis)
  }

  /** The twist measure as the source computes it: the rotation angle times
      `acos(w)` a second time, times the axis alignment, normalised. */
  function TwistAngleAsWritten(q: Quat, axis: Vec3, g: Geometry): real
    requires g.pi > 0.0
  {
    NormalizeAngle(RotationAngle(q, g) * g.acos(q.w) * Dot3(g.normalize(Axis(q)), axis), g.pi)
  }

  /** The twist measure the constraint needs: the rotation angle signed by
      the alignment with the twist axis, normalised, as the hinge measures it. */
  function TwistAngle(q: Quat, axis: Vec3, g: Geometry): real
    requires g.pi > 0.0
  {
    NormalizeAngle(HingeMeasure(q, axis, g), g.pi)
  }

  /** A rotation of less than half a turn purely about the twist axis is all
      twist: the measure is its rotation angle. */
  lemma PureTwistMeasured(q: Quat, axis: Vec3, g: Geometry)
    requires g.pi > 0.0 && Dot3(g.normalize(Axis(q)), axis) == 1.0
    requires 0.0 <= g.acos(q.w) && 2.0 * g.acos(q.w) < g.pi
    ensures TwistAngle(q, axis, g) == RotationAngle(q, g)
  {
    NormalizeUnique(RotationAngle(q, g), g.pi, RotationAngle(q, g), 0);
  }

  /** As written, a half-radian rotation purely about the twist axis is
      measured as an eighth of a radian, so a quarter-radian twist limit
      lets it through uncorrected. */
  lemma TwistAsWrittenMisses(q: Quat, axis: Vec3, g: Geometry)
    requires g.pi > 1.0 && Dot3(g.normalize(Axis(q)), axis) == 1.0 && g.acos(q.w) == 0.25
    ensures TwistAngle(q, axis, g) == 0.5
    ensures TwistAngleAsWritten(q, axis, g) == 0.125
    ensures TwistExcess(TwistAngleAsWritten(q, axis, g), 0.25).None?
    ensures TwistExcess(TwistAngle(q, axis, g), 0.25) == Some(0.25)
  {
    PureTwistMeasured(q, axis, g);
    NormalizeUnique(0.125, g.pi, 0.125, 0);
  }

  /** Which twist measure a constraint uses: the source's, or the corrected one. */
  datatype Measure = AsWritten | Corrected

  /** The twist angle under the chosen measure. */
  function Twist(m: Measure, q: Quat, axis: Vec3, g: Geometry): real
    requires g.pi > 0.0
  {
    match m
    case AsWritten => TwistAngleAsWritten(q, axis, g)
    case Corrected => TwistAngle(q, axis, g)
  }

  /** The twist stage of the ball joint: the corrected rotation, when a correction was needed. */
  function TwistStage(m: Measure, q: Quat, axis: Vec3, twistLimit: real, g: Geometry): (r: Option<Quat>)
    requires g.pi > 0.0
    ensures r.Some? <==> TwistExcess(Twist(m, q, axis, g), twistLimit).Some?
    ensures r.Some? ==> r.value == Mul(q, g.fromAxisAngle(axis, -TwistExcess(Twist(m, q, axis, g), twistLimit).value))
  {
    match TwistExcess(Twist(m, q, axis, g), twistLimit)
    case Some(e) => Some(Mul(q, g.fromAxisAngle(axis, -e)))
    case None => None
  }

  /** The ball joint's twist stage result, if it has a twist axis. */
  function Twisted(m: Measure, limit: real, twist: Option<(Vec3, real)>, q: Quat, g: Geometry): Option<Quat>
    requires g.pi > 0.0
  {
    match twist
    case Some(t) => TwistStage(m, q, t.0, t.1, g)
    case None => None
  }

  /** vrm-mimic `_applyConstraintQ`: the constrained rotation and whether a
      correction was applied. The source uses the `AsWritten` measure; the
      rest of this model uses `Corrected`. */
  function ApplyConstraint(m: Measure, c: Option<Constraint>, q: Quat, g: Geometry): (r: (Quat, bool))
    requires g.pi > 0.0
    ensures c.None? ==> r == (q, false)
    ensures c.Some? && c.value.Hinge? ==>
      r.1 && r.0 == g.fromAxisAngle(c.value.axis,
        HingeAngle(HingeMeasure(q, c.value.axis, g), c.value.min, c.value.max, g.pi))
    ensures !r.1 ==> r.0 == q
    ensures c.Some? && c.value.Ball? ==>
      var twisted := Twisted(m, c.value.limit, c.value.twist, q, g);
      var over := NormalizeAngle(RotationAngle(twisted.GetOr(q), g), g.pi);
      (r.1 <==> twisted.Some? || over > c.value.limit || over < -c.value.limit)
    ensures c.Some? && c.value.Ball? ==> r.0 == BallResult(m, c.value.limit, c.value.twist, q, g)
  {
    match c
    case None => (q, false)
    case Some(Hinge(axis, min, max)) =>
      (g.fromAxisAngle(axis, HingeAngle(HingeMeasure(q, axis, g), min, max, g.pi)), true)
    case Some(Ball(limit, twist)) =>
      var twisted := Twisted(m, limit, twist, q, g);
      var q1 := twisted.GetOr(q);
      var over := NormalizeAngle(RotationAngle(q1, g), g.pi);
      var abs := if over < 0.0 then -over else over;
      if abs > limit then (g.fromAxisAngle(g.normalize(Axis(q1)), limit), true)
      else (q1, twisted.Some?)
  }

  /** The rotation a ball joint leaves: the twist-corrected rotation, swung
      back onto the cone about its own axis when its angle exceeds the limit. */
  function BallResult(m: Measure, limit: real, twist: Option<(Vec3, real)>, q: Quat, g: Geometry): (r: Quat)
    requires g.pi > 0.0
    ensures var q1 := Twisted(m, limit, twist, q, g).GetOr(q);
      var over := NormalizeAngle(RotationAngle(q1, g), g.pi);
      && (twist.None? ==> q1 == q)
      && (over > limit || over < -limit ==> r == g.fromAxisAngle(g.normalize(Axis(q1)), limit))
      && (-limit <= over <= limit ==> r == q1)
  {
    var q1 := Twisted(m, limit, twist, q, g).GetOr(q);
    var over := NormalizeAngle(RotationAngle(q1, g), g.pi);
    if over > limit || over < -limit then g.fromAxisAngle(g.normalize(Axis(q1)), limit) else q1
  }

  /** The poser's `_applyConstraintQ`: the rotation alone, and nothing at all
      when constraints are switched off. */
  function ApplyConstraintPoser(m: Measure, enabled: bool, c: Option<Constraint>, q: Quat, g: Geometry): (r: Quat)
    requires g.pi > 0.0
    ensures !enabled ==> r == q
    ensures enabled ==> r == ApplyConstraint(m, c, q, g).0
    ensures enabled && c.Some? && c.value.Ball? ==> r == BallResult(m, c.value.limit, c.value.twist, q, g)
    ensures enabled && c.Some? && c.value.Hinge? ==>
      r == g.fromAxisAngle(c.value.axis, HingeAngle(HingeMeasure(q, c.value.axis, g), c.value.min, c.value.max, g.pi))
    ensures enabled && c.None? ==> r == q
  {
    if enabled then ApplyConstraint(m, c, q, g).0 else q
  }

  /** At the constraint level: a ball joint with a quarter-radian twist limit
      and a full-radian cone leaves a half-radian pure twist alone as
      written, while the corrected measure catches it and rotates back the
      excess. */
  lemma ConstraintAsWrittenMisses(q: Quat, axis: Vec3, g: Geometry)
    requires g.pi > 1.0 && Dot3(g.normalize(Axis(q)), axis) == 1.0 && g.acos(q.w) == 0.25
    ensures ApplyConstraint(AsWritten, Some(Ball(1.0, Some((axis, 0.25)))), q, g) == (q, false)
    ensures ApplyConstraint(Corrected, Some(Ball(1.0, Some((axis, 0.25)))), q, g).1
    ensures Twisted(Corrected, 1.0, Some((axis, 0.25)), q, g) == Some(Mul(q, g.fromAxisAngle(axis, -0.25)))
  {
    TwistAsWrittenMisses(q, axis, g);
    NormalizeUnique(RotationAngle(q, g), g.pi, 0.5, 0);
  }

  /** The two measures part only on a ball joint with a twist axis: hinges,
      missing constraints and twist-free balls come out the same under both. */
  lemma MeasureOnlyForTwist(enabled: bool, c: Option<Constraint>, q: Quat, g: Geometry)
    requires g.pi > 0.0
    requires c.None? || c.value.Hinge? || c.value.twist.None?
    ensures ApplyConstraint(AsWritten, c, q, g) == ApplyConstraint(Corrected, c, q, g)
    ensures ApplyConstraintPoser(AsWritten, enabled, c, q, g) == ApplyConstraintPoser(Corrected, enabled, c, q, g)
  {
  }
}

=== FILE: jump.dfy ===
/** The jump locomotion of the game scene: planning a run of equal hops
    towards a clicked point, and the per-frame step that moves the avatar
    along the current hop on a parabola. */
module JumpLocomotion {
  import opened Options
  import opened Quaternions

  const DefaultJumpStride: real := 5.0
  const DefaultJumpHeight: real := 1.5
  const AnimSpeedScale: real := 5.0
  /** Below this distance a click is ignored. */
  const MinDistance: real := 0.1
  /** The hop length assumed when there is no jump clip. */
  const DefaultAnimDuration: real := 1.0

  /** The component state. Times are in milliseconds. */
  datatype Jumper = Jumper(
    position: Vec3,
    isJumping: bool,
    currentJumpIndex: int,
    totalJumps: int,
    jumpStartPos: Vec3,
    finalTargetPos: Vec3,
    jumpVector: Vec3,
    segmentDuration: real,
    segmentTime: real)

  /** The state right after `init`. */
  function Initial(position: Vec3): (s: Jumper)
    ensures !s.isJumping && s.position == position
  {
    Jumper(position, false, 0, 0, Zero3, Zero3, Zero3, 0.0, 0.0)
  }

  /** What every state of a running jump satisfies. */
  ghost predicate Valid(s: Jumper)
  {
    s.isJumping ==>
      && s.segmentDuration > 0.0
      && 0 <= s.currentJumpIndex < s.totalJumps
      && s.segmentTime >= 0.0
  }

  /** `Math.ceil` on reals. */
  function Ceil(x: real): (n: int)
    ensures x <= n as real < x + 1.0
  {
    -((-x).Floor)
  }

  /** The hop count for a distance: enough hops of at most the stride. */
  function JumpCount(totalDist: real, stride: real): (n: int)
    requires totalDist > 0.0 && stride > 0.0
    ensures n >= 1
    ensures n as real * stride >= totalDist
    ensures (n - 1) as real * stride < totalDist
  {
    var x := totalDist / stride;
    var n := Ceil(x);
    assert x * stride == totalDist;
    CeilScale(x, n as real, stride, totalDist);
    PositiveFactor(n as real, stride);
    n
  }

  /** `x <= n < x + 1` scaled by a positive `c`, with `x·c == y`. */
  lemma CeilScale(x: real, n: real, c: real, y: real)
    requires c > 0.0 && x <= n < x + 1.0 && x * c == y
    ensures n * c >= y && (n - 1.0) * c < y
  {
    var d := n - x;
    assert 0.0 <= d < 1.0;
    assert d * c < c;
    assert n * c - y == d * c;
  }

  lemma PositiveFactor(n: real, c: real)
    requires c > 0.0 && n * c > 0.0
    ensures n > 0.0
  {
  }

  /** Each hop's length: the distance shared equally, never more than the stride. */
  function HopLength(totalDist: real, stride: real): (d: real)
    requires totalDist > 0.0 && stride > 0.0
    ensures 0.0 < d <= stride
    ensures d * JumpCount(totalDist, stride) as real == totalDist
  {
    var n := JumpCount(totalDist, stride) as real;
    var d := totalDist / n;
    assert d * n == totalDist;
    ShareBound(totalDist, n, stride, d);
    d
  }

  /** An equal share of `y` over `n` parts, with `n·c >= y`, is at most `c`. */
  lemma ShareBound(y: real, n: real, c: real, d: real)
    requires y > 0.0 && n >= 1.0 && c > 0.0 && n * c >= y && d * n == y
    ensures 0.0 < d <= c
  {
  }

  /** With the component's default stride a 12-unit move takes three hops
      of 4 units, and the default arc peaks at the default jump height
      halfway through a hop. */
  lemma DefaultJumpPlan()
    ensures JumpCount(12.0, DefaultJumpStride) == 3
    ensures HopLength(12.0, DefaultJumpStride) == 4.0
    ensures HopHeight(DefaultJumpHeight, 0.5) == DefaultJumpHeight
  {
  }

  /** Hop duration in milliseconds: the clip length, or one second, sped up by the time scale. */
  function SegmentDuration(clipDuration: Option<real>): (ms: real)
    requires clipDuration.Some? ==> clipDuration.value > 0.0
    ensures ms > 0.0
    ensures clipDuration.None? ==> ms == 200.0
  {
    var animDuration := match clipDuration case Some(d) => d case None => DefaultAnimDuration;
    (animDuration / AnimSpeedScale) * 1000.0
  }

  /** `startMovement`. The target is moved to the avatar's height first, even
      when the click is then ignored for being too close. `distance` and
      `normalize` stand for THREE's vector length and normalisation. */
  function StartMovement(s: Jumper, target: Vec3, stride: real, clipDuration: Option<real>,
                         distance: (Vec3, Vec3) -> real, normalize: Vec3 -> Vec3): (r: Jumper)
    requires stride > 0.0
    requires clipDuration.Some? ==> clipDuration.value > 0.0
    ensures s.isJumping ==> r == s
    ensures r.position == s.position
    ensures !s.isJumping ==> r.finalTargetPos == Vec3(target.x, s.position.y, target.z)
    ensures !s.isJumping && distance(s.position, r.finalTargetPos) < MinDistance ==>
      r == s.(finalTargetPos := r.finalTargetPos)
    ensures !s.isJumping && distance(s.position, r.finalTargetPos) >= MinDistance ==>
      && r.isJumping && r.currentJumpIndex == 0 && r.segmentTime == 0.0
      && r.jumpStartPos == s.position
      && r.totalJumps == JumpCount(distance(s.position, r.finalTargetPos), stride)
      && r.jumpVector == Scale(normalize(Sub(r.finalTargetPos, s.position)),
                               HopLength(distance(s.position, r.finalTargetPos), stride))
      && r.segmentDuration == SegmentDuration(clipDuration)
    ensures Valid(s) ==> Valid(r)
  {
    if s.isJumping then s
    else
      var final := Vec3(target.x, s.position.y, target.z);
      var totalDist := distance(s.position, final);
      if totalDist < MinDistance then s.(finalTargetPos := final)
      else
        var n := JumpCount(totalDist, stride);
        var hop := HopLength(totalDist, stride);
        var direction := normalize(Sub(final, s.position));
        s.(finalTargetPos := final, isJumping := true, currentJumpIndex := 0, totalJumps := n,
           jumpStartPos := s.position, jumpVector := Scale(direction, hop),
           segmentDuration := SegmentDuration(clipDuration), segmentTime := 0.0)
  }

  /** When the distance and direction agree with the displacement, the hops
      add up to it: `totalJumps` hop vectors lead from the start to the target. */
  lemma HopsCoverDistance(start: Vec3, final: Vec3, totalDist: real, stride: real, direction: Vec3)
    requires totalDist > 0.0 && stride > 0.0
    requires Scale(direction, totalDist) == Sub(final, start)
    ensures Add(start, Scale(Scale(direction, HopLength(totalDist, stride)), JumpCount(totalDist, stride) as real)) == final
  {
    var n := JumpCount(totalDist, stride) as real;
    var d := HopLength(totalDist, stride);
    ScaleTwice(direction.x, d, n, totalDist);
    ScaleTwice(direction.y, d, n, totalDist);
    ScaleTwice(direction.z, d, n, totalDist);
  }

  lemma ScaleTwice(a: real, d: real, n: real, total: real)
    requires d * n == total
    ensures a * d * n == a * total
  {
    assert a * d * n == a * (d * n);
  }

  /** The parabola's height above the hop line at progress `t`. */
  function HopHeight(jumpHeight: real, t: real): (y: real)
    ensures 0.0 <= t <= 1.0 && jumpHeight >= 0.0 ==> 0.0 <= y <= jumpHeight
    ensures t == 0.0 ==> y == 0.0
  {
    var u := t * (1.0 - t);
    ArcBound(t);
    4.0 * jumpHeight * u
  }

  /** `t·(1 - t)` lies in [0, 1/4] on [0, 1]. */
  lemma ArcBound(t: real)
    ensures 0.0 <= t <= 1.0 ==> 0.0 <= t * (1.0 - t) <= 0.25
  {
    var e := t - 0.5;
    assert t * (1.0 - t) == t - t * t;
    assert e * e == t * t - t + 0.25;
    assert e * e >= 0.0;
    if 0.0 <= t <= 1.0 {
      NonNegativeProduct(t, 1.0 - t);
    }
  }

  lemma NonNegativeProduct(a: real, b: real)
    requires a >= 0.0 && b >= 0.0
    ensures a * b >= 0.0
  {
  }

  /** The placement at progress `t` along the current hop. */
  function Place(s: Jumper, t: real, jumpHeight: real): Vec3
  {
    var base := Add(s.jumpStartPos, Scale(s.jumpVector, t));
    Vec3(base.x, base.y + HopHeight(jumpHeight, t), base.z)
  }

  /** `tick`: advance the hop timer; on finishing a hop move the hop start
      on by one hop, stop at the target after the last one, and otherwise
      restart the timer; then place the avatar on the parabola. */
  function Tick(s: Jumper, timeDelta: real, jumpHeight: real): (r: Jumper)
    requires Valid(s) && timeDelta >= 0.0
    ensures !s.isJumping ==> r == s
    ensures Valid(r)
    ensures s.isJumping && (s.segmentTime + timeDelta) / s.segmentDuration >= 1.0 ==>
      && r.currentJumpIndex == s.currentJumpIndex + 1
      && r.jumpStartPos == Add(s.jumpStartPos, s.jumpVector)
      && (r.currentJumpIndex >= s.totalJumps ==> r.position == s.finalTargetPos && !r.isJumping)
      && (r.currentJumpIndex < s.totalJumps ==> r.isJumping && r.segmentTime == 0.0 && r.position == Place(r, 0.0, jumpHeight))
    ensures s.isJumping && (s.segmentTime + timeDelta) / s.segmentDuration < 1.0 ==>
      var t := (s.segmentTime + timeDelta) / s.segmentDuration;
      && 0.0 <= t < 1.0
      && r == s.(segmentTime := s.segmentTime + timeDelta, position := Place(s, t, jumpHeight))
  {
    if !s.isJumping then s
    else
      var time := s.segmentTime + timeDelta;
      var t := time / s.segmentDuration;
      if t >= 1.0 then
        var index := s.currentJumpIndex + 1;
        var start := Add(s.jumpStartPos, s.jumpVector);
        if index >= s.totalJumps then
          s.(currentJumpIndex := index, jumpStartPos := start, segmentTime := time,
             position := s.finalTargetPos, isJumping := false)
        else
          var next := s.(currentJumpIndex := index, jumpStartPos := start, segmentTime := 0.0);
          next.(position := Place(next, 0.0, jumpHeight))
      else
        s.(segmentTime := time, position := Place(s, t, jumpHeight))
  }

  /** During a hop the avatar is never below the hop line and never more than
      the jump height above it. */
  lemma HopStaysUnderArc(s: Jumper, timeDelta: real, jumpHeight: real)
    requires Valid(s) && s.isJumping && timeDelta >= 0.0 && jumpHeight >= 0.0
    ensures var r := Tick(s, timeDelta, jumpHeight);
      r.isJumping ==>
        exists t :: 0.0 <= t < 1.0 && r.position == Place(r, t, jumpHeight) &&
          var base := Add(r.jumpStartPos, Scale(r.jumpVector, t));
          base.y <= r.position.y <= base.y + jumpHeight
  {
    var r := Tick(s, timeDelta, jumpHeight);
    var t := (s.segmentTime + timeDelta) / s.segmentDuration;
    if r.isJumping {
      var u := if t >= 1.0 then 0.0 else t;
      assert r.position == Place(r, u, jumpHeight);
      assert 0.0 <= HopHeight(jumpHeight, u) <= jumpHeight;
    }
  }
}

=== FILE: options.dfy ===
/** The optional value used wherever the modelled code may find nothing
    (a missing key, a regular expression without a match, an aborted script). */
module Options {

  datatype Option<+T> = None | Some(value: T) {

    function GetOr(default: T): T
    {
      match this
      case Some(v) => v
      case None => default
    }
  }
}

=== FILE: quaternions.dfy ===
/** Vectors and quaternions over exact reals, with THREE.js component
    conventions: a quaternion is (x, y, z, w), `a.multiply(b)` is the
    Hamilton product a*b, `a.premultiply(b)` is b*a and `invert()` is the
    conjugate. Quaternion tracks are flat `seq<real>` holding 4 reals per sample. */
module Quaternions {

  datatype Vec3 = Vec3(x: real, y: real, z: real)
  datatype Quat = Quat(x: real, y: real, z: real, w: real)

  const Identity: Quat := Quat(0.0, 0.0, 0.0, 1.0)
  const Zero3: Vec3 := Vec3(0.0, 0.0, 0.0)

  function Add(a: Vec3, b: Vec3): Vec3 { Vec3(a.x + b.x, a.y + b.y, a.z + b.z) }
  function Sub(a: Vec3, b: Vec3): Vec3 { Vec3(a.x - b.x, a.y - b.y, a.z - b.z) }
  function Scale(a: Vec3, k: real): Vec3 { Vec3(a.x * k, a.y * k, a.z * k) }
  function Dot3(a: Vec3, b: Vec3): real { a.x * b.x + a.y * b.y + a.z * b.z }

  /** Hamilton product a*b (THREE `multiplyQuaternions(a, b)`). */
  function Mul(a: Quat, b: Quat): Quat
  {
    Quat(
      a.x * b.w + a.w * b.x + a.y * b.z - a.z * b.y,
      a.y * b.w + a.w * b.y + a.z * b.x - a.x * b.z,
      a.z * b.w + a.w * b.z + a.x * b.y - a.y * b.x,
      a.w * b.w - a.x * b.x - a.y * b.y - a.z * b.z)
  }

  /** THREE `invert()` on a quaternion: the conjugate. */
  function Conjugate(q: Quat): Quat { Quat(-q.x, -q.y, -q.z, q.w) }

  function Neg(q: Quat): Quat { Quat(-q.x, -q.y, -q.z, -q.w) }

  function Dot(a: Quat, b: Quat): real { a.x * b.x + a.y * b.y + a.z * b.z + a.w * b.w }

  function NormSq(q: Quat): real { Dot(q, q) }

  lemma IdentityIsUnit(q: Quat)
    ensures Mul(Identity, q) == q && Mul(q, Identity) == q
  {
  }

  lemma NegFlipsDot(a: Quat, b: Quat)
    ensures Dot(a, Neg(b)) == -Dot(a, b)
    ensures Neg(Neg(b)) == b
  {
  }

  /** `q.toArray()`. */
  function ToArray(q: Quat): (r: seq<real>)
    ensures |r| == 4
  {
    [q.x, q.y, q.z, q.w]
  }

  /** `q.fromArray(a)`. */
  function FromArray(a: seq<real>): Quat
    requires |a| == 4
  {
    Quat(a[0], a[1], a[2], a[3])
  }

  lemma ArrayRoundTrip(q: Quat, a: seq<real>)
    ensures FromArray(ToArray(q)) == q
    ensures |a| == 4 ==> ToArray(FromArray(a)) == a
  {
  }

  /** The k-th sample of a flat quaternion track. */
  function SampleAt(vals: seq<real>, k: nat): Quat
    requires 4 * k + 3 < |vals|
  {
    Quat(vals[4 * k], vals[4 * k + 1], vals[4 * k + 2], vals[4 * k + 3])
  }

  /** Number of complete 4-real samples of a flat track. */
  function SampleCount(vals: seq<real>): nat { |vals| / 4 }

  /** Applies `f` to every sample of a flat quaternion track. */
  function MapSamples(vals: seq<real>, f: Quat -> Quat): (r: seq<real>)
    requires |vals| % 4 == 0
    ensures |r| == |vals|
    ensures forall k :: 0 <= k < |vals| / 4 ==> SampleAt(r, k) == f(SampleAt(vals, k))
    decreases |vals|
  {
    if |vals| == 0 then []
    else
      var rest := MapSamples(vals[4..], f);
      var r := ToArray(f(SampleAt(vals, 0))) + rest;
      assert forall k :: 1 <= k < |vals| / 4 ==> SampleAt(vals, k) == SampleAt(vals[4..], k - 1);
      assert forall k :: 1 <= k < |vals| / 4 ==> SampleAt(r, k) == SampleAt(rest, k - 1);
      r
  }

  /** A flat track with complete samples is determined by its samples. */
  lemma {:induction false} SamplesDetermine(a: seq<real>, b: seq<real>)
    requires |a| == |b| && |a| % 4 == 0
    requires forall k :: 0 <= k < |a| / 4 ==> SampleAt(a, k) == SampleAt(b, k)
    ensures a == b
  {
    forall i | 0 <= i < |a| ensures a[i] == b[i] {
      var k := i / 4;
      assert SampleAt(a, k) == SampleAt(b, k);
      assert i == 4 * k || i == 4 * k + 1 || i == 4 * k + 2 || i == 4 * k + 3;
    }
  }

  /** Mapping two functions over the samples is mapping their composition. */
  lemma MapSamplesCompose(vals: seq<real>, f: Quat -> Quat, g: Quat -> Quat)
    requires |vals| % 4 == 0
    ensures MapSamples(MapSamples(vals, f), g) == MapSamples(vals, q => g(f(q)))
  {
    var l := MapSamples(MapSamples(vals, f), g);
    var r := MapSamples(vals, q => g(f(q)));
    SamplesDetermine(l, r);
  }

  /** Mapping an involution twice restores the track. */
  lemma MapSamplesInvolution(vals: seq<real>, f: Quat -> Quat)
    requires |vals| % 4 == 0
    requires forall q :: f(f(q)) == q
    ensures MapSamples(MapSamples(vals, f), f) == vals
  {
    var l := MapSamples(MapSamples(vals, f), f);
    SamplesDetermine(l, vals);
  }
}

=== FILE: seqs.dfy ===
/** Order-preserving filtering of sequences (JavaScript `Array.prototype.filter`,
    and a loop that pushes the results it produces). */
module Seqs {
  import opened Options

  function Filter<T>(s: seq<T>, keep: T -> bool): (r: seq<T>)
    ensures |r| <= |s|
    ensures forall k :: 0 <= k < |r| ==> r[k] in s && keep(r[k])
    ensures forall k :: 0 <= k < |s| && keep(s[k]) ==> s[k] in r
    decreases |s|
  {
    if |s| == 0 then []
    else if keep(s[0]) then [s[0]] + Filter(s[1..], keep)
    else Filter(s[1..], keep)
  }

  /** One step of `Filter`: the head kept or dropped, then the rest. */
  lemma FilterStep<T>(s: seq<T>, keep: T -> bool)
    requires |s| > 0
    ensures Filter(s, keep) == (if keep(s[0]) then [s[0]] else []) + Filter(s[1..], keep)
  {
  }

  /** Filtering distributes over concatenation, so survivors keep their relative order. */
  lemma {:induction false} FilterAppend<T>(a: seq<T>, b: seq<T>, keep: T -> bool)
    ensures Filter(a + b, keep) == Filter(a, keep) + Filter(b, keep)
    decreases |a|
  {
    if |a| > 0 {
      var t := a + b;
      var head: seq<T> := if keep(a[0]) then [a[0]] else [];
      FilterStep(t, keep);
      assert t[0] == a[0] && t[1..] == a[1..] + b;
      FilterAppend(a[1..], b, keep);
      FilterStep(a, keep);
      assert head + (Filter(a[1..], keep) + Filter(b, keep)) == (head + Filter(a[1..], keep)) + Filter(b, keep);
    } else {
      assert a + b == b;
    }
  }

  /** Nothing survives exactly when every element is rejected. */
  lemma FilterEmpty<T>(s: seq<T>, keep: T -> bool)
    ensures |Filter(s, keep)| == 0 <==> forall k :: 0 <= k < |s| ==> !keep(s[k])
  {
    var r := Filter(s, keep);
    if |r| > 0 {
      assert r[0] in s && keep(r[0]);
      var k :| 0 <= k < |s| && s[k] == r[0];
    }
  }

  /** The positions of `s` that `keep` accepts, in increasing order: an
      account of `Filter` that does not depend on how it walks the sequence. */
  function Kept<T>(s: seq<T>, keep: T -> bool): (idx: seq<nat>)
    ensures forall k :: 0 <= k < |idx| ==> idx[k] < |s| && keep(s[idx[k]])
    ensures forall a, b :: 0 <= a < b < |idx| ==> idx[a] < idx[b]
    decreases |s|
  {
    if |s| == 0 then []
    else
      var init := s[..|s| - 1];
      var rest := Kept(init, keep);
      assert forall j :: 0 <= j < |init| ==> init[j] == s[j];
      if keep(s[|s| - 1]) then rest + [|s| - 1] else rest
  }

  /** Every accepted position is among the kept ones. */
  lemma {:induction false} KeptAll<T>(s: seq<T>, keep: T -> bool)
    ensures forall j :: 0 <= j < |s| && keep(s[j]) ==> j in Kept(s, keep)
    decreases |s|
  {
    if |s| > 0 {
      var init := s[..|s| - 1];
      KeptAll(init, keep);
      assert forall j :: 0 <= j < |init| ==> init[j] == s[j];
    }
  }

  /** `r` lists the elements of `s` at the accepted positions, in order and
      each once. */
  ghost predicate Selects<T>(r: seq<T>, s: seq<T>, keep: T -> bool)
  {
    var idx := Kept(s, keep);
    |r| == |idx| && forall k :: 0 <= k < |r| ==> r[k] == s[idx[k]]
  }

  /** `Filter` keeps exactly the accepted elements, in their order. */
  lemma {:induction false} FilterSelects<T>(s: seq<T>, keep: T -> bool)
    ensures Selects(Filter(s, keep), s, keep)
    decreases |s|
  {
    if |s| > 0 {
      var init, last := s[..|s| - 1], s[|s| - 1];
      FilterSelects(init, keep);
      FilterLast(s, keep);
      assert Kept(s, keep) == Kept(init, keep) + (if keep(last) then [|s| - 1] else []);
      SelectsExtend(init, last, Filter(init, keep), Kept(init, keep), keep(last));
      assert s == init + [last];
    }
  }

  /** Extending a selection of `init` by the last element, or not. */
  lemma SelectsExtend<T>(init: seq<T>, last: T, ri: seq<T>, ii: seq<nat>, take: bool)
    requires |ri| == |ii| && forall k :: 0 <= k < |ri| ==> ii[k] < |init| && ri[k] == init[ii[k]]
    ensures var r, idx := ri + (if take then [last] else []), ii + (if take then [|init|] else []);
      |r| == |idx| && forall k :: 0 <= k < |r| ==> idx[k] < |init| + 1 && r[k] == (init + [last])[idx[k]]
  {
  }

  /** `Filter` on a non-empty sequence: the prefix filtered, then the last element if accepted. */
  lemma FilterLast<T>(s: seq<T>, keep: T -> bool)
    requires |s| > 0
    ensures Filter(s, keep) == Filter(s[..|s| - 1], keep) + (if keep(s[|s| - 1]) then [s[|s| - 1]] else [])
  {
    var init, last := s[..|s| - 1], s[|s| - 1];
    assert s == init + [last];
    FilterAppend(init, [last], keep);
    FilterStep([last], keep);
    assert [last][1..] == [];
  }

  /** Two filters in turn are one filter by their conjunction. */
  lemma {:induction false} FilterTwice<T>(s: seq<T>, p: T -> bool, q: T -> bool, both: T -> bool)
    requires forall x :: both(x) == (p(x) && q(x))
    ensures Filter(Filter(s, p), q) == Filter(s, both)
    decreases |s|
  {
    if |s| > 0 {
      FilterTwice(s[1..], p, q, both);
      FilterStep(s, p);
      FilterStep(s, both);
      if p(s[0]) {
        FilterStep(Filter(s, p), q);
      }
    }
  }

  /** A filter that rejects nothing is the identity. */
  lemma {:induction false} FilterKeepsAll<T>(s: seq<T>, keep: T -> bool)
    requires forall k :: 0 <= k < |s| ==> keep(s[k])
    ensures Filter(s, keep) == s
    decreases |s|
  {
    if |s| > 0 {
      FilterKeepsAll(s[1..], keep);
    }
  }

  /** `f` applied to every element, in order (`Array.prototype.map`). */
  function Map<A, B>(s: seq<A>, f: A --> B): (r: seq<B>)
    requires forall k :: 0 <= k < |s| ==> f.requires(s[k])
    ensures |r| == |s| && forall k :: 0 <= k < |s| ==> r[k] == f(s[k])
  {
    seq(|s|, k requires 0 <= k < |s| => f(s[k]))
  }

  /** Applying the same filter twice changes nothing more. */
  lemma {:induction false} FilterIdempotent<T>(s: seq<T>, keep: T -> bool)
    ensures Filter(Filter(s, keep), keep) == Filter(s, keep)
  {
    var r := Filter(s, keep);
    FilterKeepsAll(r, keep);
  }

  /** The values `f` produces, in source order: a loop that pushes a result
      when there is one. */
  function FilterMap<A, B>(s: seq<A>, f: A -> Option<B>): (r: seq<B>)
    ensures |r| <= |s|
    decreases |s|
  {
    if |s| == 0 then []
    else
      var rest := FilterMap(s[..|s| - 1], f);
      match f(s[|s| - 1])
      case Some(b) => rest + [b]
      case None => rest
  }

  /** Where each result of `FilterMap` comes from: a source position that
      produces it. */
  function Sources<A, B>(s: seq<A>, f: A -> Option<B>): (idx: seq<nat>)
    ensures |idx| == |FilterMap(s, f)|
    ensures forall k :: 0 <= k < |idx| ==> idx[k] < |s| && f(s[idx[k]]) == Some(FilterMap(s, f)[k])
    decreases |s|
  {
    if |s| == 0 then []
    else
      var init := s[..|s| - 1];
      var rest := Sources(init, f);
      assert forall j :: 0 <= j < |init| ==> init[j] == s[j];
      if f(s[|s| - 1]).Some? then rest + [|s| - 1] else rest
  }

  /** One step of `Sources`: the positions of all but the last element, then
      the last position when it produces a value. */
  lemma SourcesStep<A, B>(s: seq<A>, f: A -> Option<B>)
    requires |s| > 0
    ensures Sources(s, f) == Sources(s[..|s| - 1], f) + (if f(s[|s| - 1]).Some? then [|s| - 1] else [])
  {
  }

  /** The sources are listed in increasing order. */
  lemma {:induction false} SourcesIncreasing<A, B>(s: seq<A>, f: A -> Option<B>)
    ensures var idx := Sources(s, f);
      forall a, b :: 0 <= a < b < |idx| ==> idx[a] < idx[b]
    decreases |s|
  {
    if |s| > 0 {
      var init := s[..|s| - 1];
      SourcesIncreasing(init, f);
      SourcesStep(s, f);
    }
  }

  /** Every producing position is listed among the sources. */
  lemma {:induction false} SourcesCover<A, B>(s: seq<A>, f: A -> Option<B>)
    ensures var idx := Sources(s, f);
      forall j :: 0 <= j < |s| && f(s[j]).Some? ==> j in idx
    decreases |s|
  {
    if |s| > 0 {
      var init := s[..|s| - 1];
      SourcesCover(init, f);
      SourcesStep(s, f);
      var idx := Sources(s, f);
      var rest := Sources(init, f);
      assert rest <= idx;
      forall j | 0 <= j < |s| && f(s[j]).Some? ensures j in idx {
        if j < |init| {
          assert init[j] == s[j];
          assert j in rest;
        } else {
          assert idx[|idx| - 1] == j;
        }
      }
    }
  }

  /** The sources are listed in increasing order, and every producing position is listed. */
  lemma SourcesOrdered<A, B>(s: seq<A>, f: A -> Option<B>)
    ensures var idx := Sources(s, f);
      && (forall a, b :: 0 <= a < b < |idx| ==> idx[a] < idx[b])
      && (forall j :: 0 <= j < |s| && f(s[j]).Some? ==> j in idx)
  {
    SourcesIncreasing(s, f);
    SourcesCover(s, f);
  }

  /** The position of the last entry with key `n`, or -1: where a
      write-in-order loop over the entries leaves the value of `n`. */
  function LastEntry<K(==), V>(entries: seq<(K, V)>, n: K): (k: int)
    ensures -1 <= k < |entries|
    ensures k >= 0 ==> entries[k].0 == n
    ensures forall j :: k < j < |entries| ==> entries[j].0 != n
    decreases |entries|
  {
    if |entries| == 0 then -1
    else if entries[|entries| - 1].0 == n then |entries| - 1
    else LastEntry(entries[..|entries| - 1], n)
  }

  /** A dictionary filled from the entries in order: later entries win. */
  function BuildMap<K(==,!new), V>(entries: seq<(K, V)>): (m: map<K, V>)
    ensures forall n :: n in m <==> exists k :: 0 <= k < |entries| && entries[k].0 == n
    decreases |entries|
  {
    if |entries| == 0 then map[]
    else
      var e := entries[|entries| - 1];
      var init := entries[..|entries| - 1];
      var m := BuildMap(init);
      assert forall k :: 0 <= k < |init| ==> init[k] == entries[k];
      m[e.0 := e.1]
  }

  /** Each key of the dictionary holds the value of its last entry. */
  lemma {:induction false} BuildMapLast<K(!new), V>(entries: seq<(K, V)>, n: K)
    requires n in BuildMap(entries)
    ensures LastEntry(entries, n) >= 0
    ensures BuildMap(entries)[n] == entries[LastEntry(entries, n)].1
    decreases |entries|
  {
    var e := entries[|entries| - 1];
    if e.0 != n {
      BuildMapLast(entries[..|entries| - 1], n);
    }
  }
}

=== FILE: shapekeys.dfy ===
/** Authoring of the face's expression shape keys: viseme and ARKit keys
    copied from the model's own expressions when missing, ARKit keys blended
    from weighted deltas, and the teeth keys driven by the visemes. */
module ShapeKeys {
  import opened Options
  import opened Text
  import opened Quaternions
  import Seqs

  /** Shape keys by name; each key is one position per mesh vertex. */
  type Keys = map<string, seq<Vec3>>

  const BasisName: string := "Basis"

  /** Viseme name to the expression key it copies. */
  const ShapeMap: seq<(string, string)> := [
    ("A", "h_expressions.AE_AA_h"), ("E", "h_expressions.Ax_E_h"),
    ("I", "h_expressions.TD_I_h"), ("O", "h_expressions.AO_a_h"),
    ("U", "h_expressions.UW_U_h"), ("F", "h_expressions.FV_h"),
    ("M", "h_expressions.MPB_Up_h"), ("S", "h_expressions.S_h"),
    ("CH", "h_expressions.SH_CH_h"), ("K", "h_expressions.KG_h"),
    ("N", "h_expressions.TD_I_h")
  ]

  /** ARKit name to the expression key it copies. */
  const ArkitAliases: seq<(string, string)> := [
    ("eyeBlinkLeft", "h_expressions.LeyeClose_h"), ("eyeBlinkRight", "h_expressions.ReyeClose_h"),
    ("eyeWideLeft", "h_expressions.LeyeOpen_h"), ("eyeWideRight", "h_expressions.ReyeOpen_h"),
    ("eyeSquintLeft", "h_expressions.Lsquint_h"), ("eyeSquintRight", "h_expressions.Rsquint_h"),
    ("jawOpen", "h_expressions.MouthOpen_h"), ("jawForward", "h_expressions.JawFront_h"),
    ("jawLeft", "h_expressions.Ljaw_h"), ("jawRight", "h_expressions.Rjaw_h"),
    ("mouthClose", "h_expressions.MPB_Down_h"), ("mouthPucker", "h_expressions.Kiss_h"),
    ("mouthSmileLeft", "h_expressions.LsmileOpen_h"), ("mouthSmileRight", "h_expressions.RsmileOpen_h"),
    ("mouthFrownLeft", "h_expressions.LmouthSad_h"), ("mouthFrownRight", "h_expressions.RmouthSad_h"),
    ("mouthDimpleLeft", "h_expressions.LlipCorner_h"), ("mouthDimpleRight", "h_expressions.RlipCorner_h"),
    ("mouthStretchLeft", "h_expressions.LlipSide_h"), ("mouthStretchRight", "h_expressions.RlipSide_h"),
    ("mouthUpperUpLeft", "h_expressions.LlipUp_h"), ("mouthUpperUpRight", "h_expressions.RlipUp_h"),
    ("mouthLowerDownLeft", "h_expressions.LlipDown_h"), ("mouthLowerDownRight", "h_expressions.RlipDown_h"),
    ("mouthPressLeft", "h_expressions.Lblow_h"), ("mouthPressRight", "h_expressions.Rblow_h"),
    ("browDownLeft", "h_expressions.LbrowDown_h"), ("browDownRight", "h_expressions.RbrowDown_h"),
    ("browOuterUpLeft", "h_expressions.LbrowUp_h"), ("browOuterUpRight", "h_expressions.RbrowUp_h"),
    ("noseSneerLeft", "h_expressions.Lnostril_h"), ("noseSneerRight", "h_expressions.Rnostril_h"),
    ("cheekPuff", "h_expressions.Lblow_h")
  ]

  /** ARKit names built by blending expression keys. */
  const ArkitToCreate: seq<(string, seq<string>)> := [
    ("mouthLeft", ["h_expressions.LlipSide_h", "h_expressions.Ljaw_h"]),
    ("mouthRight", ["h_expressions.RlipSide_h", "h_expressions.Rjaw_h"]),
    ("browInnerUp", ["h_expressions.LbrowUp_h", "h_expressions.RbrowUp_h"]),
    ("mouthFunnel", ["h_expressions.Shout_h", "h_expressions.MouthOpen_h"])
  ]

  /** Blend weights for the names that do not use equal weights. */
  const ArkitBlendWeights: seq<(string, seq<real>)> := [("mouthFunnel", [0.7, 0.3])]

  /** Every key has one position per vertex of the basis. */
  ghost predicate SameMesh(keys: Keys)
  {
    BasisName in keys && forall n :: n in keys ==> |keys[n]| == |keys[BasisName]|
  }

  // ---------------------------------------------------------------------
  // Copies.

  /** Steps 1 and 2: for each entry in order, a missing target is created as
      a vertex-wise copy of its source, when the source exists. */
  function CreateCopies(keys: Keys, table: seq<(string, string)>): (r: Keys)
    ensures r.Keys >= keys.Keys
    ensures forall n :: n in keys ==> r[n] == keys[n]
    ensures forall n :: n in r && n !in keys ==> exists k :: 0 <= k < |table| && table[k].0 == n
    ensures SameMesh(keys) ==> SameMesh(r)
    decreases |table|
  {
    if |table| == 0 then keys
    else
      var acc := CreateCopies(keys, table[..|table| - 1]);
      var e := table[|table| - 1];
      if e.1 in acc && e.0 !in acc then acc[e.0 := acc[e.1]] else acc
  }

  /** Every entry whose source is present ends with its target present. */
  lemma {:induction false} CopiesReachTargets(keys: Keys, table: seq<(string, string)>)
    ensures forall k :: 0 <= k < |table| && table[k].1 in keys ==> table[k].0 in CreateCopies(keys, table)
    decreases |table|
  {
    if |table| > 0 {
      var init := table[..|table| - 1];
      CopiesReachTargets(keys, init);
      forall k | 0 <= k < |init| ensures init[k] == table[k] { }
    }
  }

  /** Each created key holds the positions of a source listed for it. */
  lemma {:induction false} CopiesFromSources(keys: Keys, table: seq<(string, string)>)
    ensures var r := CreateCopies(keys, table);
      forall n :: n in r && n !in keys ==>
        exists k :: 0 <= k < |table| && table[k].0 == n && table[k].1 in r && r[n] == r[table[k].1]
    decreases |table|
  {
    if |table| > 0 {
      var init := table[..|table| - 1];
      var acc := CreateCopies(keys, init);
      var r := CreateCopies(keys, table);
      CopiesFromSources(keys, init);
      forall n | n in r && n !in keys
        ensures exists k :: 0 <= k < |table| && table[k].0 == n && table[k].1 in r && r[n] == r[table[k].1]
      {
        if n in acc {
          CopyFromEarlier(keys, table, init, n);
        } else {
          var k := |table| - 1;
          assert table[k].0 == n && table[k].1 in r && r[n] == r[table[k].1];
        }
      }
    }
  }

  /** A key created before the last entry keeps its witness entry. */
  lemma CopyFromEarlier(keys: Keys, table: seq<(string, string)>, init: seq<(string, string)>, n: string)
    requires |table| > 0 && init == table[..|table| - 1]
    requires var acc := CreateCopies(keys, init);
      n in acc && n !in keys &&
      exists k :: 0 <= k < |init| && init[k].0 == n && init[k].1 in acc && acc[n] == acc[init[k].1]
    ensures var r := CreateCopies(keys, table);
      exists k :: 0 <= k < |table| && table[k].0 == n && table[k].1 in r && r[n] == r[table[k].1]
  {
    var acc := CreateCopies(keys, init);
    var r := CreateCopies(keys, table);
    var k :| 0 <= k < |init| && init[k].0 == n && init[k].1 in acc && acc[n] == acc[init[k].1];
    assert init[k] == table[k];
    assert r[n] == acc[n] && r[table[k].1] == acc[table[k].1];
  }

  /** The targets whose sources are among `keys`. */
  function CopyTargets(table: seq<(string, string)>, keys: Keys): set<string>
  {
    set k | 0 <= k < |table| && table[k].1 in keys :: table[k].0
  }

  /** With separated names, copying adds exactly the targets of the present
      sources, each holding the positions of a source listed for it. */
  lemma CopiesFromExpressions(keys: Keys, table: seq<(string, string)>)
    requires Separated(table)
    ensures CreateCopies(keys, table).Keys == keys.Keys + CopyTargets(table, keys)
    ensures var r := CreateCopies(keys, table);
      forall n :: n in r && n !in keys ==>
        exists k :: 0 <= k < |table| && table[k].0 == n && table[k].1 in keys && r[n] == keys[table[k].1]
  {
    var r := CreateCopies(keys, table);
    CopiesSeparated(keys, table);
    CopiesFromSources(keys, table);
    forall n | n in r && n !in keys
      ensures exists k :: 0 <= k < |table| && table[k].0 == n && table[k].1 in keys && r[n] == keys[table[k].1]
    {
      var k :| 0 <= k < |table| && table[k].0 == n && table[k].1 in r && r[n] == r[table[k].1];
      assert table[k].1 in Expressions(r);
    }
  }

  /** When every present source already has its target, nothing is created. */
  lemma {:induction false} CopiesComplete(keys: Keys, table: seq<(string, string)>)
    requires forall k :: 0 <= k < |table| && table[k].1 in keys ==> table[k].0 in keys
    ensures CreateCopies(keys, table) == keys
    decreases |table|
  {
    if |table| > 0 {
      CopiesComplete(keys, table[..|table| - 1]);
    }
  }

  /** Targets never begin with 'h' and sources always do: a copy never
      creates the source of another entry. */
  predicate Separated(table: seq<(string, string)>)
  {
    forall k :: 0 <= k < |table| ==>
      |table[k].0| > 0 && table[k].0[0] != 'h' && |table[k].1| > 0 && table[k].1[0] == 'h'
  }

  /** The keys whose names begin with 'h', the model's own expressions. */
  function Expressions(keys: Keys): set<string>
  {
    set n | n in keys && |n| > 0 && n[0] == 'h'
  }

  /** With separated names, copying leaves the expressions as they were, and
      afterwards every present source has its target. */
  lemma {:induction false} CopiesSeparated(keys: Keys, table: seq<(string, string)>)
    requires Separated(table)
    ensures Expressions(CreateCopies(keys, table)) == Expressions(keys)
    ensures forall k :: 0 <= k < |table| && table[k].1 in CreateCopies(keys, table) ==> table[k].0 in CreateCopies(keys, table)
    decreases |table|
  {
    var r := CreateCopies(keys, table);
    forall n | n in r && n !in keys ensures !(|n| > 0 && n[0] == 'h') {
      var k :| 0 <= k < |table| && table[k].0 == n;
    }
    if |table| > 0 {
      var init := table[..|table| - 1];
      assert Separated(init);
      CopiesSeparated(keys, init);
      var acc := CreateCopies(keys, init);
      forall k | 0 <= k < |table| && table[k].1 in r ensures table[k].0 in r {
        if k < |table| - 1 {
          assert table[k] == init[k];
          assert table[k].1 in acc;
        }
      }
    }
  }

  // ---------------------------------------------------------------------
  // Blends.

  /** Python `zip`: pairs up to the shorter list. */
  function Zip<A, B>(a: seq<A>, b: seq<B>): (r: seq<(A, B)>)
    ensures |r| == if |a| < |b| then |a| else |b|
    ensures forall k :: 0 <= k < |r| ==> r[k] == (a[k], b[k])
  {
    seq(if |a| < |b| then |a| else |b|, k requires 0 <= k < |a| && k < |b| => (a[k], b[k]))
  }

  /** `[1.0 / len(sources)] * len(sources)`. */
  function EqualWeights(n: nat): (w: seq<real>)
    requires n > 0
    ensures |w| == n && forall k :: 0 <= k < n ==> w[k] * n as real == 1.0
  {
    seq(n, k => 1.0 / n as real)
  }

  /** One weighted delta added to every vertex. */
  function AddDelta(acc: seq<Vec3>, basis: seq<Vec3>, source: seq<Vec3>, w: real): (r: seq<Vec3>)
    requires |acc| == |basis| == |source|
    ensures |r| == |acc|
    ensures forall i :: 0 <= i < |r| ==> r[i] == Add(acc[i], Scale(Sub(source[i], basis[i]), w))
  {
    seq(|acc|, i requires 0 <= i < |acc| => Add(acc[i], Scale(Sub(source[i], basis[i]), w)))
  }

  /** The blend loop of `create_blended_shape`: start from the basis and add
      each present source's weighted delta; absent sources are skipped. */
  function BlendLoop(keys: Keys, pairs: seq<(string, real)>): (r: seq<Vec3>)
    requires SameMesh(keys)
    ensures |r| == |keys[BasisName]|
    decreases |pairs|
  {
    if |pairs| == 0 then keys[BasisName]
    else
      var acc := BlendLoop(keys, pairs[..|pairs| - 1]);
      var p := pairs[|pairs| - 1];
      if p.0 in keys then AddDelta(acc, keys[BasisName], keys[p.0], p.1) else acc
  }

  /** The blend loop as `create_blended_shape` runs it: the new key `name`
      is added before the loop, so a source of that name is present and reads
      the key under construction, adding its own delta again. */
  function LiveBlend(keys: Keys, name: string, pairs: seq<(string, real)>): (r: seq<Vec3>)
    requires SameMesh(keys)
    ensures |r| == |keys[BasisName]|
    decreases |pairs|
  {
    if |pairs| == 0 then keys[BasisName]
    else
      var acc := LiveBlend(keys, name, pairs[..|pairs| - 1]);
      var p := pairs[|pairs| - 1];
      if p.0 == name then AddDelta(acc, keys[BasisName], acc, p.1)
      else if p.0 in keys then AddDelta(acc, keys[BasisName], keys[p.0], p.1) else acc
  }

  /** When no source names the new key, the live loop is the plain blend. */
  lemma {:induction false} LiveBlendWithoutSelf(keys: Keys, name: string, pairs: seq<(string, real)>)
    requires SameMesh(keys)
    requires forall k :: 0 <= k < |pairs| ==> pairs[k].0 != name
    ensures LiveBlend(keys, name, pairs) == BlendLoop(keys, pairs)
    decreases |pairs|
  {
    if |pairs| > 0 {
      LiveBlendWithoutSelf(keys, name, pairs[..|pairs| - 1]);
    }
  }

  /** A source naming the new key scales the delta built so far by one plus
      its weight. */
  lemma SelfSourceScales(keys: Keys, name: string, pairs: seq<(string, real)>, w: real, i: nat)
    requires SameMesh(keys) && i < |keys[BasisName]|
    ensures var acc, basis := LiveBlend(keys, name, pairs)[i], keys[BasisName][i];
      LiveBlend(keys, name, pairs + [(name, w)])[i] == Add(basis, Scale(Sub(acc, basis), 1.0 + w))
  {
    assert (pairs + [(name, w)])[..|pairs|] == pairs;
  }

  /** The summed weighted deltas of the present sources at vertex `i`. */
  function DeltaSum(keys: Keys, pairs: seq<(string, real)>, i: nat): Vec3
    requires SameMesh(keys) && i < |keys[BasisName]|
    decreases |pairs|
  {
    if |pairs| == 0 then Zero3
    else
      var rest := DeltaSum(keys, pairs[..|pairs| - 1], i);
      var p := pairs[|pairs| - 1];
      if p.0 in keys then Add(rest, Scale(Sub(keys[p.0][i], keys[BasisName][i]), p.1)) else rest
  }

  /** Each blended vertex is the basis plus the weighted source deltas. */
  lemma {:induction false} BlendIsBasisPlusDeltas(keys: Keys, pairs: seq<(string, real)>, i: nat)
    requires SameMesh(keys) && i < |keys[BasisName]|
    ensures BlendLoop(keys, pairs)[i] == Add(keys[BasisName][i], DeltaSum(keys, pairs, i))
    decreases |pairs|
  {
    if |pairs| > 0 {
      BlendIsBasisPlusDeltas(keys, pairs[..|pairs| - 1], i);
    }
  }

  /** Without any present source the blend is the basis. */
  lemma {:induction false} BlendWithoutSources(keys: Keys, pairs: seq<(string, real)>)
    requires SameMesh(keys)
    requires forall k :: 0 <= k < |pairs| ==> pairs[k].0 !in keys
    ensures BlendLoop(keys, pairs) == keys[BasisName]
    decreases |pairs|
  {
    if |pairs| > 0 {
      BlendWithoutSources(keys, pairs[..|pairs| - 1]);
    }
  }

  /** One present source at full weight reproduces that source. */
  lemma BlendSingleSource(keys: Keys, name: string)
    requires SameMesh(keys) && name in keys
    ensures BlendLoop(keys, [(name, 1.0)]) == keys[name]
  {
    var none: seq<(string, real)> := [];
    assert [(name, 1.0)][..0] == none;
  }

  /** Two present sources at equal weights give their average. */
  lemma BlendTwoEqual(keys: Keys, a: string, b: string, i: nat)
    requires SameMesh(keys) && a in keys && b in keys && i < |keys[BasisName]|
    ensures var v := BlendLoop(keys, Zip([a, b], EqualWeights(2)))[i];
      v == Scale(Add(keys[a][i], keys[b][i]), 0.5)
  {
    var pairs := Zip([a, b], EqualWeights(2));
    assert pairs == [(a, 0.5), (b, 0.5)];
    assert pairs[..1] == [(a, 0.5)];
    var basis := keys[BasisName];
    var none: seq<(string, real)> := [];
    assert pairs[..1][..0] == none;
    assert BlendLoop(keys, none) == basis;
    var first := BlendLoop(keys, pairs[..1]);
    assert first == AddDelta(basis, basis, keys[a], 0.5);
    assert first[i] == Add(basis[i], Scale(Sub(keys[a][i], basis[i]), 0.5));
    assert BlendLoop(keys, pairs)[i] == Add(first[i], Scale(Sub(keys[b][i], basis[i]), 0.5));
  }

  /** The given weights, or equal weights when none are given. */
  function ChosenWeights(weights: Option<seq<real>>, count: nat): seq<real>
    requires weights.None? ==> count > 0
  {
    match weights
    case Some(w) => w
    case None => EqualWeights(count)
  }

  /** `create_blended_shape`: a new key from the zipped sources and weights,
      equal weights when none are given. */
  function CreateBlended(keys: Keys, name: string, sources: seq<string>, weights: Option<seq<real>>): (r: Keys)
    requires SameMesh(keys) && name !in keys
    requires weights.None? ==> |sources| > 0
    ensures r.Keys == keys.Keys + {name} && SameMesh(r)
    ensures forall n :: n in keys ==> r[n] == keys[n]
    ensures name !in sources ==> r[name] == BlendLoop(keys, Zip(sources, ChosenWeights(weights, |sources|)))
  {
    var pairs := Zip(sources, ChosenWeights(weights, |sources|));
    assert name !in sources ==> LiveBlend(keys, name, pairs) == BlendLoop(keys, pairs) by {
      if name !in sources {
        assert forall k :: 0 <= k < |pairs| ==> pairs[k].0 == sources[k];
        LiveBlendWithoutSelf(keys, name, pairs);
      }
    }
    keys[name := LiveBlend(keys, name, pairs)]
  }

  /** A source naming the new key counts twice: with "a" one unit out and
      sources "a" and the new key "x" at weight 1, "x" ends two units out. */
  lemma CreateBlendedReadsItself()
    ensures var keys: Keys := map[BasisName := [Vec3(0.0, 0.0, 0.0)], "a" := [Vec3(1.0, 0.0, 0.0)]];
      CreateBlended(keys, "x", ["a", "x"], Some([1.0, 1.0]))["x"] == [Vec3(2.0, 0.0, 0.0)]
  {
    var keys: Keys := map[BasisName := [Vec3(0.0, 0.0, 0.0)], "a" := [Vec3(1.0, 0.0, 0.0)]];
    var pairs := Zip(["a", "x"], [1.0, 1.0]);
    assert pairs == [("a", 1.0), ("x", 1.0)];
    assert pairs[..1] == [("a", 1.0)];
    var none: seq<(string, real)> := [];
    assert pairs[..1][..0] == none;
    assert LiveBlend(keys, "x", pairs[..1]) == [Vec3(1.0, 0.0, 0.0)];
  }

  /** Blends agree on two key sets that share the basis and agree on every source. */
  lemma {:induction false} BlendLoopAgrees(k1: Keys, k2: Keys, pairs: seq<(string, real)>)
    requires SameMesh(k1) && SameMesh(k2) && k1[BasisName] == k2[BasisName]
    requires forall j :: 0 <= j < |pairs| ==>
      (pairs[j].0 in k1 <==> pairs[j].0 in k2) && (pairs[j].0 in k1 ==> k1[pairs[j].0] == k2[pairs[j].0])
    ensures BlendLoop(k1, pairs) == BlendLoop(k2, pairs)
    decreases |pairs|
  {
    if |pairs| > 0 {
      var init := pairs[..|pairs| - 1];
      assert forall j :: 0 <= j < |init| ==> init[j] == pairs[j];
      BlendLoopAgrees(k1, k2, init);
    }
  }

  /** Zipping ignores surplus sources or weights. */
  lemma ZipIgnoresSurplus(sources: seq<string>, weights: seq<real>, extra: seq<real>)
    requires |weights| >= |sources|
    ensures Zip(sources, weights + extra) == Zip(sources, weights)
  {
  }

  /** The weights of a blended ARKit name, if listed. */
  function WeightsFor(name: string): (w: Option<seq<real>>)
    ensures name == "mouthFunnel" ==> w == Some([0.7, 0.3])
    ensures name != "mouthFunnel" ==> w.None?
  {
    if name == ArkitBlendWeights[0].0 then Some(ArkitBlendWeights[0].1) else None
  }

  /** Step 3: each missing blended name is created, even without sources. */
  function CreateBlends(keys: Keys, table: seq<(string, seq<string>)>): (r: Keys)
    requires SameMesh(keys)
    requires forall k :: 0 <= k < |table| ==> |table[k].1| > 0
    ensures SameMesh(r)
    ensures r.Keys == keys.Keys + (set k | 0 <= k < |table| :: table[k].0)
    ensures forall n :: n in keys ==> r[n] == keys[n]
    decreases |table|
  {
    if |table| == 0 then keys
    else
      var acc := CreateBlends(keys, table[..|table| - 1]);
      var e := table[|table| - 1];
      var r := if e.0 in acc then acc else CreateBlended(acc, e.0, e.1, WeightsFor(e.0));
      assert forall k :: 0 <= k < |table| - 1 ==> table[..|table| - 1][k] == table[k];
      r
  }

  /** A second pass of step 3 creates nothing. */
  lemma {:induction false} BlendsComplete(keys: Keys, table: seq<(string, seq<string>)>)
    requires SameMesh(keys)
    requires forall k :: 0 <= k < |table| ==> |table[k].1| > 0 && table[k].0 in keys
    ensures CreateBlends(keys, table) == keys
    decreases |table|
  {
    if |table| > 0 {
      BlendsComplete(keys, table[..|table| - 1]);
    }
  }

  /** Every blend source is one of the model's own expressions. */
  predicate ExpressionSources(table: seq<(string, seq<string>)>)
  {
    forall k, j :: 0 <= k < |table| && 0 <= j < |table[k].1| ==> |table[k].1[j]| > 0 && table[k].1[j][0] == 'h'
  }

  /** Each created blend is the blend of its listed sources, read from the
      keys before step 3, with the listed or the equal weights. */
  lemma {:induction false} BlendsContents(keys: Keys, table: seq<(string, seq<string>)>)
    requires SameMesh(keys) && BlendTable(table) && ExpressionSources(table)
    ensures var r := CreateBlends(keys, table);
      forall n :: n in r && n !in keys ==>
        exists k ::
          0 <= k < |table| && table[k].0 == n &&
          r[n] == BlendLoop(keys, Zip(table[k].1, ChosenWeights(WeightsFor(n), |table[k].1|)))
    decreases |table|
  {
    if |table| > 0 {
      var init := table[..|table| - 1];
      assert forall k :: 0 <= k < |init| ==> init[k] == table[k];
      BlendsContents(keys, init);
      var acc := CreateBlends(keys, init);
      var r := CreateBlends(keys, table);
      var e := table[|table| - 1];
      forall n | n in r && n !in keys
        ensures exists k ::
          0 <= k < |table| && table[k].0 == n &&
          r[n] == BlendLoop(keys, Zip(table[k].1, ChosenWeights(WeightsFor(n), |table[k].1|)))
      {
        if n in acc {
          var k :| 0 <= k < |init| && init[k].0 == n &&
            acc[n] == BlendLoop(keys, Zip(init[k].1, ChosenWeights(WeightsFor(n), |init[k].1|)));
          assert table[k] == init[k];
        } else {
          var pairs := Zip(e.1, ChosenWeights(WeightsFor(e.0), |e.1|));
          BlendSourcesAgree(keys, init, e.1);
          BlendLoopAgrees(acc, keys, pairs);
          assert table[|table| - 1].0 == n;
        }
      }
    }
  }

  /** Step 3 so far agrees with its input on every expression source. */
  lemma BlendSourcesAgree(keys: Keys, init: seq<(string, seq<string>)>, sources: seq<string>)
    requires SameMesh(keys) && BlendTable(init)
    requires forall j :: 0 <= j < |sources| ==> |sources[j]| > 0 && sources[j][0] == 'h'
    ensures var acc := CreateBlends(keys, init);
      forall j :: 0 <= j < |sources| ==>
        (sources[j] in acc <==> sources[j] in keys) && (sources[j] in keys ==> acc[sources[j]] == keys[sources[j]])
  {
  }

  // ---------------------------------------------------------------------
  // The script.

  /** Blended targets never begin with 'h' and each has at least one source. */
  predicate BlendTable(table: seq<(string, seq<string>)>)
  {
    forall k :: 0 <= k < |table| ==> |table[k].1| > 0 && |table[k].0| > 0 && table[k].0[0] != 'h'
  }

  lemma ShapeMapSeparated()
    ensures Separated(ShapeMap)
  {
  }

  lemma ArkitAliasesSeparated()
    ensures Separated(ArkitAliases)
  {
  }

  lemma ArkitToCreateTable()
    ensures BlendTable(ArkitToCreate) && ExpressionSources(ArkitToCreate)
  {
  }

  /** Steps 1 to 3 for any tables: copies, copies, then blends. */
  function Pipeline(keys: Keys, copies: seq<(string, string)>, aliases: seq<(string, string)>, blends: seq<(string, seq<string>)>): (r: Keys)
    requires SameMesh(keys) && BlendTable(blends)
    ensures SameMesh(r) && r.Keys >= keys.Keys
    ensures forall n :: n in keys ==> r[n] == keys[n]
  {
    CreateBlends(CreateCopies(CreateCopies(keys, copies), aliases), blends)
  }

  /** The names listed in a blend table. */
  function BlendNames(table: seq<(string, seq<string>)>): set<string>
  {
    set k | 0 <= k < |table| :: table[k].0
  }

  /** `n` holds a copy of the positions of a present source listed for it. */
  predicate CopiedFrom(r: Keys, keys: Keys, table: seq<(string, string)>, n: string)
  {
    n in r && exists k :: 0 <= k < |table| && table[k].0 == n && table[k].1 in keys && r[n] == keys[table[k].1]
  }

  /** `n` holds the blend of the sources listed for it, read from `keys`. */
  predicate BlendedFrom(r: Keys, keys: Keys, table: seq<(string, seq<string>)>, n: string)
    requires SameMesh(keys)
  {
    n in r &&
    exists k ::
      0 <= k < |table| && table[k].0 == n && |table[k].1| > 0 &&
      r[n] == BlendLoop(keys, Zip(table[k].1, ChosenWeights(WeightsFor(n), |table[k].1|)))
  }

  /** Steps 1 to 3 add exactly the targets of present sources and the blended
      names; each added key is a copy of its source or the blend of its
      sources, all read from the keys the script started with. */
  lemma PipelineContents(keys: Keys, copies: seq<(string, string)>, aliases: seq<(string, string)>, blends: seq<(string, seq<string>)>)
    requires SameMesh(keys) && BlendTable(blends) && ExpressionSources(blends)
    requires Separated(copies) && Separated(aliases)
    ensures var r := Pipeline(keys, copies, aliases, blends);
      r.Keys == keys.Keys + CopyTargets(copies, keys) + CopyTargets(aliases, keys) + BlendNames(blends)
    ensures var r := Pipeline(keys, copies, aliases, blends);
      forall n :: n in r && n !in keys ==>
        CopiedFrom(r, keys, copies, n) || CopiedFrom(r, keys, aliases, n) || BlendedFrom(r, keys, blends, n)
  {
    var k1 := CreateCopies(keys, copies);
    CopiesSeparated(keys, copies);
    CopiesFromExpressions(keys, copies);
    CopiesFromExpressions(k1, aliases);
    ExpressionsAgree(keys, k1);
    assert CopyTargets(aliases, k1) == CopyTargets(aliases, keys);
    var r := Pipeline(keys, copies, aliases, blends);
    forall n | n in r && n !in keys
      ensures CopiedFrom(r, keys, copies, n) || CopiedFrom(r, keys, aliases, n) || BlendedFrom(r, keys, blends, n)
    {
      PipelineAdded(keys, copies, aliases, blends, n);
    }
  }

  /** One key added by steps 1 to 3. */
  lemma PipelineAdded(keys: Keys, copies: seq<(string, string)>, aliases: seq<(string, string)>, blends: seq<(string, seq<string>)>, n: string)
    requires SameMesh(keys) && BlendTable(blends) && ExpressionSources(blends)
    requires Separated(copies) && Separated(aliases)
    requires n in Pipeline(keys, copies, aliases, blends) && n !in keys
    ensures var r := Pipeline(keys, copies, aliases, blends);
      CopiedFrom(r, keys, copies, n) || CopiedFrom(r, keys, aliases, n) || BlendedFrom(r, keys, blends, n)
  {
    var k1 := CreateCopies(keys, copies);
    var k2 := CreateCopies(k1, aliases);
    var r := CreateBlends(k2, blends);
    CopiesSeparated(keys, copies);
    CopiesSeparated(k1, aliases);
    if n in k1 {
      CopiesFromExpressions(keys, copies);
      assert CopiedFrom(r, keys, copies, n);
    } else if n in k2 {
      CopiesFromExpressions(k1, aliases);
      ExpressionsAgree(keys, k1);
      var k :| 0 <= k < |aliases| && aliases[k].0 == n && aliases[k].1 in keys && k2[n] == k1[aliases[k].1];
      assert CopiedFrom(r, keys, aliases, n);
    } else {
      BlendedAfterCopies(keys, k2, blends, n);
    }
  }

  /** A name step 3 creates after the copies holds the blend of its sources
      read from the keys before the copies. */
  lemma BlendedAfterCopies(keys: Keys, k2: Keys, blends: seq<(string, seq<string>)>, n: string)
    requires SameMesh(keys) && SameMesh(k2) && BlendTable(blends) && ExpressionSources(blends)
    requires k2.Keys >= keys.Keys && (forall x :: x in keys ==> k2[x] == keys[x])
    requires Expressions(k2) == Expressions(keys)
    requires n in CreateBlends(k2, blends) && n !in k2
    ensures BlendedFrom(CreateBlends(k2, blends), keys, blends, n)
  {
    var r := CreateBlends(k2, blends);
    BlendsContents(k2, blends);
    ExpressionsAgree(keys, k2);
    var k :| 0 <= k < |blends| && blends[k].0 == n &&
      r[n] == BlendLoop(k2, Zip(blends[k].1, ChosenWeights(WeightsFor(n), |blends[k].1|)));
    BlendLoopAgrees(k2, keys, Zip(blends[k].1, ChosenWeights(WeightsFor(n), |blends[k].1|)));
  }

  /** Keys that grew without changing their expressions agree with the
      original on every expression name. */
  lemma ExpressionsAgree(keys: Keys, grown: Keys)
    requires grown.Keys >= keys.Keys && forall n :: n in keys ==> grown[n] == keys[n]
    requires Expressions(grown) == Expressions(keys)
    ensures forall x :: |x| > 0 && x[0] == 'h' ==> (x in grown <==> x in keys)
  {
    forall x | |x| > 0 && x[0] == 'h' && x in grown ensures x in keys {
      assert x in Expressions(grown);
    }
  }

  /** With separated tables, a second run of the steps creates nothing. */
  lemma PipelineIdempotent(keys: Keys, copies: seq<(string, string)>, aliases: seq<(string, string)>, blends: seq<(string, seq<string>)>)
    requires SameMesh(keys) && BlendTable(blends)
    requires Separated(copies) && Separated(aliases)
    ensures Pipeline(Pipeline(keys, copies, aliases, blends), copies, aliases, blends) == Pipeline(keys, copies, aliases, blends)
  {
    var k1 := CreateCopies(keys, copies);
    var k2 := CreateCopies(k1, aliases);
    var r := CreateBlends(k2, blends);
    CopiesSeparated(keys, copies);
    CopiesSeparated(k1, aliases);
    assert Expressions(r) == Expressions(k2) by {
      forall n | n in r && n !in k2 ensures !(|n| > 0 && n[0] == 'h') {
        var k :| 0 <= k < |blends| && blends[k].0 == n;
      }
    }
    forall k | 0 <= k < |copies| && copies[k].1 in r ensures copies[k].0 in r {
      assert copies[k].1 in Expressions(r);
    }
    CopiesComplete(r, copies);
    forall k | 0 <= k < |aliases| && aliases[k].1 in r ensures aliases[k].0 in r {
      assert aliases[k].1 in Expressions(r);
    }
    CopiesComplete(r, aliases);
    BlendsComplete(r, blends);
  }

  /** Steps 1 to 3 of `process_vrm` on the face's shape keys. */
  function ProcessFace(keys: Keys): (r: Keys)
    requires SameMesh(keys)
    ensures SameMesh(r) && r.Keys >= keys.Keys
    ensures forall n :: n in keys ==> r[n] == keys[n]
    ensures r.Keys == keys.Keys + CopyTargets(ShapeMap, keys) + CopyTargets(ArkitAliases, keys) + BlendNames(ArkitToCreate)
    ensures forall n :: n in r && n !in keys ==>
      CopiedFrom(r, keys, ShapeMap, n) || CopiedFrom(r, keys, ArkitAliases, n) || BlendedFrom(r, keys, ArkitToCreate, n)
  {
    ArkitToCreateTable();
    ShapeMapSeparated();
    ArkitAliasesSeparated();
    PipelineContents(keys, ShapeMap, ArkitAliases, ArkitToCreate);
    Pipeline(keys, ShapeMap, ArkitAliases, ArkitToCreate)
  }

  /** Running the script a second time creates nothing. */
  lemma ProcessFaceIdempotent(keys: Keys)
    requires SameMesh(keys)
    ensures ProcessFace(ProcessFace(keys)) == ProcessFace(keys)
  {
    ShapeMapSeparated();
    ArkitAliasesSeparated();
    ArkitToCreateTable();
    PipelineIdempotent(keys, ShapeMap, ArkitAliases, ArkitToCreate);
  }

  // ---------------------------------------------------------------------
  // Teeth drivers.

  const TeethPrefix: string := "h_teeth.t_"

  /** The teeth key of a face expression key. */
  function TeethKeyName(faceKey: string): string
  {
    ReplaceAll(faceKey, "h_expressions.", TeethPrefix)
  }

  /** A driver: the teeth mesh (0 lower, 1 upper), its key, and the viseme driving it. */
  datatype Driver = Driver(mesh: nat, teethKey: string, viseme: string)

  /** The driver table entry `e` adds on teeth mesh `mesh`: one when the face
      has its viseme and the mesh has its teeth key. */
  function DriverOf(mesh: nat, faceKeys: set<string>, teethKeys: set<string>): ((string, string)) -> Option<Driver>
  {
    (e: (string, string)) => if e.0 in faceKeys && TeethKeyName(e.1) in teethKeys then Some(Driver(mesh, TeethKeyName(e.1), e.0)) else None
  }

  /** The drivers of one teeth mesh: for each viseme in table order, when the
      face has the viseme and the teeth have the matching key. `idx` lists
      the driving entries, in order and each once. */
  function MeshDrivers(mesh: nat, faceKeys: set<string>, teethKeys: set<string>, table: seq<(string, string)>): (r: seq<Driver>)
    ensures var idx := Seqs.Sources(table, DriverOf(mesh, faceKeys, teethKeys));
      && |idx| == |r|
      && (forall k :: 0 <= k < |r| ==>
            Drives(faceKeys, teethKeys, table, idx[k]) && r[k] == Driver(mesh, TeethKeyName(table[idx[k]].1), table[idx[k]].0))
      && (forall a, b :: 0 <= a < b < |idx| ==> idx[a] < idx[b])
      && (forall j :: Drives(faceKeys, teethKeys, table, j) ==> j in idx)
    ensures forall k :: 0 <= k < |r| ==> r[k].mesh == mesh && r[k].viseme in faceKeys && r[k].teethKey in teethKeys
    ensures forall k :: 0 <= k < |r| ==> exists j :: 0 <= j < |table| && table[j].0 == r[k].viseme && TeethKeyName(table[j].1) == r[k].teethKey
    ensures forall k :: 0 <= k < |table| && table[k].0 in faceKeys && TeethKeyName(table[k].1) in teethKeys ==>
      Driver(mesh, TeethKeyName(table[k].1), table[k].0) in r
  {
    var f := DriverOf(mesh, faceKeys, teethKeys);
    Seqs.SourcesOrdered(table, f);
    Seqs.FilterMap(table, f)
  }

  /** Step 4: the lower then the upper teeth, each skipped when missing or
      without shape keys; the drivers added on each mesh are those of its
      own key names. */
  function TeethDrivers(faceKeys: set<string>, lower: Option<set<string>>, upper: Option<set<string>>): (r: seq<Driver>)
    ensures forall d :: d in r ==> d.viseme in faceKeys && (d.mesh == 0 || d.mesh == 1)
    ensures forall d :: d in r && d.mesh == 0 ==> lower.Some? && d.teethKey in lower.value
    ensures forall d :: d in r && d.mesh == 1 ==> upper.Some? && d.teethKey in upper.value
    ensures lower.Some? ==> forall k :: Drives(faceKeys, lower.value, ShapeMap, k) ==>
      Driver(0, TeethKeyName(ShapeMap[k].1), ShapeMap[k].0) in r
    ensures upper.Some? ==> forall k :: Drives(faceKeys, upper.value, ShapeMap, k) ==>
      Driver(1, TeethKeyName(ShapeMap[k].1), ShapeMap[k].0) in r
  {
    var down := match lower case Some(t) => MeshDrivers(0, faceKeys, t, ShapeMap) case None => [];
    var up := match upper case Some(t) => MeshDrivers(1, faceKeys, t, ShapeMap) case None => [];
    down + up
  }

  /** Entry `k` of the table gets a driver: its viseme is on the face and its
      teeth key is on the mesh. */
  predicate Drives(faceKeys: set<string>, teethKeys: set<string>, table: seq<(string, string)>, k: int)
  {
    0 <= k < |table| && table[k].0 in faceKeys && TeethKeyName(table[k].1) in teethKeys
  }

  /** The drivers left on one teeth mesh after step 4, teeth key to viseme:
      each `driver_remove` and `driver_add` replaces the key's driver, so a
      later entry for the same teeth key wins. */
  function MeshFinal(faceKeys: set<string>, teethKeys: set<string>, table: seq<(string, string)>): (m: map<string, string>)
    ensures forall tk :: tk in m <==> exists k :: Drives(faceKeys, teethKeys, table, k) && TeethKeyName(table[k].1) == tk
    decreases |table|
  {
    if |table| == 0 then map[]
    else
      var init := table[..|table| - 1];
      var e := table[|table| - 1];
      var m := MeshFinal(faceKeys, teethKeys, init);
      assert forall k :: 0 <= k < |init| ==> init[k] == table[k];
      if e.0 in faceKeys && TeethKeyName(e.1) in teethKeys then m[TeethKeyName(e.1) := e.0] else m
  }

  /** The last entry driving teeth key `tk`, or -1. */
  function LastDriving(faceKeys: set<string>, teethKeys: set<string>, table: seq<(string, string)>, tk: string): (k: int)
    ensures -1 <= k < |table|
    ensures k >= 0 ==> Drives(faceKeys, teethKeys, table, k) && TeethKeyName(table[k].1) == tk
    ensures forall j :: k < j && Drives(faceKeys, teethKeys, table, j) ==> TeethKeyName(table[j].1) != tk
    decreases |table|
  {
    if |table| == 0 then -1
    else if Drives(faceKeys, teethKeys, table, |table| - 1) && TeethKeyName(table[|table| - 1].1) == tk then |table| - 1
    else
      var init := table[..|table| - 1];
      assert forall j :: 0 <= j < |init| ==> init[j] == table[j];
      LastDriving(faceKeys, teethKeys, init, tk)
  }

  /** Each teeth key is driven by the viseme of the last entry that drives it. */
  lemma {:induction false} MeshFinalLast(faceKeys: set<string>, teethKeys: set<string>, table: seq<(string, string)>, tk: string)
    requires tk in MeshFinal(faceKeys, teethKeys, table)
    ensures var k := LastDriving(faceKeys, teethKeys, table, tk);
      k >= 0 && MeshFinal(faceKeys, teethKeys, table)[tk] == table[k].0
    decreases |table|
  {
    var last := |table| - 1;
    if !(Drives(faceKeys, teethKeys, table, last) && TeethKeyName(table[last].1) == tk) {
      var init := table[..last];
      assert forall j :: 0 <= j < |init| ==> init[j] == table[j];
      MeshFinalLast(faceKeys, teethKeys, init, tk);
    }
  }

  /** The teeth key of "A" is "h_teeth.t_AE_AA_h". */
  lemma TeethKeyExample()
    ensures TeethKeyName("h_expressions.AE_AA_h") == "h_teeth.t_AE_AA_h"
  {
    var s := "h_expressions.AE_AA_h";
    var p := "h_expressions.";
    assert s[0..|p|] == p;
    assert IndexOf(s, p) == 0;
    var rest := s[|p|..];
    assert rest == "AE_AA_h";
    MissingCharNotFound(rest, p, 3);
  }

  /** "I" and "N" share the teeth key "h_teeth.t_TD_I_h". */
  lemma TeethKeyOfTD()
    ensures TeethKeyName("h_expressions.TD_I_h") == "h_teeth.t_TD_I_h"
  {
    var s := "h_expressions.TD_I_h";
    var p := "h_expressions.";
    assert s[0..|p|] == p;
    assert IndexOf(s, p) == 0;
    var rest := s[|p|..];
    assert rest == "TD_I_h";
    MissingCharNotFound(rest, p, 3);
  }

  /** With "I" on the face, "I" gets a driver on the teeth key it shares with "N". */
  lemma SharedTeethKeyDrivenByI(mesh: nat, faceKeys: set<string>, teethKeys: set<string>)
    requires "I" in faceKeys && "h_teeth.t_TD_I_h" in teethKeys
    ensures Driver(mesh, "h_teeth.t_TD_I_h", "I") in MeshDrivers(mesh, faceKeys, teethKeys, ShapeMap)
  {
    TeethKeyOfTD();
    assert ShapeMap[2] == ("I", "h_expressions.TD_I_h");
  }

  /** With "N" on the face, "N", listed last, replaces that driver: the shared
      teeth key ends up following "N". */
  lemma SharedTeethKeyFollowsN(faceKeys: set<string>, teethKeys: set<string>)
    requires "N" in faceKeys && "h_teeth.t_TD_I_h" in teethKeys
    ensures "h_teeth.t_TD_I_h" in MeshFinal(faceKeys, teethKeys, ShapeMap)
    ensures MeshFinal(faceKeys, teethKeys, ShapeMap)["h_teeth.t_TD_I_h"] == "N"
  {
    TeethKeyOfTD();
    var e := ShapeMap[|ShapeMap| - 1];
    assert e == ("N", "h_expressions.TD_I_h");
  }

  /** The drivers left on the two teeth meshes; a missing mesh keeps none. */
  datatype TeethState = TeethState(lower: map<string, string>, upper: map<string, string>)

  /** Every final driver reads a face viseme and sits on a key of the mesh. */
  lemma MeshFinalValues(faceKeys: set<string>, teethKeys: set<string>, table: seq<(string, string)>)
    ensures var m := MeshFinal(faceKeys, teethKeys, table);
      forall tk :: tk in m ==> m[tk] in faceKeys && tk in teethKeys
  {
    var m := MeshFinal(faceKeys, teethKeys, table);
    forall tk | tk in m ensures m[tk] in faceKeys && tk in teethKeys {
      MeshFinalLast(faceKeys, teethKeys, table, tk);
    }
  }

  /** The final drivers of one teeth mesh, none when the mesh is missing. */
  function MeshState(faceKeys: set<string>, teeth: Option<set<string>>): (m: map<string, string>)
    ensures teeth.None? ==> m == map[]
    ensures forall tk :: tk in m ==> m[tk] in faceKeys && teeth.Some? && tk in teeth.value
    ensures teeth.Some? && "N" in faceKeys && "h_teeth.t_TD_I_h" in teeth.value ==>
      "h_teeth.t_TD_I_h" in m && m["h_teeth.t_TD_I_h"] == "N"
  {
    match teeth
    case None => map[]
    case Some(t) =>
      MeshFinalValues(faceKeys, t, ShapeMap);
      if "N" in faceKeys && "h_teeth.t_TD_I_h" in t then
        SharedTeethKeyFollowsN(faceKeys, t);
        MeshFinal(faceKeys, t, ShapeMap)
      else
        MeshFinal(faceKeys, t, ShapeMap)
  }

  /** The state step 4 leaves on the lower and the upper teeth. */
  function TeethFinal(faceKeys: set<string>, lower: Option<set<string>>, upper: Option<set<string>>): TeethState
  {
    TeethState(MeshState(faceKeys, lower), MeshState(faceKeys, upper))
  }

  /** `process_vrm` after the import: nothing without the face mesh,
      otherwise steps 1 to 3 on the face, the teeth drivers added in step 4,
      and the drivers they leave on the teeth. */
  function ProcessVrm(face: Option<Keys>, lower: Option<set<string>>, upper: Option<set<string>>): (r: Option<(Keys, seq<Driver>, TeethState)>)
    requires face.Some? ==> SameMesh(face.value)
    ensures r.None? <==> face.None?
    ensures r.Some? ==> r.value.0 == ProcessFace(face.value)
    ensures r.Some? ==> forall d :: d in r.value.1 ==> d.viseme in r.value.0
    ensures r.Some? ==> forall tk :: tk in r.value.2.lower ==> r.value.2.lower[tk] in r.value.0
    ensures r.Some? ==> forall tk :: tk in r.value.2.upper ==> r.value.2.upper[tk] in r.value.0
    ensures r.Some? && lower.Some? && "N" in r.value.0 && "h_teeth.t_TD_I_h" in lower.value ==>
      "h_teeth.t_TD_I_h" in r.value.2.lower && r.value.2.lower["h_teeth.t_TD_I_h"] == "N"
  {
    match face
    case None => None
    case Some(keys) =>
      var done := ProcessFace(keys);
      Some((done, TeethDrivers(done.Keys, lower, upper), TeethFinal(done.Keys, lower, upper)))
  }
}

=== FILE: sorting.dfy ===
/** Sorting by a lexicographic integer key, the model of JavaScript
    `Array.prototype.sort` with a comparator that subtracts key components
    in turn (frame numbers; directory and take numbers). */
module Sorting {
  import Seqs

  /** Lexicographic order on integer sequences; a proper prefix comes first. */
  predicate LexLe(a: seq<int>, b: seq<int>)
    decreases |a|
  {
    |a| == 0 || (|b| > 0 && (a[0] < b[0] || (a[0] == b[0] && LexLe(a[1..], b[1..]))))
  }

  lemma {:induction false} LexLeTotal(a: seq<int>, b: seq<int>)
    ensures LexLe(a, b) || LexLe(b, a)
    decreases |a|
  {
    if |a| > 0 && |b| > 0 && a[0] == b[0] {
      LexLeTotal(a[1..], b[1..]);
    }
  }

  lemma {:induction false} LexLeTrans(a: seq<int>, b: seq<int>, c: seq<int>)
    requires LexLe(a, b) && LexLe(b, c)
    ensures LexLe(a, c)
    decreases |a|
  {
    if |a| > 0 && a[0] == b[0] && b[0] == c[0] {
      LexLeTrans(a[1..], b[1..], c[1..]);
    }
  }

  /** Mutual order is equality. */
  lemma {:induction false} LexLeAntisym(a: seq<int>, b: seq<int>)
    requires LexLe(a, b) && LexLe(b, a)
    ensures a == b
    decreases |a|
  {
    if |a| > 0 {
      LexLeAntisym(a[1..], b[1..]);
      assert a == [a[0]] + a[1..] && b == [b[0]] + b[1..];
    }
  }

  ghost predicate SortedBy<T>(s: seq<T>, key: T -> seq<int>)
  {
    forall i, j :: 0 <= i < j < |s| ==> LexLe(key(s[i]), key(s[j]))
  }

  /** `x` placed after every trailing element whose key is greater than its own. */
  function Insert<T>(x: T, s: seq<T>, key: T -> seq<int>): (r: seq<T>)
    ensures |r| == |s| + 1 && multiset(r) == multiset(s) + multiset{x}
    decreases |s|
  {
    if |s| == 0 then [x]
    else
      var last := s[|s| - 1];
      var init := s[..|s| - 1];
      assert s == init + [last];
      if LexLe(key(last), key(x)) then s + [x] else Insert(x, init, key) + [last]
  }

  /** Inserting into a sorted sequence keeps it sorted. */
  lemma {:induction false} InsertSorted<T>(x: T, s: seq<T>, key: T -> seq<int>)
    requires SortedBy(s, key)
    ensures SortedBy(Insert(x, s, key), key)
    decreases |s|
  {
    if |s| > 0 {
      var last := s[|s| - 1];
      var init := s[..|s| - 1];
      assert s == init + [last];
      if LexLe(key(last), key(x)) {
        forall i | 0 <= i < |s| ensures LexLe(key(s[i]), key(x)) {
          if i < |s| - 1 { LexLeTrans(key(s[i]), key(last), key(x)); }
        }
      } else {
        LexLeTotal(key(last), key(x));
        InsertSorted(x, init, key);
        var r := Insert(x, init, key) + [last];
        forall i | 0 <= i < |r| - 1 ensures LexLe(key(r[i]), key(last)) {
          assert r[i] in multiset(Insert(x, init, key));
          if r[i] != x {
            assert r[i] in multiset(init);
            var j :| 0 <= j < |init| && init[j] == r[i];
          }
        }
      }
    }
  }

  /** Insertion sort by key. It is stable: for every key value, the elements
      with that key appear in their input order. */
  function SortBy<T>(s: seq<T>, key: T -> seq<int>): (r: seq<T>)
    ensures |r| == |s| && multiset(r) == multiset(s)
    ensures SortedBy(r, key)
    ensures forall v :: Seqs.Filter(r, WithKey(key, v)) == Seqs.Filter(s, WithKey(key, v))
    decreases |s|
  {
    if |s| == 0 then []
    else
      var init, x := s[..|s| - 1], s[|s| - 1];
      assert s == init + [x];
      var sorted := SortBy(init, key);
      InsertSorted(x, sorted, key);
      InsertKeepsStable(x, init, sorted, key);
      Insert(x, sorted, key)
  }

  lemma {:induction false} LexLeRefl(a: seq<int>)
    ensures LexLe(a, a)
    decreases |a|
  {
    if |a| > 0 { LexLeRefl(a[1..]); }
  }

  /** The elements whose key is `v`. */
  function WithKey<T>(key: T -> seq<int>, v: seq<int>): T -> bool
  {
    x => key(x) == v
  }

  /** `Insert` puts `x` after every element with the same key. */
  lemma {:induction false} InsertStable<T>(x: T, s: seq<T>, key: T -> seq<int>, v: seq<int>)
    ensures Seqs.Filter(Insert(x, s, key), WithKey(key, v)) ==
      Seqs.Filter(s, WithKey(key, v)) + Seqs.Filter([x], WithKey(key, v))
    decreases |s|
  {
    var p := WithKey(key, v);
    if |s| == 0 {
      assert Insert(x, s, key) == [x];
      assert Seqs.Filter(s, p) == [];
    } else {
      var last := s[|s| - 1];
      var init := s[..|s| - 1];
      assert s == init + [last];
      if LexLe(key(last), key(x)) {
        Seqs.FilterAppend(s, [x], p);
      } else {
        LexLeRefl(key(x));
        assert !(p(last) && p(x));
        assert Insert(x, s, key) == Insert(x, init, key) + [last];
        InsertStable(x, init, key, v);
        Seqs.FilterAppend(Insert(x, init, key), [last], p);
        Seqs.FilterAppend(init, [last], p);
        SinglesCommute(Seqs.Filter(init, p), x, last, p);
      }
    }
  }

  /** Two single elements that are not both accepted filter to the same in either order. */
  lemma SinglesCommute<T>(a: seq<T>, x: T, y: T, p: T -> bool)
    requires !(p(x) && p(y))
    ensures a + Seqs.Filter([x], p) + Seqs.Filter([y], p) == a + Seqs.Filter([y], p) + Seqs.Filter([x], p)
  {
    Seqs.FilterStep([x], p);
    Seqs.FilterStep([y], p);
    assert [x][1..] == [] && [y][1..] == [];
  }

  /** Inserting the last element into a stably sorted prefix keeps the sort stable. */
  lemma InsertKeepsStable<T>(x: T, init: seq<T>, sorted: seq<T>, key: T -> seq<int>)
    requires forall v :: Seqs.Filter(sorted, WithKey(key, v)) == Seqs.Filter(init, WithKey(key, v))
    ensures forall v :: Seqs.Filter(Insert(x, sorted, key), WithKey(key, v)) == Seqs.Filter(init + [x], WithKey(key, v))
  {
    forall v ensures Seqs.Filter(Insert(x, sorted, key), WithKey(key, v)) == Seqs.Filter(init + [x], WithKey(key, v)) {
      InsertStable(x, sorted, key, v);
      Seqs.FilterAppend(init, [x], WithKey(key, v));
    }
  }

  /** Every element of the sorted sequence comes from the input. */
  lemma SortByMembers<T>(s: seq<T>, key: T -> seq<int>)
    ensures forall k :: 0 <= k < |s| ==> SortBy(s, key)[k] in s
  {
    var r := SortBy(s, key);
    forall k | 0 <= k < |s| ensures r[k] in s {
      assert r[k] in multiset(r);
    }
  }

  /** Sorting an already sorted sequence changes nothing. */
  lemma {:induction false} SortSorted<T>(s: seq<T>, key: T -> seq<int>)
    requires SortedBy(s, key)
    ensures SortBy(s, key) == s
    decreases |s|
  {
    if |s| > 0 {
      var init := s[..|s| - 1];
      var x := s[|s| - 1];
      assert s == init + [x];
      SortedPrefix(s, key);
      calc {
        SortBy(s, key);
        { SortByLast(s, key); }
        Insert(x, SortBy(init, key), key);
        { SortSorted(init, key); }
        Insert(x, init, key);
        { InsertAtEnd(x, init, key); }
        s;
      }
    }
  }

  /** A sorted sequence's prefix is sorted, and its last element is no smaller. */
  lemma SortedPrefix<T>(s: seq<T>, key: T -> seq<int>)
    requires |s| > 0 && SortedBy(s, key)
    ensures SortedBy(s[..|s| - 1], key)
    ensures |s| == 1 || LexLe(key(s[|s| - 2]), key(s[|s| - 1]))
  {
  }

  /** The sort inserts the last element into the sorted prefix. */
  lemma SortByLast<T>(s: seq<T>, key: T -> seq<int>)
    requires |s| > 0
    ensures SortBy(s, key) == Insert(s[|s| - 1], SortBy(s[..|s| - 1], key), key)
  {
  }

  /** An element no smaller than the last goes at the end. */
  lemma InsertAtEnd<T>(x: T, s: seq<T>, key: T -> seq<int>)
    requires |s| == 0 || LexLe(key(s[|s| - 1]), key(x))
    ensures Insert(x, s, key) == s + [x]
  {
  }
}

=== FILE: text.dfy ===
/** String helpers shared by the name-mapping code: character classes,
    first-occurrence search and replacement, and decimal digit runs.
    Strings are plain `seq<char>`; JavaScript/Python regular expressions used by
    the modelled code are written out as explicit scans in the modules that use them. */
module Text {

  predicate IsDigit(c: char) { '0' <= c <= '9' }
  predicate IsUpper(c: char) { 'A' <= c <= 'Z' }
  predicate IsLower(c: char) { 'a' <= c <= 'z' }

  /** The `\w` class of JavaScript regular expressions. */
  predicate IsWordChar(c: char) { IsDigit(c) || IsUpper(c) || IsLower(c) || c == '_' }

  /** ASCII lower-casing of one character. */
  function ToLower(c: char): (r: char)
    ensures !IsUpper(r)
    ensures IsUpper(c) ==> IsLower(r)
    ensures !IsUpper(c) ==> r == c
  {
    if IsUpper(c) then (c as int - 'A' as int + 'a' as int) as char else c
  }

  /** `s.charAt(0).toLowerCase() + s.slice(1)`. */
  function LowerFirst(s: string): (r: string)
    ensures |r| == |s|
    ensures |s| > 0 ==> !IsUpper(r[0]) && r[1..] == s[1..]
    ensures |s| > 0 && !IsUpper(s[0]) ==> r == s
  {
    if |s| == 0 then s else [ToLower(s[0])] + s[1..]
  }

  predicate StartsWith(s: string, p: string) { |p| <= |s| && s[..|p|] == p }
  predicate EndsWith(s: string, p: string) { |p| <= |s| && s[|s| - |p|..] == p }

  /** True when `p` occurs in `s` starting at index `i`. */
  predicate OccursAt(s: string, p: string, i: int)
  {
    0 <= i && i + |p| <= |s| && s[i..i + |p|] == p
  }

  /** Index of the first occurrence of `p` in `s` at or after `from`, or -1. */
  function IndexOfFrom(s: string, p: string, from: nat): (r: int)
    ensures r == -1 || (from <= r && OccursAt(s, p, r))
    ensures r == -1 ==> forall j :: from <= j ==> !OccursAt(s, p, j)
    ensures r >= 0 ==> forall j :: from <= j < r ==> !OccursAt(s, p, j)
    decreases |s| - from
  {
    if from + |p| > |s| then -1
    else if s[from..from + |p|] == p then from
    else IndexOfFrom(s, p, from + 1)
  }

  function IndexOf(s: string, p: string): int { IndexOfFrom(s, p, 0) }

  /** JavaScript `s.includes(p)` / an unanchored literal regular expression test. */
  predicate Contains(s: string, p: string) { IndexOf(s, p) >= 0 }

  lemma ContainsWitness(s: string, p: string, i: int)
    requires OccursAt(s, p, i)
    ensures Contains(s, p)
  {
  }

  /** A pattern one of whose characters does not occur in `s` is not found in `s`. */
  lemma MissingCharNotFound(s: string, p: string, k: nat)
    requires k < |p| && p[k] !in s
    ensures !Contains(s, p)
  {
  }

  /** JavaScript `s.replace(p, r)` with a string pattern: only the first occurrence. */
  function ReplaceFirst(s: string, p: string, r: string): (t: string)
    ensures !Contains(s, p) ==> t == s
    ensures Contains(s, p) ==>
      var i := IndexOf(s, p);
      t == s[..i] + r + s[i + |p|..] && |t| == |s| - |p| + |r|
  {
    var i := IndexOf(s, p);
    if i < 0 then s else s[..i] + r + s[i + |p|..]
  }

  /** Python `s.replace(p, r)`: every non-overlapping occurrence, left to right. */
  function ReplaceAll(s: string, p: string, r: string): (t: string)
    requires |p| > 0
    ensures !Contains(s, p) ==> t == s
    decreases |s|
  {
    var i := IndexOf(s, p);
    if i < 0 then s else s[..i] + r + ReplaceAll(s[i + |p|..], p, r)
  }

  /** The characters Python's `str.strip()` removes by default (`str.isspace`):
      the ASCII blanks and separators \t \n \v \f \r \x1c-\x1f and space,
      NEL, no-break space and the Unicode space separators. */
  predicate IsSpace(c: char)
  {
    ('\U{09}' <= c <= '\U{0D}') || ('\U{1C}' <= c <= '\U{20}') || c == '\U{85}' || c == '\U{A0}' ||
    c == '\U{1680}' || ('\U{2000}' <= c <= '\U{200A}') || c == '\U{2028}' || c == '\U{2029}' ||
    c == '\U{202F}' || c == '\U{205F}' || c == '\U{3000}'
  }

  /** The number of white-space characters `s` starts with. */
  function LeadingSpaces(s: string): (n: nat)
    ensures n <= |s| && (n == |s| || !IsSpace(s[n]))
    ensures forall k :: 0 <= k < n ==> IsSpace(s[k])
  {
    if |s| > 0 && IsSpace(s[0]) then 1 + LeadingSpaces(s[1..]) else 0
  }

  function StripLeft(s: string): (r: string)
    ensures |r| <= |s| && r == s[|s| - |r|..]
    ensures |r| == 0 || !IsSpace(r[0])
    ensures forall k :: 0 <= k < |s| - |r| ==> IsSpace(s[k])
  {
    s[LeadingSpaces(s)..]
  }

  function StripRight(s: string): (r: string)
    ensures |r| <= |s| && r == s[..|r|]
    ensures |r| == 0 || !IsSpace(r[|r| - 1])
    ensures forall k :: |r| <= k < |s| ==> IsSpace(s[k])
  {
    if |s| > 0 && IsSpace(s[|s| - 1]) then StripRight(s[..|s| - 1]) else s
  }

  /** `s.strip()`: what follows the leading white space, up to trailing white
      space, with no white space at its ends. */
  function Strip(s: string): (r: string)
    ensures |r| == 0 || (!IsSpace(r[0]) && !IsSpace(r[|r| - 1]))
    ensures |r| <= |s|
    ensures var n := LeadingSpaces(s);
      n + |r| <= |s| && r == s[n..n + |r|] && forall k :: n + |r| <= k < |s| ==> IsSpace(s[k])
  {
    var l := StripLeft(s);
    var r := StripRight(l);
    var n := LeadingSpaces(s);
    assert r == s[n..n + |r|];
    assert forall k :: n + |r| <= k < |s| ==> s[k] == l[k - n];
    r
  }

  predicate AllDigits(s: string) { forall k :: 0 <= k < |s| ==> IsDigit(s[k]) }

  /** End (exclusive) of the maximal run of decimal digits starting at `i` (`\d+`). */
  function DigitRunEnd(s: string, i: nat): (e: nat)
    requires i <= |s|
    ensures i <= e <= |s|
    ensures forall k :: i <= k < e ==> IsDigit(s[k])
    ensures AllDigits(s[i..e])
    ensures e == |s| || !IsDigit(s[e])
    decreases |s| - i
  {
    if i < |s| && IsDigit(s[i]) then DigitRunEnd(s, i + 1) else i
  }

  /** A run of `n` digits at `i` followed by the end or a non-digit ends at `i + n`. */
  lemma {:induction false} DigitRunEndOf(s: string, i: nat, n: nat)
    requires i + n <= |s|
    requires forall k :: i <= k < i + n ==> IsDigit(s[k])
    requires i + n == |s| || !IsDigit(s[i + n])
    ensures DigitRunEnd(s, i) == i + n
    decreases n
  {
    if n > 0 {
      DigitRunEndOf(s, i + 1, n - 1);
    }
  }

  /** End (exclusive) of the maximal run of word characters starting at `i` (`\w+`). */
  function WordRunEnd(s: string, i: nat): (e: nat)
    requires i <= |s|
    ensures i <= e <= |s|
    ensures forall k :: i <= k < e ==> IsWordChar(s[k])
    ensures e == |s| || !IsWordChar(s[e])
    decreases |s| - i
  {
    if i < |s| && IsWordChar(s[i]) then WordRunEnd(s, i + 1) else i
  }

  function DigitValue(c: char): nat requires IsDigit(c) { c as int - '0' as int }

  /** The value of a decimal digit string (`parseInt` / Python `int` on `\d+`). */
  function DigitsValue(s: string): nat
    requires AllDigits(s)
  {
    if |s| == 0 then 0 else 10 * DigitsValue(s[..|s| - 1]) + DigitValue(s[|s| - 1])
  }

  /** Decimal rendering of a natural number, no leading zeros ("0" for zero). */
  function Decimal(n: nat): (s: string)
    ensures |s| >= 1 && AllDigits(s)
    ensures n >= 10 ==> |s| >= 2
    decreases n
  {
    if n < 10 then [('0' as int + n) as char] else Decimal(n / 10) + [('0' as int + n % 10) as char]
  }

  lemma {:induction false} DecimalValue(n: nat)
    ensures DigitsValue(Decimal(n)) == n
    decreases n
  {
    var s := Decimal(n);
    if n >= 10 {
      DecimalValue(n / 10);
      assert s[..|s| - 1] == Decimal(n / 10);
    }
  }

  /** Leading zeros do not change the value of a digit string. */
  lemma {:induction false} LeadingZeroValue(s: string)
    requires AllDigits(s)
    ensures AllDigits("0" + s) && DigitsValue("0" + s) == DigitsValue(s)
    decreases |s|
  {
    var z := "0" + s;
    assert AllDigits(z) by {
      forall k | 0 <= k < |z| ensures IsDigit(z[k]) {
        if k > 0 { assert z[k] == s[k - 1]; }
      }
    }
    if |s| > 0 {
      LeadingZeroValue(s[..|s| - 1]);
      assert z[..|z| - 1] == "0" + s[..|s| - 1];
    }
  }
}

=== FILE: vmd.dfy ===
/** Retargeting of MMD motion (VMD) keyframes onto a VRM avatar: MMD bone
    names mapped to avatar nodes, the lower-body rotation folded into the
    centre and upper-body keys, and the per-key coordinate conversion. */
module VmdRetarget {
  import opened Options
  import opened Quaternions
  import Seqs
  import opened Sorting
  import opened VmdBoneNames

  /** One VMD bone keyframe. */
  datatype Motion = Motion(boneName: string, frame: int, position: Vec3, rotation: Quat)

  // ---------------------------------------------------------------------
  // The name map: MMD node name to avatar node name.

  /** Every name in `names` bound to `node`, over `m`. */
  function AddNames(m: map<string, string>, names: seq<string>, node: string): (r: map<string, string>)
    ensures forall n :: n in r <==> n in m || n in names
    ensures forall n :: n in r ==> r[n] == if n in names then node else m[n]
    decreases |names|
  {
    if |names| == 0 then m else AddNames(m[names[0] := node], names[1..], node)
  }

  /** The map `load` builds: for each entry whose bone the avatar has, both
      of its names point at that bone's node; later entries win. */
  function NameMap(table: seq<MappingEntry>, bones: map<string, string>): map<string, string>
    decreases |table|
  {
    if |table| == 0 then map[]
    else
      var acc := NameMap(table[..|table| - 1], bones);
      var entry := table[|table| - 1];
      if entry.0 in bones then AddNames(acc, entry.1, bones[entry.0]) else acc
  }

  /** Reference: the last entry that lists `name` and whose bone the avatar has, or -1. */
  function LastProvider(table: seq<MappingEntry>, bones: map<string, string>, name: string): (k: int)
    ensures -1 <= k < |table|
    ensures k >= 0 ==> name in table[k].1 && table[k].0 in bones
    ensures forall j :: k < j < |table| ==> !(name in table[j].1 && table[j].0 in bones)
    decreases |table|
  {
    if |table| == 0 then -1
    else if name in table[|table| - 1].1 && table[|table| - 1].0 in bones then |table| - 1
    else LastProvider(table[..|table| - 1], bones, name)
  }

  /** The map holds exactly the names some present bone lists, each bound to
      the node of the last such bone. */
  lemma {:induction false} NameMapLookup(table: seq<MappingEntry>, bones: map<string, string>, name: string)
    ensures var k := LastProvider(table, bones, name);
      && (name in NameMap(table, bones) <==> k >= 0)
      && (k >= 0 ==> NameMap(table, bones)[name] == bones[table[k].0])
    decreases |table|
  {
    if |table| > 0 {
      NameMapLookup(table[..|table| - 1], bones, name);
    }
  }

  /** The avatar's name map for the VMD table. */
  function VmdNameMap(bones: map<string, string>): map<string, string>
  {
    NameMap(BoneMapping, bones)
  }

  /** `if (nameMap[n]) n = nameMap[n]`: a mapped, non-empty node name replaces the MMD name. */
  function MappedName(nameMap: map<string, string>, name: string): (r: string)
    ensures name in nameMap && nameMap[name] != "" ==> r == nameMap[name]
    ensures !(name in nameMap && nameMap[name] != "") ==> r == name
  {
    if name in nameMap && nameMap[name] != "" then nameMap[name] else name
  }

  /** Expression names of the avatar and the MMD morphs they stand for. */
  const BlendShapeMorphs: seq<(string, string)> :=
    [("A", "あ"), ("I", "い"), ("U", "う"), ("E", "え"), ("O", "お"), ("BLINK", "まばたき")]

  /** The morph dictionary installed on the model: MMD morph name to avatar
      expression, for the expressions the avatar has. */
  function MorphDictionary(table: seq<(string, string)>, shapes: set<string>): (r: map<string, string>)
    ensures forall m :: m in r <==> exists k :: 0 <= k < |table| && table[k].1 == m && table[k].0 in shapes
    ensures forall m :: m in r ==> r[m] in shapes
    ensures forall m :: m in r ==> LastMorph(table, shapes, m) >= 0 && r[m] == table[LastMorph(table, shapes, m)].0
    decreases |table|
  {
    if |table| == 0 then map[]
    else
      var acc := MorphDictionary(table[..|table| - 1], shapes);
      var e := table[|table| - 1];
      if e.0 in shapes then acc[e.1 := e.0] else acc
  }

  /** The last entry for morph `m` whose expression the avatar has, or -1:
      the entry whose write the dictionary keeps. */
  function LastMorph(table: seq<(string, string)>, shapes: set<string>, m: string): (k: int)
    ensures -1 <= k < |table|
    ensures k >= 0 ==> table[k].1 == m && table[k].0 in shapes
    ensures forall j :: k < j < |table| ==> !(table[j].1 == m && table[j].0 in shapes)
    decreases |table|
  {
    if |table| == 0 then -1
    else if table[|table| - 1].1 == m && table[|table| - 1].0 in shapes then |table| - 1
    else
      var init := table[..|table| - 1];
      assert forall j :: 0 <= j < |init| ==> init[j] == table[j];
      LastMorph(init, shapes, m)
  }

  /** A morph named by a single entry plays that entry's expression when the
      avatar has it. */
  lemma MorphUniqueEntry(table: seq<(string, string)>, shapes: set<string>, k: nat)
    requires k < |table| && table[k].0 in shapes
    requires forall j :: 0 <= j < |table| && table[j].1 == table[k].1 ==> j == k
    ensures table[k].1 in MorphDictionary(table, shapes)
    ensures MorphDictionary(table, shapes)[table[k].1] == table[k].0
  {
    var r := MorphDictionary(table, shapes);
    assert table[k].1 in r;
    var last := LastMorph(table, shapes, table[k].1);
    assert last == k;
  }

  /** The VMD table names each morph once, so whatever expressions the avatar
      has, each of them is played by its own morph. */
  lemma MorphDictionaryPlays(shapes: set<string>)
    ensures forall k :: 0 <= k < |BlendShapeMorphs| && BlendShapeMorphs[k].0 in shapes ==>
      BlendShapeMorphs[k].1 in MorphDictionary(BlendShapeMorphs, shapes) &&
      MorphDictionary(BlendShapeMorphs, shapes)[BlendShapeMorphs[k].1] == BlendShapeMorphs[k].0
  {
    var t := BlendShapeMorphs;
    forall k | 0 <= k < |t| && t[k].0 in shapes
      ensures t[k].1 in MorphDictionary(t, shapes) && MorphDictionary(t, shapes)[t[k].1] == t[k].0
    {
      assert forall a, b :: 0 <= a < b < |t| ==> t[a].1 != t[b].1;
      MorphUniqueEntry(t, shapes, k);
    }
  }






  // ---------------------------------------------------------------------
  // Per-key coordinate conversion.

  /** Upper-arm rest rotations, in degrees about the z axis. */
  const LeftUpperArmDegrees: int := -38
  const RightUpperArmDegrees: int := 38

  /** The rotation offsets keyed by node name; `aboutZ(d)` stands for the
      quaternion of a rotation by `d` degrees about z. The right arm is
      written last, so it wins if both bones share one node. */
  function RotationOffsets(bones: map<string, string>, aboutZ: int -> Quat): (r: map<string, Quat>)
    ensures forall n :: n in r <==>
      ("leftUpperArm" in bones && n == bones["leftUpperArm"]) || ("rightUpperArm" in bones && n == bones["rightUpperArm"])
    ensures "rightUpperArm" in bones ==> r[bones["rightUpperArm"]] == aboutZ(RightUpperArmDegrees)
    ensures "leftUpperArm" in bones && !("rightUpperArm" in bones && bones["rightUpperArm"] == bones["leftUpperArm"]) ==>
      r[bones["leftUpperArm"]] == aboutZ(LeftUpperArmDegrees)
  {
    var left: map<string, Quat> :=
      if "leftUpperArm" in bones then map[bones["leftUpperArm"] := aboutZ(LeftUpperArmDegrees)] else map[];
    if "rightUpperArm" in bones then left[bones["rightUpperArm"] := aboutZ(RightUpperArmDegrees)] else left
  }

  const VmdScale: real := 0.08

  /** `rotY(p, [c, s])` on a position: (x, z) rotated by the given cosine and sine. */
  function RotYVec(p: Vec3, c: real, s: real): Vec3
  {
    Vec3(p.x * c - p.z * s, p.y, p.x * s + p.z * c)
  }

  /** `rotY` applied to a rotation array: its x and z entries. */
  function RotYQuat(q: Quat, c: real, s: real): Quat
  {
    Quat(q.x * c - q.z * s, q.y, q.x * s + q.z * c, q.w)
  }

  /** `rotZ(p, [c, s])` on a position: (x, y) rotated. */
  function RotZVec(p: Vec3, c: real, s: real): Vec3
  {
    Vec3(p.x * c - p.y * s, p.x * s + p.y * c, p.z)
  }

  /** `rotZ` applied to a rotation array: its x and y entries. */
  function RotZQuat(q: Quat, c: real, s: real): Quat
  {
    Quat(q.x * c - q.y * s, q.x * s + q.y * c, q.z, q.w)
  }

  /** `rotY(…, [-1, 0])` is the x/z sign flip, and flipping twice restores the value. */
  lemma RotYHalfTurn(p: Vec3, q: Quat)
    ensures RotYVec(p, -1.0, 0.0) == Vec3(-p.x, p.y, -p.z)
    ensures RotYQuat(q, -1.0, 0.0) == Quat(-q.x, q.y, -q.z, q.w)
    ensures RotYVec(RotYVec(p, -1.0, 0.0), -1.0, 0.0) == p
    ensures RotYQuat(RotYQuat(q, -1.0, 0.0), -1.0, 0.0) == q
  {
  }

  /** With (c, s) on the unit circle, `rotZ` keeps the length in the plane and
      the opposite angle undoes it. */
  lemma RotZIsRotation(p: Vec3, c: real, s: real)
    requires c * c + s * s == 1.0
    ensures var r := RotZVec(p, c, s); r.x * r.x + r.y * r.y == p.x * p.x + p.y * p.y && r.z == p.z
    ensures RotZVec(RotZVec(p, c, s), c, -s) == p
  {
    var r := RotZVec(p, c, s);
    calc {
      r.x * r.x + r.y * r.y;
      == (p.x * c - p.y * s) * (p.x * c - p.y * s) + (p.x * s + p.y * c) * (p.x * s + p.y * c);
      == (p.x * p.x + p.y * p.y) * (c * c + s * s);
    }
    var b := RotZVec(r, c, -s);
    calc {
      b.x;
      == (p.x * c - p.y * s) * c + (p.x * s + p.y * c) * s;
      == p.x * (c * c + s * s);
    }
    calc {
      b.y;
      == -(p.x * c - p.y * s) * s + (p.x * s + p.y * c) * c;
      == p.y * (c * c + s * s);
    }
  }

  /** The loop body of `load` over every key: rename, the upper-arm rotation
      offset (pre-multiplied), scaling, the x/z flip, then the rest-pose
      rotation about z for the bones below an upper arm. */
  function ConvertMotion(m: Motion, nameMap: map<string, string>, offsets: map<string, Quat>,
                         transforms: map<string, (real, real)>): (r: Motion)
    ensures r.boneName == MappedName(nameMap, m.boneName) && r.frame == m.frame
    ensures r.boneName !in transforms ==>
      && r.position == Vec3(-VmdScale * m.position.x, VmdScale * m.position.y, -VmdScale * m.position.z)
      && var q := if r.boneName in offsets then Mul(offsets[r.boneName], m.rotation) else m.rotation;
         r.rotation == Quat(-q.x, q.y, -q.z, q.w)
    ensures r.boneName in transforms ==>
      var (c, s) := transforms[r.boneName];
      var q := if r.boneName in offsets then Mul(offsets[r.boneName], m.rotation) else m.rotation;
      && r.position == RotZVec(Vec3(-VmdScale * m.position.x, VmdScale * m.position.y, -VmdScale * m.position.z), c, s)
      && r.rotation == RotZQuat(Quat(-q.x, q.y, -q.z, q.w), c, s)
  {
    var name := MappedName(nameMap, m.boneName);
    var rot := if name in offsets then Mul(offsets[name], m.rotation) else m.rotation;
    var pos := Vec3(m.position.x * VmdScale, m.position.y * VmdScale, m.position.z * VmdScale);
    var pos1 := RotYVec(pos, -1.0, 0.0);
    var rot1 := RotYQuat(rot, -1.0, 0.0);
    if name in transforms then
      var (c, s) := transforms[name];
      Motion(name, m.frame, RotZVec(pos1, c, s), RotZQuat(rot1, c, s))
    else
      Motion(name, m.frame, pos1, rot1)
  }

  // ---------------------------------------------------------------------
  // The lower-body fold.

  const LowerBodyName: string := "下半身"
  const CenterName: string := "センター"
  const UpperBodyName: string := "上半身"

  ghost predicate FramesSorted(keys: seq<Motion>)
  {
    forall i, j :: 0 <= i < j < |keys| ==> keys[i].frame <= keys[j].frame
  }

  /** The key a frame reads: the first key at or after it, or the last key. */
  function LookupIndex(keys: seq<Motion>, f: int): (i: nat)
    requires |keys| > 0
    ensures i < |keys|
    ensures forall j :: 0 <= j < i ==> keys[j].frame < f
    ensures i < |keys| - 1 ==> f <= keys[i].frame
    decreases |keys|
  {
    if |keys| == 1 || f <= keys[0].frame then 0
    else 1 + LookupIndex(keys[1..], f)
  }

  /** An index with only earlier frames before it and the frame at or before
      it (unless it is the last key) is the lookup's answer. */
  lemma LookupIndexAt(keys: seq<Motion>, f: int, i: nat)
    requires i < |keys|
    requires forall j :: 0 <= j < i ==> keys[j].frame < f
    requires i < |keys| - 1 ==> f <= keys[i].frame
    ensures LookupIndex(keys, f) == i
  {
  }

  /** Later frames never read earlier keys. */
  lemma LookupMonotone(keys: seq<Motion>, f: int, g: int)
    requires |keys| > 0 && FramesSorted(keys) && f <= g
    ensures LookupIndex(keys, f) <= LookupIndex(keys, g)
  {
  }

  /** Every key before `i` lies strictly before frame `f`. */
  ghost predicate Below(keys: seq<Motion>, i: nat, f: int)
  {
    forall j :: 0 <= j < i && j < |keys| ==> keys[j].frame < f
  }

  /** The index walk of `update`: over frames in order, the key index only
      moves forward, and it lands where the independent lookup puts it. */
  method WalkIndices(keys: seq<Motion>, targets: seq<int>) returns (idx: seq<nat>)
    requires |keys| > 0 && FramesSorted(keys)
    requires forall a, b :: 0 <= a < b < |targets| ==> targets[a] <= targets[b]
    ensures |idx| == |targets|
    ensures forall k :: 0 <= k < |targets| ==> idx[k] == LookupIndex(keys, targets[k])
    ensures forall a, b :: 0 <= a < b < |idx| ==> idx[a] <= idx[b] < |keys|
  {
    idx := [];
    var i := 0;
    for k := 0 to |targets|
      invariant |idx| == k && i < |keys|
      invariant forall m :: 0 <= m < k ==> idx[m] == LookupIndex(keys, targets[m])
      invariant k == 0 ==> i == 0
      invariant k > 0 ==> Below(keys, i, targets[k - 1])
    {
      var f := targets[k];
      while i < |keys| - 1 && f > keys[i].frame
        invariant i < |keys| && Below(keys, i, f)
      {
        i := i + 1;
      }
      LookupIndexAt(keys, f, i);
      idx := idx + [i];
    }
    forall a, b | 0 <= a < b < |idx| ensures idx[a] <= idx[b] < |keys| {
      LookupMonotone(keys, targets[a], targets[b]);
    }
  }

  /** The interpolation parameter, when the frame falls strictly between two keys. */
  function BlendParam(keys: seq<Motion>, f: int): (t: Option<real>)
    requires |keys| > 0
  {
    var i := LookupIndex(keys, f);
    if i > 0 && f < keys[i].frame then
      Some((f - keys[i - 1].frame) as real / (keys[i].frame - keys[i - 1].frame) as real)
    else None
  }

  /** Blending happens only strictly between two keys, so the divisor is
      positive and the parameter lies in (0, 1); before the first key and
      after the last key the end key is used as is. */
  lemma BlendParamRange(keys: seq<Motion>, f: int)
    requires |keys| > 0 && FramesSorted(keys)
    ensures BlendParam(keys, f).Some? ==>
      var i := LookupIndex(keys, f);
      && keys[i - 1].frame < f < keys[i].frame
      && 0.0 < BlendParam(keys, f).value < 1.0
    ensures f < keys[0].frame ==> LookupIndex(keys, f) == 0 && BlendParam(keys, f).None?
    ensures f > keys[|keys| - 1].frame ==> LookupIndex(keys, f) == |keys| - 1 && BlendParam(keys, f).None?
  {
    var i := LookupIndex(keys, f);
    if BlendParam(keys, f).Some? {
      var lo := (f - keys[i - 1].frame) as real;
      var hi := (keys[i].frame - keys[i - 1].frame) as real;
      assert 0.0 < lo < hi;
      assert lo / hi < 1.0 by {
        assert lo / hi * hi == lo;
      }
    }
  }

  /** The lower-body rotation a frame reads: the key's, or the slerp between
      the surrounding keys (`slerp` stands for THREE's `Quaternion.slerp`). */
  function LowerBodyRotation(keys: seq<Motion>, f: int, slerp: (Quat, Quat, real) -> Quat): Quat
    requires |keys| > 0
  {
    var i := LookupIndex(keys, f);
    match BlendParam(keys, f)
    case Some(t) => slerp(keys[i].rotation, keys[i - 1].rotation, 1.0 - t)
    case None => keys[i].rotation
  }

  /** The effect of the lower-body fold on one key. */
  function FoldLowerBody(m: Motion, keys: seq<Motion>, slerp: (Quat, Quat, real) -> Quat): (r: Motion)
    requires |keys| > 0
    ensures r.boneName == m.boneName && r.frame == m.frame && r.position == m.position
    ensures m.boneName == LowerBodyName ==> r.rotation == Identity
    ensures m.boneName == CenterName ==> r.rotation == Mul(m.rotation, LowerBodyRotation(keys, m.frame, slerp))
    ensures m.boneName == UpperBodyName ==>
      r.rotation == Mul(m.rotation, Conjugate(LowerBodyRotation(keys, m.frame, slerp)))
    ensures m.boneName !in {LowerBodyName, CenterName, UpperBodyName} ==> r == m
  {
    if m.boneName == CenterName then
      m.(rotation := Mul(m.rotation, LowerBodyRotation(keys, m.frame, slerp)))
    else if m.boneName == UpperBodyName then
      m.(rotation := Mul(m.rotation, Conjugate(LowerBodyRotation(keys, m.frame, slerp))))
    else if m.boneName == LowerBodyName then
      m.(rotation := Identity)
    else m
  }

  function FrameKey(m: Motion): seq<int> { [m.frame] }

  /** Sorted by frame in `FrameKey` order means frames are non-decreasing. */
  lemma FrameKeySorted(keys: seq<Motion>)
    requires SortedBy(keys, FrameKey)
    ensures FramesSorted(keys)
  {
    forall i, j | 0 <= i < j < |keys| ensures keys[i].frame <= keys[j].frame {
      assert LexLe(FrameKey(keys[i]), FrameKey(keys[j]));
    }
  }

  predicate IsLowerBody(m: Motion) { m.boneName == LowerBodyName }

  /** The lower-body keys, sorted by frame: exactly the clip's lower-body
      keys, and keys on the same frame keep their order in the clip. */
  function LowerBodyKeys(motions: seq<Motion>): (keys: seq<Motion>)
    ensures FramesSorted(keys)
    ensures multiset(keys) == multiset(Seqs.Filter(motions, IsLowerBody))
    ensures forall v ::
      Seqs.Filter(keys, WithKey(FrameKey, v)) == Seqs.Filter(Seqs.Filter(motions, IsLowerBody), WithKey(FrameKey, v))
    ensures forall k :: 0 <= k < |keys| ==> keys[k].boneName == LowerBodyName && keys[k] in motions
    ensures |keys| == 0 <==> forall k :: 0 <= k < |motions| ==> motions[k].boneName != LowerBodyName
  {
    var lower := Seqs.Filter(motions, IsLowerBody);
    var keys := SortBy(lower, FrameKey);
    FrameKeySorted(keys);
    Seqs.FilterEmpty(motions, IsLowerBody);
    SortByMembers(lower, FrameKey);
    keys
  }

  /** The lower-body fold over all keys; a clip without lower-body keys is unchanged. */
  function LowerBodyPass(motions: seq<Motion>, slerp: (Quat, Quat, real) -> Quat): (r: seq<Motion>)
    ensures |r| == |motions|
    ensures |LowerBodyKeys(motions)| == 0 ==> r == motions
    ensures |LowerBodyKeys(motions)| > 0 ==>
      forall k :: 0 <= k < |motions| ==> r[k] == FoldLowerBody(motions[k], LowerBodyKeys(motions), slerp)
  {
    var keys := LowerBodyKeys(motions);
    if |keys| == 0 then motions
    else seq(|motions|, k requires 0 <= k < |motions| => FoldLowerBody(motions[k], keys, slerp))
  }

  /** After the fold every lower-body key holds the identity rotation. */
  lemma LowerBodyCleared(motions: seq<Motion>, slerp: (Quat, Quat, real) -> Quat)
    ensures forall k :: 0 <= k < |motions| && motions[k].boneName == LowerBodyName ==>
      LowerBodyPass(motions, slerp)[k].rotation == Identity
  {
  }

  /** The VMD part of `load`: the lower-body fold, then every key converted
      with the upper-arm rotation offsets built from the avatar's bones. The
      z transforms are keyed by avatar node name; they come from the arms'
      descendants. */
  function ConvertVmd(motions: seq<Motion>, bones: map<string, string>, aboutZ: int -> Quat,
                      transforms: map<string, (real, real)>, slerp: (Quat, Quat, real) -> Quat): (r: seq<Motion>)
    ensures |r| == |motions|
    ensures forall k :: 0 <= k < |r| ==>
      r[k] == ConvertMotion(LowerBodyPass(motions, slerp)[k], VmdNameMap(bones), RotationOffsets(bones, aboutZ), transforms)
  {
    var folded := LowerBodyPass(motions, slerp);
    var nameMap := VmdNameMap(bones);
    var offsets := RotationOffsets(bones, aboutZ);
    seq(|folded|, k requires 0 <= k < |folded| => ConvertMotion(folded[k], nameMap, offsets, transforms))
  }
}

=== FILE: vmd_names.dfy ===
/** The MMD (VMD) bone-name table of the VMD loader wrapper: for each VRM
    humanoid bone, its Japanese and English MMD names, in source order. */
module VmdBoneNames {

  /** A humanoid bone id with the MMD node names that animate it. */
  type MappingEntry = (string, seq<string>)

  const BoneMapping: seq<MappingEntry> := [
    ("hips", ["センター", "center"]),
    ("spine", ["上半身", "upper body"]),
    ("chest", ["上半身2", "upper body2"]),
    ("neck", ["首", "neck"]),
    ("head", ["頭", "head"]),
    ("leftShoulder", ["左肩", "shoulder_L"]),
    ("leftUpperArm", ["左腕", "arm_L"]),
    ("leftLowerArm", ["左ひじ", "elbow_L"]),
    ("leftHand", ["左手首", "wrist_L"]),
    ("rightShoulder", ["右肩", "shoulder_R"]),
    ("rightUpperArm", ["右腕", "arm_R"]),
    ("rightLowerArm", ["右ひじ", "elbow_R"]),
    ("rightHand", ["右手首", "wrist_R"]),
    ("leftUpperLeg", ["左足", "leg_L"]),
    ("leftLowerLeg", ["左ひざ", "knee_L"]),
    ("leftFoot", ["左足首", "ankle_L"]),
    ("leftToes", ["左つま先", "L toe"]),
    ("rightUpperLeg", ["右足", "leg_R"]),
    ("rightLowerLeg", ["右ひざ", "knee_R"]),
    ("rightFoot", ["右足首", "ankle_R"]),
    ("rightToes", ["右つま先", "R toe"]),
    ("leftEye", ["左目", "eye_L"]),
    ("rightEye", ["右目", "eye_R"]),
    ("leftThumbProximal", ["左親指０", "thumb0_L"]),
    ("leftThumbIntermediate", ["左親指１", "thumb1_L"]),
    ("leftThumbDistal", ["左親指２", "thumb2_L"]),
    ("leftIndexProximal", ["左人指１", "fore1_L"]),
    ("leftIndexIntermediate", ["左人指２", "fore2_L"]),
    ("leftIndexDistal", ["左人指３", "fore3_L"]),
    ("leftMiddleProximal", ["左中指１", "middle1_L"]),
    ("leftMiddleIntermediate", ["左中指２", "middle2_L"]),
    ("leftMiddleDistal", ["左中指３", "middle3_L"]),
    ("leftRingProximal", ["左薬指１", "third1_L"]),
    ("leftRingIntermediate", ["左薬指２", "third2_L"]),
    ("leftRingDistal", ["左薬指３", "third3_L"]),
    ("leftLittleProximal", ["左小指１", "little1_L"]),
    ("leftLittleIntermediate", ["左小指２", "little2_L"]),
    ("leftLittleDistal", ["左小指３", "little3_L"]),
    ("rightThumbProximal", ["右親指０", "thumb0_R"]),
    ("rightThumbIntermediate", ["右親指１", "thumb1_R"]),
    ("rightThumbDistal", ["右親指２", "thumb2_R"]),
    ("rightIndexProximal", ["右人指１", "fore1_R"]),
    ("rightIndexIntermediate", ["右人指２", "fore2_R"]),
    ("rightIndexDistal", ["右人指３", "fore3_R"]),
    ("rightMiddleProximal", ["右中指１", "middle1_R"]),
    ("rightMiddleIntermediate", ["右中指２", "middle2_R"]),
    ("rightMiddleDistal", ["右中指３", "middle3_R"]),
    ("rightRingProximal", ["右薬指１", "third1_R"]),
    ("rightRingIntermediate", ["右薬指２", "third2_R"]),
    ("rightRingDistal", ["右薬指３", "third3_R"]),
    ("rightLittleProximal", ["右小指１", "little1_R"]),
    ("rightLittleIntermediate", ["右小指２", "little2_R"]),
    ("rightLittleDistal", ["右小指３", "little3_R"])]
}

=== FILE: vrma.dfy ===
/** Name remapping and shortest-path alignment for VRM animation (VRMA)
    clips: tracks named "<Node>.<property>" whose node is a VRM humanoid bone
    are rebound to the avatar's node, and consecutive rotation samples are
    put in the same hemisphere so interpolation takes the short way round. */
module VrmaRetarget {
  import opened Text
  import opened Options
  import opened Quaternions
  import opened Animation

  /** The humanoid bones a VRMA clip may animate. */
  const HumanoidBoneNames: seq<string> := [
    "hips", "spine", "chest", "upperChest", "neck", "head",
    "leftShoulder", "leftUpperArm", "leftLowerArm", "leftHand",
    "rightShoulder", "rightUpperArm", "rightLowerArm", "rightHand",
    "leftUpperLeg", "leftLowerLeg", "leftFoot", "leftToes",
    "rightUpperLeg", "rightLowerLeg", "rightFoot", "rightToes",
    "leftEye", "rightEye", "jaw"]

  /** Characters `.` does not match in a JavaScript regular expression. */
  predicate IsLineTerminator(c: char)
  {
    c == '\n' || c == '\r' || c == ' ' || c == ' '
  }

  predicate NoLineTerminator(s: string)
  {
    forall k :: 0 <= k < |s| ==> !IsLineTerminator(s[k])
  }

  /** A '.' at `d` with at least one character on each side. */
  predicate SplitDotAt(s: string, d: int)
  {
    1 <= d <= |s| - 2 && s[d] == '.'
  }

  /** The greatest split dot at or below `hi`, or -1. */
  function LastSplitDot(s: string, hi: int): (d: int)
    ensures d == -1 || (d <= hi && SplitDotAt(s, d))
    ensures forall j :: d < j <= hi ==> !SplitDotAt(s, j)
    decreases hi + 1
  {
    if hi < 1 then -1
    else if SplitDotAt(s, hi) then hi
    else LastSplitDot(s, hi - 1)
  }

  /** `name.match(/^(.+)\.(.+)$/)`: greedy, so the split is at the last dot
      that leaves a non-empty property. */
  function SplitNodeProperty(name: string): (r: Option<(string, string)>)
    ensures r.None? <==> !NoLineTerminator(name) || forall d :: !SplitDotAt(name, d)
    ensures r.Some? ==> name == r.value.0 + "." + r.value.1 && |r.value.0| >= 1 && |r.value.1| >= 1
    ensures r.Some? ==> forall k :: 0 <= k < |r.value.1| - 1 ==> r.value.1[k] != '.'
  {
    if !NoLineTerminator(name) then None
    else
      var d := LastSplitDot(name, |name| - 2);
      if d < 0 then None
      else
        var node := name[..d];
        var prop := name[d + 1..];
        assert name == node + "." + prop;
        forall k | 0 <= k < |prop| - 1 ensures prop[k] != '.' {
          assert !SplitDotAt(name, d + 1 + k);
        }
        Some((node, prop))
  }

  /** Joining a node and a dot-free property and splitting again gives them back. */
  lemma SplitJoin(node: string, prop: string)
    requires |node| >= 1 && |prop| >= 1 && NoLineTerminator(node) && NoLineTerminator(prop)
    requires forall k :: 0 <= k < |prop| ==> prop[k] != '.'
    ensures SplitNodeProperty(node + "." + prop) == Some((node, prop))
  {
    var name := node + "." + prop;
    assert NoLineTerminator(name) by {
      forall k | 0 <= k < |name| ensures !IsLineTerminator(name[k]) {
        if k > |node| { assert name[k] == prop[k - |node| - 1]; }
      }
    }
    assert SplitDotAt(name, |node|);
    assert name[..|node|] == node;
  }

  /** The node name of the humanoid bone a VRMA node name refers to, when the
      avatar has that bone. */
  function BoundNode(node: string, bones: map<string, string>): (r: Option<string>)
    ensures r.Some? <==> LowerFirst(node) in HumanoidBoneNames && LowerFirst(node) in bones
    ensures r.Some? ==> r.value == bones[LowerFirst(node)]
  {
    var id := LowerFirst(node);
    if id in HumanoidBoneNames && id in bones then Some(bones[id]) else None
  }

  /** The first pass of `remapVRMATrackNames` on one track name. */
  function RemapName(name: string, bones: map<string, string>): (r: string)
    ensures SplitNodeProperty(name).None? ==> r == name
    ensures SplitNodeProperty(name).Some? ==>
      var (node, prop) := SplitNodeProperty(name).value;
      r == match BoundNode(node, bones) case Some(n) => n + "." + prop case None => name
  {
    match SplitNodeProperty(name)
    case None => name
    case Some((node, prop)) =>
      match BoundNode(node, bones)
      case Some(n) => n + "." + prop
      case None => name
  }

  /** A remapped name keeps its property and names the avatar's node, as long
      as the avatar's node names are plain (non-empty, single-line) and the
      property has no dot. */
  lemma RemapKeepsProperty(name: string, bones: map<string, string>)
    requires forall id :: id in bones ==> |bones[id]| >= 1 && NoLineTerminator(bones[id])
    requires SplitNodeProperty(name).Some?
    requires forall k :: 0 <= k < |SplitNodeProperty(name).value.1| ==> SplitNodeProperty(name).value.1[k] != '.'
    ensures var (node, prop) := SplitNodeProperty(name).value;
      var r := RemapName(name, bones);
      SplitNodeProperty(r) == Some((BoundNode(node, bones).GetOr(node), prop))
  {
    var (node, prop) := SplitNodeProperty(name).value;
    assert NoLineTerminator(node) && NoLineTerminator(prop) by {
      forall k | 0 <= k < |node| ensures !IsLineTerminator(node[k]) { assert node[k] == name[k]; }
      forall k | 0 <= k < |prop| ensures !IsLineTerminator(prop[k]) { assert prop[k] == name[|node| + 1 + k]; }
    }
    match BoundNode(node, bones)
    case Some(n) => SplitJoin(n, prop);
    case None => SplitJoin(node, prop);
  }

  // ---------------------------------------------------------------------
  // Shortest-path alignment of rotation tracks.

  /** `q`, or its negation when that is closer to `prev`. Both are the same rotation. */
  function Hemisphere(prev: Quat, q: Quat): (r: Quat)
    ensures r == q || r == Neg(q)
    ensures Dot(prev, r) >= 0.0
    ensures Dot(prev, q) >= 0.0 ==> r == q
  {
    if Dot(prev, q) < 0.0 then
      NegFlipsDot(prev, q);
      Neg(q)
    else q
  }

  /** `r` is `vals` after the in-place alignment loop: the first sample and any
      incomplete tail are kept, and each later sample is taken in the
      hemisphere of the already aligned sample before it. */
  ghost predicate AlignedFrom(vals: seq<real>, r: seq<real>)
  {
    && |r| == |vals|
    && (forall j :: 4 * (|vals| / 4) <= j < |vals| ==> r[j] == vals[j])
    && (|vals| >= 4 ==> SampleAt(r, 0) == SampleAt(vals, 0))
    && (forall k :: 1 <= k < |vals| / 4 ==> SampleAt(r, k) == Hemisphere(SampleAt(r, k - 1), SampleAt(vals, k)))
  }

  /** Consecutive complete samples never point into opposite hemispheres. */
  ghost predicate ShortestPath(vals: seq<real>)
  {
    forall k :: 1 <= k < |vals| / 4 ==> Dot(SampleAt(vals, k - 1), SampleAt(vals, k)) >= 0.0
  }

  /** The alignment loop of `remapVRMATrackNames`, sample by sample. An
      incomplete trailing sample is left alone (its dot product is NaN in the
      source, and NaN < 0 is false). */
  method AlignHemispheres(vals: seq<real>) returns (r: seq<real>)
    ensures AlignedFrom(vals, r)
    ensures ShortestPath(r)
    ensures ShortestPath(vals) ==> r == vals
  {
    var n := |vals| / 4;
    if n == 0 {
      return vals;
    }
    var out := vals[..4];
    var k := 1;
    while k < n
      invariant 1 <= k <= n
      invariant |out| == 4 * k
      invariant SampleAt(out, 0) == SampleAt(vals, 0)
      invariant forall m :: 1 <= m < k ==> SampleAt(out, m) == Hemisphere(SampleAt(out, m - 1), SampleAt(vals, m))
      invariant ShortestPath(vals) ==> out == vals[..4 * k]
    {
      var q := Hemisphere(SampleAt(out, k - 1), SampleAt(vals, k));
      ghost var before := out;
      out := out + ToArray(q);
      assert forall m :: 0 <= m < k ==> SampleAt(out, m) == SampleAt(before, m);
      assert SampleAt(out, k) == q;
      if ShortestPath(vals) {
        assert SampleAt(before, k - 1) == SampleAt(vals, k - 1);
        assert q == SampleAt(vals, k);
        assert vals[..4 * (k + 1)] == vals[..4 * k] + ToArray(SampleAt(vals, k));
      }
      k := k + 1;
    }
    r := out + vals[4 * n..];
    assert forall m :: 0 <= m < n ==> SampleAt(r, m) == SampleAt(out, m);
    if ShortestPath(vals) {
      assert vals == vals[..4 * n] + vals[4 * n..];
    }
  }

  /** `remapVRMATrackNames`: every track renamed, then rotation tracks aligned. */
  method RemapVrmaClip(clip: Clip, bones: map<string, string>) returns (r: Clip)
    ensures r.name == clip.name && r.duration == clip.duration && |r.tracks| == |clip.tracks|
    ensures forall k :: 0 <= k < |r.tracks| ==>
      var t := clip.tracks[k]; var u := r.tracks[k];
      && u.name == RemapName(t.name, bones) && u.times == t.times
      && (EndsWith(u.name, ".quaternion") ==> AlignedFrom(t.values, u.values) && ShortestPath(u.values))
      && (!EndsWith(u.name, ".quaternion") ==> u.values == t.values)
  {
    var out: seq<Track> := [];
    for k := 0 to |clip.tracks|
      invariant |out| == k
      invariant forall m :: 0 <= m < k ==>
        var t := clip.tracks[m]; var u := out[m];
        && u.name == RemapName(t.name, bones) && u.times == t.times
        && (EndsWith(u.name, ".quaternion") ==> AlignedFrom(t.values, u.values) && ShortestPath(u.values))
        && (!EndsWith(u.name, ".quaternion") ==> u.values == t.values)
    {
      var t := clip.tracks[k];
      var name := RemapName(t.name, bones);
      var values := t.values;
      if EndsWith(name, ".quaternion") {
        values := AlignHemispheres(t.values);
      }
      out := out + [Track(name, t.times, values)];
    }
    r := Clip(clip.name, clip.duration, out);
  }
}
